=== FILE: README.md ===
# TieLog core, modelled in Dafny

TieLog is an offline-first networking notebook. A user keeps **clusters**
(groups of contacts), the **organizations** in each cluster, the **people** at
each organization, and **notes**. Every write goes first to a browser-local
IndexedDB database (Dexie) and is recorded in a **sync queue**. A push later
replays that queue against Supabase, and a pull copies the remote rows back
into the local database. Payments go through Stripe: a checkout route builds
the session parameters, and a webhook moves a billing profile between plans.

This project models:

- the local store and its queue (`Db`);
- the push, the pull and the online listener (`Sync`);
- the application store's mutations and loaders (`AppStore`);
- how a local write turns into a remote operation (`Flows`);
- the ownership-scoped search page (`Search`);
- the note editor's validation, tag scanner and submit (`NoteEditor`);
- the note card's tag field, joined on open and parsed on save (`NoteCard`);
- the Stripe webhook (`StripeWebhook`) and the checkout route (`Checkout`);
- the structured logger (`Logger`).

Three helper modules hold the supporting definitions:

- `Basics` holds Option, Result, JSON-like values and sequence filtering.
- `Text` holds ASCII lower-casing, trimming, splitting and joining.
- `Ordering` holds the string order and the index orders Dexie returns rows in.

Everything is a pure function on immutable values. The outside world enters as
parameters:

- the clock, as `now`;
- fresh ids, as `id`;
- which remote calls fail, as a set of call indices or tables;
- what Stripe's signature check returns;
- whether the ORM's calls throw, and the message of the error its `update`
  throws when no profile has the id (`StripeWebhook.Orm`);
- what parsing the checkout request's body gives;
- the URL Stripe hands back for a new session.

Each local table is a map from id to row. The sync queue is a sequence of
items plus the next value of IndexedDB's key generator, which starts at 1 and
is not reset by `clear()`. The remote store is a map from table to rows, each
row a map from column to value. A column the client leaves `undefined` is
dropped from the JSON body, so an upsert leaves that column as it was.

Where the code differs from what its tests (`src/__tests__/sync.test.ts`) expect
or from what its names suggest, the model follows the code:

- A failed remote call is logged and skipped, never retried, and its queue item
  is deleted with the rest. The test file expects three attempts; the code
  makes one.
- The pull filters clusters by `user_id`, but fetches organizations, people and
  notes without any filter (`src/lib/sync.ts:175-186`).
- An update sends only the changed fields. `updated_at` is set locally but not
  sent, so the remote row keeps its old `updated_at` (`Flows.UpsertKeepsUnsentColumns`).
- Deleting a cluster removes its organizations and notes but not the people at
  those organizations. They stay behind with a dangling `organization_id`
  (`AppStore.DeleteClusterOrphansPeople`).
- The Stripe `subscription.updated` branch copies the status through unchanged.
  Its status-mapping table maps every known value to itself
  (`StripeWebhook.MapStatusIsIdentity`).

## Model

| member | source | states |
|---|---|---|
| Db.ParseTable | src/lib/db.ts:56-59 | reading a table name back gives the table it names, and fails only on a string that names no table |
| Db.ParseAction | src/lib/db.ts:56-59 | reading an action name back gives the action it names, and fails only on a string that names no action |
| Db.EmptyQueueWf | src/lib/db.ts:75-82 | the empty queue, with the key generator at 1, satisfies the queue invariant (known names, defined ids, strictly increasing ids below the generator) |
| Db.AddToSyncQueue | src/lib/db.ts:88-101 | one item is appended with the given table, action, payload and user, and the earlier items are untouched; its id is the generator's value and exceeds every earlier id; the invariant is kept |
| Db.GetPendingSyncItems | src/lib/db.ts:103-105 | the pending items are exactly the queued items, in increasing id order |
| Db.ClearSyncQueue | src/lib/db.ts:107-109 | clearing empties the queue but keeps the key generator, so later ids never repeat earlier ones |
| Db.Without | src/lib/db.ts:107-109 | an item survives exactly when its id is not among the deleted ids |
| Db.WithoutKeepsOrder | src/lib/db.ts:103-105 | deleting items keeps the survivors in increasing id order |
| Db.WithoutNothingNamed | src/lib/db.ts:107-109 | deleting ids that name no queued item changes nothing |
| Db.BulkDelete | src/lib/sync.ts:25-28 | the queue loses exactly the named items, keeps its generator and keeps its invariant |
| Ordering.Rows | src/lib/db.ts:103-105 | reading a whole table gives each stored row exactly once, in ascending order of the key it is stored under |
| Ordering.RowsInKeyOrder | src/lib/db.ts:103-105 | when every row is stored under its own id, a whole-table read is in strictly ascending id order |
| Ordering.SortBy | src/app/search/page.tsx:56 | a query through an index returns the same rows, ordered by the index value and then by id |
| Ordering.NewestFirst | src/store/appStore.ts:77-80 | reading by `created_at` in reverse returns the same rows, newest first |
| Sync.Rebuild | src/lib/sync.ts:38-56 | the record sent keeps the item's id and every column other than `user_id`; a cluster gets the syncing user's id unless the payload carries its own `user_id` |
| Sync.Project | src/lib/sync.ts:77-151 | the row sent has exactly the table's columns, each taken from the record |
| Sync.Outcomes | src/lib/sync.ts:15-22 | the i-th call takes effect exactly when it does not fail and the remote accepts it; a failure does not stop the loop |
| Sync.ReplayAttempts | src/lib/sync.ts:15-22 | running the loop gives exactly the per-call outcomes above |
| Sync.ReplayRemote | src/lib/sync.ts:15-22 | the remote after the loop is the start state with exactly the successful operations applied, in order |
| Sync.UserItems | src/lib/sync.ts:6 | the items pushed are exactly the queued items of the syncing user |
| Sync.DefinedIds | src/lib/sync.ts:25 | the ids collected are exactly the defined ids of the pushed items |
| Sync.Dequeue | src/lib/sync.ts:25-28 | every pushed item leaves the queue, whether its call succeeded or not; other users' items stay; the invariant is kept |
| Sync.SyncToSupabase | src/lib/sync.ts:4-30 | with nothing of the user's queued, nothing changes; otherwise each of the user's items with a known table and action leads to exactly one call, in queue order, a failing call does not stop the others, the remote gets exactly the calls that succeeded, and the queue loses all the user's items whatever their outcome |
| Sync.DeletesExactlyUserItems | src/lib/sync.ts:25-28 | in a well-formed queue, the ids deleted name exactly the syncing user's items |
| Sync.Overlay | src/lib/sync.ts:188-210 | a fetched table's rows replace local rows of the same id, marked synced; other local rows stay; a failed fetch leaves the table alone |
| Sync.Fetch | src/lib/sync.ts:169-186 | a query fails exactly for the tables in the failure set; otherwise it returns the remote rows |
| Sync.OwnedClusters | src/lib/sync.ts:169-173 | the clusters pulled are exactly the remote clusters owned by the user |
| Sync.FetchFromSupabase | src/lib/sync.ts:165-213 | without a session or user nothing changes; the profile table and the queue never change; every fetched row lands locally marked synced; a new local cluster always belongs to the user; a failed table keeps its local rows; for a fetched table the ids afterwards are the local ids plus the fetched ones, and every local row whose id was not fetched is kept unchanged |
| Sync.PullTwiceIsPullOnce | src/lib/sync.ts:188-210 | pulling the same remote rows a second time leaves the device database as the first pull left it |
| Sync.SetupOnlineListener | src/lib/sync.ts:153-163 | without a window nothing is registered; otherwise both handlers are added and a teardown handle is returned |
| Sync.Teardown | src/lib/sync.ts:159-162 | the teardown removes exactly the two handlers it was given |
| Sync.SetupThenTeardown | src/lib/sync.ts:153-163 | for handlers not yet registered, registering the two and then calling the returned teardown leaves the listeners as they were |
| Sync.ActionMapping | src/lib/sync.ts:38-151 | an item maps to a remote operation exactly when its table and action are known; a delete removes the item's id, and any other action upserts exactly the table's columns taken from the payload, with a cluster's owner filled in from the syncing user |
| AppStore.Enqueue | src/store/appStore.ts:97-116 | a mutation appends exactly one queue item and leaves every table as it was |
| AppStore.SetUser | src/store/appStore.ts:57 | the user is stored, and the user id is set exactly when the user has a non-empty id; nothing else changes |
| AppStore.ClearUserData | src/store/appStore.ts:61-69 | signing out empties the in-memory lists and the user, and keeps the local database and the online flag |
| Basics.FilteredFromIsFilter | src/store/appStore.ts:136-140 | a list is what `.filter` leaves exactly when it is a subsequence of the original whose entries all pass the test and which has as many entries as pass |
| AppStore.FilterKeepsDescending | src/store/appStore.ts:71-95 | filtering a newest-first list keeps it newest first |
| AppStore.LoadClusters | src/store/appStore.ts:71-95 | the list shown is exactly the user's clusters plus unowned ones (or every cluster when signed out), newest first, each cluster once when rows are stored under their ids |
| AppStore.LoadOrganizations | src/store/appStore.ts:144-147 | the list shown is exactly the organizations of the given cluster, in strictly ascending id order when rows are stored under their ids |
| AppStore.LoadPeople | src/store/appStore.ts:190-193 | the list shown is exactly the people of the given organization, in strictly ascending id order when rows are stored under their ids |
| AppStore.LoadNotes | src/store/appStore.ts:235-243 | the list shown is exactly the notes of the given cluster, or every note when none is given, newest first, each note once when rows are stored under their ids |
| AppStore.AddCluster | src/store/appStore.ts:97-116 | signed out it fails; otherwise the new unsynced cluster is stored under its id, one create item is queued for it, and it is shown first |
| AppStore.AddOrganization | src/store/appStore.ts:149-164 | signed out it fails; otherwise the organization is stored, one create item is queued, and it is shown last |
| AppStore.AddPerson | src/store/appStore.ts:195-211 | signed out it fails; otherwise the person is stored, one create item is queued, and it is shown last |
| AppStore.AddNote | src/store/appStore.ts:245-261 | signed out it fails; otherwise the note is stored, one create item is queued, and it is shown first |
| AppStore.UpdateCluster | src/store/appStore.ts:118-127 | signed out nothing changes; otherwise only the named cluster is patched and marked unsynced with a new `updated_at`, a missing id changes no row, one update item is queued, and the shown list is patched in place |
| AppStore.UpdateOrganization | src/store/appStore.ts:166-175 | as for clusters, except that organizations carry no `updated_at` |
| AppStore.UpdatePerson | src/store/appStore.ts:213-222 | as for clusters, except that people carry no `updated_at` |
| AppStore.UpdateNote | src/store/appStore.ts:263-272 | as for clusters: only the named note is patched and marked unsynced, and one update item is queued |
| AppStore.DeleteCluster | src/store/appStore.ts:129-142 | the cluster, its organizations and its notes go, locally and on screen; people and profiles stay; one delete item is queued; each on-screen list keeps exactly its passing entries, each as often and in the same order as before, so the cluster and note lists stay newest first and the organization list stays in id order |
| AppStore.DeleteOrganization | src/store/appStore.ts:177-188 | the organization and its people go; clusters and notes stay; one delete item is queued; the on-screen organization and people lists keep exactly their passing entries, each as often and in the same order as before, so id order is kept |
| AppStore.DeletePerson | src/store/appStore.ts:224-233 | only the person goes; one delete item is queued; the on-screen people list keeps every other entry as often and in the same order as before, so id order is kept |
| AppStore.DeleteNote | src/store/appStore.ts:274-283 | only the note goes; one delete item is queued; the on-screen note list keeps every other entry as often and in the same order as before, so it stays newest first |
| AppStore.DeleteClusterOrphansPeople | src/store/appStore.ts:129-142 | a person at an organization of the deleted cluster survives, with an organization id that no longer resolves |
| AppStore.DeleteOrganizationKeepsNotes | src/store/appStore.ts:177-188 | deleting an organization removes none of the notes that refer to it |
| AppStore.AddThenDeleteCluster | src/store/appStore.ts:97-142 | adding then deleting a cluster restores the cluster table and queues a create followed by a delete |
| AppStore.AddedClusterIsLoaded | src/store/appStore.ts:71-116 | a cluster just added is among those the next load shows |
| AppStore.UpdateClusterTwice | src/store/appStore.ts:118-127 | applying the same patch twice leaves the same rows as once, but queues two items |
| Flows.AddedClusterIsPushed | src/store/appStore.ts:97-116 | a new cluster's queue item is pushed as an upsert of the clusters table carrying its id, owner, name and description |
| Flows.ClusterCreateIsUpsert | src/lib/sync.ts:44-45 | a cluster create item becomes an upsert of exactly the cluster columns with the owner's id |
| Flows.DeletedClusterIsPushed | src/lib/sync.ts:77-94 | a cluster delete item becomes a remote delete of that id |
| Flows.UpdatedClusterIsPushed | src/store/appStore.ts:118-127 | a cluster edit is pushed as an upsert carrying the id, the user, and only the patched fields; the timestamps are left out |
| Flows.ClusterUpdateIsUpsert | src/lib/sync.ts:77-94 | an update item is an upsert whose unpatched columns are undefined |
| Flows.UpsertKeepsUnsentColumns | src/lib/sync.ts:77-94 | an upsert leaves every column it does not send at its previous remote value |
| Search.PersonSubtitle | src/app/search/page.tsx:82 | with a role the subtitle is "role @ " followed by the organization's name, empty when the organization is missing; without a role it is the organization's name, or nothing |
| Search.NoteTitle | src/app/search/page.tsx:98 | content of at most 100 characters is the title; longer content is cut to 100 and followed by "..." |
| Search.UserClusters | src/app/search/page.tsx:40 | the clusters searched are exactly those owned by the user, in ascending id order when every row is stored under its id |
| Search.ScopeOrganizations | src/app/search/page.tsx:56 | the organizations read are exactly those whose cluster is one of the given ones, ordered by (cluster id, id), strictly so (each row once) when rows are stored under their ids |
| Search.UserOrganizations | src/app/search/page.tsx:55-68 | the organizations searched are exactly those in the user's clusters |
| Search.ScopePeople | src/app/search/page.tsx:71-72 | the people read are exactly those whose organization is one of the given ones, ordered by (organization id, id), strictly so (each row once) when rows are stored under their ids |
| Search.ScopeNotes | src/app/search/page.tsx:89 | the notes searched are exactly those attached to one of the given clusters, ordered by (cluster id, id), strictly so (each row once) when rows are stored under their ids; a note without a cluster is never read |
| Search.Lookup | src/app/search/page.tsx:57-77 | the organization found has the person's organization id, and none is found only when no organization has it |
| Search.ClusterHitList | src/app/search/page.tsx:41-52 | the hits are the matching clusters' results, one per matching cluster, in the clusters' order |
| Search.ClusterHitsInOrder | src/app/search/page.tsx:40-52 | the cluster hits are the results of the user's matching clusters, in the order the index read returned them |
| Search.ClusterHits | src/app/search/page.tsx:40-52 | every cluster hit comes from a cluster the user owns that matches the term |
| Search.ClusterHitsComplete | src/app/search/page.tsx:40-52 | every cluster the user owns that matches the term is a hit |
| Search.OrganizationHitList | src/app/search/page.tsx:59-68 | the hits are the matching organizations' results, one per matching organization, in the organizations' order |
| Search.OrganizationHitsInOrder | src/app/search/page.tsx:55-68 | the organization hits are the results of the matching organizations in the user's clusters, in (cluster id, id) order |
| Search.OrganizationHits | src/app/search/page.tsx:55-68 | every organization hit comes from an organization in one of the user's clusters that matches the term |
| Search.OrganizationHitsComplete | src/app/search/page.tsx:55-68 | every organization in one of the user's clusters that matches the term is a hit |
| Search.ScopedPeopleAreSearched | src/app/search/page.tsx:71-86 | the people searched are exactly those at an organization in the user's clusters |
| Search.SearchedPersonHasOrganization | src/app/search/page.tsx:71-86 | every person searched has their organization found among the user's organizations |
| Search.PersonHitList | src/app/search/page.tsx:74-86 | the hits are the matching people's results, each with the organization looked up for it, in the people's order |
| Search.PersonHitsInOrder | src/app/search/page.tsx:71-86 | the person hits are the results of the matching people at the user's organizations, in (organization id, id) order |
| Search.PersonHits | src/app/search/page.tsx:71-86 | every person hit comes from a person at one of the user's organizations who matches the term, shown with that organization |
| Search.PersonHitsComplete | src/app/search/page.tsx:71-86 | every person at one of the user's organizations who matches the term is a hit, shown with their organization |
| Search.PersonHitsSound | src/app/search/page.tsx:71-86 | every entry of the people list is a matching person in scope, shown with their organization |
| Search.NoteHitList | src/app/search/page.tsx:91-103 | the hits are the matching notes' results, one per matching note, in the notes' order |
| Search.NoteHitsInOrder | src/app/search/page.tsx:89-103 | the note hits are the results of the matching notes in the user's clusters, in (cluster id, id) order |
| Search.NoteHits | src/app/search/page.tsx:89-103 | every note hit comes from a note in one of the user's clusters that matches the term |
| Search.NoteHitsComplete | src/app/search/page.tsx:89-103 | every note in one of the user's clusters that matches the term is a hit |
| Search.Assemble | src/app/search/page.tsx:37-103 | appending the four kinds in turn gives a list ordered by kind, holding exactly the members of the four parts, each from the part of its kind |
| Search.Results | src/app/search/page.tsx:38-104 | the results are the cluster hits, then the organization hits, then the person hits, then the note hits, each list kept in its own order; so they are ordered by kind, exactly the union of the four lists, and each result comes from the list of its kind |
| Search.ResultsComplete | src/app/search/page.tsx:38-104 | every row the user owns that matches the term is in the results |
| Search.ResultsSound | src/app/search/page.tsx:38-104 | every result is a row the user owns that matches the term |
| Search.RunSearch | src/app/search/page.tsx:28-110 | a blank query or no user clears the results; a query that changed meanwhile is discarded; otherwise the results are those for the lower-cased query |
| Search.SearchIgnoresCase | src/app/search/page.tsx:36 | two queries that differ only in letter case give the same page |
| NoteEditor.WordRun | src/components/NoteEditor.tsx:65-69 | the run found is all word characters and stops at the end or at a non-word character |
| NoteEditor.Scan | src/components/NoteEditor.tsx:65-69 | the global scan finds, in increasing order, every position where the sigil is followed by a word character |
| NoteEditor.TagAtShape | src/components/NoteEditor.tsx:65-69 | a match is the sigil plus the longest run of word characters after it, found at that position in the content |
| NoteEditor.Matches | src/components/NoteEditor.tsx:65-69 | one match per position found, each starting with the sigil, followed by word characters, and occurring in the content |
| NoteEditor.MatchesAreExactlyTheTagStarts | src/components/NoteEditor.tsx:65-69 | the matches sit exactly where a tag can begin, and each is maximal |
| NoteEditor.ExtractTags | src/components/NoteEditor.tsx:65-69 | the tags are the `#` matches in the order the scan finds them, followed by the `@` matches in that order; every entry is its sigil and a run of word characters that occurs in the content |
| NoteEditor.Validate | src/components/NoteEditor.tsx:9-13 | a form passes exactly when its content is non-empty, and fails with the required-content message |
| NoteEditor.SubmitNote | src/components/NoteEditor.tsx:71-83 | empty content is refused; otherwise the note carries the content, the cluster and the audio, an empty select becomes null, and the tags are null when none are found |
| NoteEditor.FilteredPeople | src/components/NoteEditor.tsx:61-63 | no one is offered before an organization is chosen, then exactly its people |
| NoteCard.InitEditTags | src/components/NoteCard.tsx:16 | a note without tags, or with an empty list, opens with an empty field; one tag opens as itself; a longer list opens as its first tag, ", ", and the rest joined the same way |
| NoteCard.ParseEditTags | src/components/NoteCard.tsx:145 | an empty field saves null; otherwise every tag saved is non-empty, trimmed and comma-free |
| NoteCard.JoinThenParse | src/components/NoteCard.tsx:16-145 | joining clean tags and parsing them back gives the same tags, and an empty list comes back as null |
| NoteCard.ParseConcat | src/components/NoteCard.tsx:145 | text on either side of a comma is parsed independently, in order |
| NoteCard.SeparatorsOnlySaveEmptyList | src/components/NoteCard.tsx:145 | a field of only commas and spaces saves an empty list rather than null |
| NoteCard.OpenCard | src/components/NoteCard.tsx:16-20 | the card shows audio exactly when the note has an audio URL, collapses content over 300 characters, and opens its editor on the note's content and tags |
| NoteCard.SaveEdit | src/components/NoteCard.tsx:143-146 | the edit keeps the note's id and the edited content, and its tags are null exactly when the field is empty |
| NoteCard.SaveUneditedCard | src/components/NoteCard.tsx:16-146 | opening a card and saving at once returns the note's own clean tags |
| StripeWebhook.FindByCustomer | src/app/api/webhook/stripe/route.ts:56-58 | the profile found is the first with that customer id, and none is found only when no profile has it; a null customer id finds the first profile without one |
| StripeWebhook.UpdateById | src/app/api/webhook/stripe/route.ts:37-46 | an update by id fails exactly when no profile has that id, and changes only that profile |
| StripeWebhook.MapStatusIsIdentity | src/app/api/webhook/stripe/route.ts:61-65 | the status mapping returns every status unchanged |
| StripeWebhook.EndDate | src/app/api/webhook/stripe/route.ts:68-77 | the end date is the period end in milliseconds, falling back to the first item's when the subscription has none; a zero end gives no date |
| StripeWebhook.UpdateByCustomer | src/app/api/webhook/stripe/route.ts:54-125 | an unknown customer changes nothing; otherwise only the customer's profile changes |
| StripeWebhook.Handle | src/app/api/webhook/stripe/route.ts:26-129 | an event that makes no ORM call (an unhandled type, a checkout without user or plan) changes nothing; when the ORM throws, its error is the result; otherwise a checkout activates the user's profile or fails with the not-found error when it is missing, and the subscription and invoice events update, cancel or mark past due the customer's profile |
| StripeWebhook.Webhook | src/app/api/webhook/stripe/route.ts:9-135 | a missing signature or secret, or a failed signature check, is a 400 with no change; an event that makes no ORM call is acknowledged with no change; an ORM error on an event that makes calls is a 500 carrying its message, with no change; only a verified event is acknowledged; a 500 carries the ORM's error or its not-found message; nothing but a checkout ever changes a customer id; no profile is added, dropped or renamed |
| StripeWebhook.DeletedDowngrades | src/app/api/webhook/stripe/route.ts:85-105 | a deleted subscription moves the customer's profile to the free plan, status canceled, without a subscription, and changes no other profile |
| StripeWebhook.PaymentFailedOnlyStatus | src/app/api/webhook/stripe/route.ts:107-125 | a failed payment changes only the status, to past due |
| StripeWebhook.UnknownCustomerChangesNothing | src/app/api/webhook/stripe/route.ts:52-125 | a subscription or invoice event for a customer id no profile carries is acknowledged and changes nothing |
| StripeWebhook.NullInvoiceCustomerMarksFirstUnbilled | src/app/api/webhook/stripe/route.ts:107-125 | a failed invoice without a customer marks past due the first profile that has no customer id |
| StripeWebhook.CheckoutActivates | src/app/api/webhook/stripe/route.ts:28-50 | when the ORM throws, a completed checkout is a 500 with its message and no change; otherwise it is acknowledged exactly when the user's profile exists, else a 500 with the not-found message; it sets the plan, the active status and the Stripe ids, and keeps the end date; other profiles stay |
| Checkout.OriginText | src/app/api/checkout/route.ts:33-34 | a missing origin header renders as "null" in the URLs |
| Checkout.SessionFor | src/app/api/checkout/route.ts:13-66 | only "pro" and "lifetime" are accepted: pro is a $5.00 monthly subscription, lifetime a $99.00 one-time payment; both go back to the dashboard or the pricing page and carry the user and plan in their metadata |
| Checkout.CheckoutPost | src/app/api/checkout/route.ts:6-75 | a body that cannot be parsed is a 500 with the parser's message and creates no session; an unknown plan is a 400 and creates no session; otherwise the session is created with the plan's parameters and the response is its URL, or a 500 with the error |
| Checkout.PaidCheckoutSetsPlan | src/app/api/checkout/route.ts:35-38 | paying for a session moves the signed-in user's profile to the plan bought; a session without a user upgrades no one |
| Logger.LevelName | src/lib/logger.ts:15-22 | every level is written as one of "debug", "info", "warn", "error" |
| Logger.LevelNamesDiffer | src/lib/logger.ts:15-22 | different levels are written differently |
| Logger.SetKey | src/lib/logger.ts:17-22 | setting a key keeps the other keys and their order, and a later read of the key gives the new value |
| Logger.Spread | src/lib/logger.ts:17-22 | in the merged record a caller's field overrides a built-in one of the same name, and every other field is kept |
| Logger.Payload | src/lib/logger.ts:17-22 | the record starts with level, message and timestamp, and has no repeated keys |
| Logger.Visible | src/lib/logger.ts:24 | serialising drops exactly the fields whose value is undefined |
| Logger.Emit | src/lib/logger.ts:15-44 | each call writes exactly one line, on the console channel of its level |
| Logger.LogDebug | src/lib/logger.ts:46-51 | a debug call writes one line on the debug channel, tagged "debug" unless the caller overrides the level field |
| Logger.LogInfo | src/lib/logger.ts:46-51 | an info call writes one line on the info channel, tagged "info" unless the caller overrides the level field |
| Logger.LogWarn | src/lib/logger.ts:46-51 | a warn call writes one line on the warn channel, tagged "warn" unless the caller overrides the level field |
| Logger.LogError | src/lib/logger.ts:46-51 | an error call writes one line on the error channel, tagged "error" unless the caller overrides the level field |
| Logger.EmittedFields | src/lib/logger.ts:17-24 | each field of the line is the caller's value when given and defined, is absent when the caller gave undefined, and otherwise is the built-in level, message or timestamp |
| Logger.NoMetaFields | src/lib/logger.ts:17-24 | without extra fields the line has exactly level, message and timestamp, in that order |
| Logger.InfoWithMeta | src/__tests__/logger.test.ts:12-52 | an info call with one extra field writes the level, the message, the field and the timestamp |

## Left out

- Retries and back-off: the push makes one attempt per item, as the code does.
- Concurrency: store actions run one at a time. The fire-and-forget push after each mutation is not modelled; the push is its own operation.
- Rendering, dialogs, toasts and audio recording are not modelled; only the values the components compute are.
- Clock, id generation, Unicode case rules and JSON text formatting: time and ids are inputs, case folding is ASCII, and a logged line is modelled as the record it parses back to.
- Rows with equal `created_at`: Dexie's tie order is modelled as ordering by id.
- The patch types hold only the fields the application's callers pass to each update.
- `setUserId`, `setOnlineStatus` and `setSelectedCluster` are plain setters of one field and are not modelled.
- The Stripe and Prisma clients are oracles: the signature check, the session URL and the profile table are inputs and outputs. An ORM error is one input per request: it is not tied to a particular call, and when a lookup succeeds and the update after it throws the outcome is the same.
- Profile push and pull: the `profiles` queue branch maps to a remote upsert like the others, but the pull never fetches profiles.
- The checkout body's `plan` and `userId` are strings or missing; other JSON values in those fields are not modelled.
- The customer id carried as an expanded object is not modelled: a subscription's customer is a string, and an invoice's customer is a string or null.
- Text is modelled as sequences of Unicode code points, while JavaScript string lengths and IndexedDB key comparison count UTF-16 code units. The note title's 100-character cut, the note card's 300-character threshold and the index order agree with the code only for text inside the Basic Multilingual Plane. Trimming and case folding are ASCII only.
- The note card's loading of related organizations and people is UI state and is not modelled.
- The debounce timer on the search page is not modelled; `RunSearch` takes the query as it stood when the search finished.
- Logger.SetKey: keeps keys in insertion order; JavaScript lists keys that are array indices (such as "0" or "404") first, in numeric order, so for such keys the stated position is not the one the code produces.
- Logger.Spread: orders a caller's array-index keys like any other key, not first as JavaScript does.
- Logger.Payload: states that the record starts with level, message and timestamp; when the caller's fields include an array-index key, JavaScript lists that key first.
- Logger.InfoWithMeta: states the test's example for one extra field of any name other than a built-in one, not for the exact names the test uses.
- Console messages written by the push and the pull are not modelled.
- Remote rejection of a row with no string `id`: whether a remote call fails is an input (`fails`), and on top of that the model has the remote reject any upsert whose `id` is not a string (`Sync.Accepts`). This is a modelling choice, not behaviour of the client code. The application's own mutations always queue a string `id`.

=== FILE: appstore.dfy ===
/** The application store (`useAppStore`): the in-memory lists the screens show,
    and the actions that write the on-device database and enqueue one queue item
    per mutation. `now` is the clock reading and `id` the generated uuid of a call. */
module AppStore {
  import opened Basics
  import opened Ordering
  import opened Db

  datatype AppState = AppState(
    user: Option<Profile>,
    userId: Option<string>,
    clusters: seq<Cluster>,
    organizations: seq<Organization>,
    people: seq<Person>,
    notes: seq<Note>,
    selectedClusterId: Option<string>,
    isOnline: bool,
    isLoading: bool)

  /** The device database together with the store's state. */
  datatype Store = Store(db: LocalDb, state: AppState)

  const NotAuthenticated: string := "Not authenticated"

  /** What Dexie's `add` throws when the primary key is already present. */
  const KeyExists: string := "ConstraintError"

  /** The queue after one `addToSyncQueue`: the old items, then exactly one new item
      carrying the table, action, record and user. */
  predicate EnqueuedOne(before: Queue, after: Queue, t: Table, a: Action, data: Payload, userId: string) {
    && |after.items| == |before.items| + 1
    && after.items[..|before.items|] == before.items
    && after.items[|before.items|].table == TableName(t)
    && after.items[|before.items|].action == ActionName(a)
    && after.items[|before.items|].data == data
    && after.items[|before.items|].userId == userId
  }

  function Enqueue(db: LocalDb, t: Table, a: Action, data: Payload, userId: string, now: string): (r: LocalDb)
    ensures EnqueuedOne(db.syncQueue, r.syncQueue, t, a, data, userId)
    ensures r.syncQueue.nextId > db.syncQueue.nextId
    ensures QueueWf(db.syncQueue) ==> QueueWf(r.syncQueue)
    ensures DbWf(db) ==> DbWf(r)
    ensures r.(syncQueue := db.syncQueue) == db
  {
    db.(syncQueue := AddToSyncQueue(db.syncQueue, t, a, data, userId, now))
  }

  /** What every mutation keeps: rows are stored under their own ids and the queue
      is well formed. */
  predicate DbWf(db: LocalDb) {
    KeysMatch(db) && QueueWf(db.syncQueue)
  }

  /** Rewriting the rows of one table keeps the database well formed as long as
      each row keeps its id. */
  lemma WithClusterRows(db: LocalDb, rows: map<string, Cluster>)
    requires DbWf(db) && rows.Keys == db.clusters.Keys
    requires forall k :: k in rows ==> rows[k].id == db.clusters[k].id
    ensures DbWf(db.(clusters := rows))
  {
  }

  lemma WithOrganizationRows(db: LocalDb, rows: map<string, Organization>)
    requires DbWf(db) && rows.Keys == db.organizations.Keys
    requires forall k :: k in rows ==> rows[k].id == db.organizations[k].id
    ensures DbWf(db.(organizations := rows))
  {
  }

  lemma WithPersonRows(db: LocalDb, rows: map<string, Person>)
    requires DbWf(db) && rows.Keys == db.people.Keys
    requires forall k :: k in rows ==> rows[k].id == db.people[k].id
    ensures DbWf(db.(people := rows))
  {
  }

  lemma WithNoteRows(db: LocalDb, rows: map<string, Note>)
    requires DbWf(db) && rows.Keys == db.notes.Keys
    requires forall k :: k in rows ==> rows[k].id == db.notes[k].id
    ensures DbWf(db.(notes := rows))
  {
  }

  /** The rows of a table that do not satisfy `p`: `where(index).equals(v).delete()`. */
  function RemoveWhere<R>(m: map<string, R>, p: R -> bool): (r: map<string, R>)
    ensures forall k :: k in r <==> k in m && !p(m[k])
    ensures forall k :: k in r ==> r[k] == m[k]
  {
    map k | k in m && !p(m[k]) :: m[k]
  }

  // ---------------------------------------------------------------------------
  // Session
  // ---------------------------------------------------------------------------

  /** `setUser(user)`: `userId` becomes `user?.id || null`. */
  function SetUser(s: AppState, user: Option<Profile>): (r: AppState)
    ensures r.user == user
    ensures r.userId.Some? <==> user.Some? && user.value.id != ""
    ensures r.userId.Some? ==> r.userId.value == user.value.id
    ensures r.(user := s.user, userId := s.userId) == s
  {
    s.(user := user, userId := if user.Some? then OrNull(Some(user.value.id)) else None)
  }

  /** `clearUserData()`: forgets the session and the in-memory lists; the database
      and the queue are left as they are. */
  function ClearUserData(s: Store): (r: Store)
    ensures r.db == s.db
    ensures r.state.user.None? && r.state.userId.None? && r.state.selectedClusterId.None?
    ensures r.state.clusters == [] && r.state.organizations == [] && r.state.people == [] && r.state.notes == []
    ensures r.state.isOnline == s.state.isOnline && r.state.isLoading == s.state.isLoading
  {
    Store(s.db, s.state.(user := None, userId := None, clusters := [], organizations := [], people := [],
                         notes := [], selectedClusterId := None))
  }

  // ---------------------------------------------------------------------------
  // Loading
  // ---------------------------------------------------------------------------

  function ClusterKey(c: Cluster): Key { (c.createdAt, c.id) }

  function NoteKey(n: Note): Key { (n.createdAt, n.id) }

  function OrganizationId(o: Organization): string { o.id }

  function PersonId(p: Person): string { p.id }

  /** The `.filter` tests the deletions apply to the on-screen lists. */
  function ClusterOtherThan(id: string): Cluster -> bool { (c: Cluster) => c.id != id }
  function OrganizationOtherThan(id: string): Organization -> bool { (o: Organization) => o.id != id }
  function OrganizationOutside(clusterId: string): Organization -> bool { (o: Organization) => o.clusterId != clusterId }
  function PersonOtherThan(id: string): Person -> bool { (p: Person) => p.id != id }
  function PersonOutside(organizationId: string): Person -> bool { (p: Person) => p.organizationId != organizationId }
  function NoteOtherThan(id: string): Note -> bool { (n: Note) => n.id != id }
  function NoteOutside(clusterId: string): Note -> bool { (n: Note) => n.clusterId != Some(clusterId) }

  /** Whether `loadClusters` shows a cluster: with a signed-in user, that user's
      clusters and the ones without an owner (older data); otherwise all of them. */
  predicate Shown(userId: Option<string>, c: Cluster) {
    Present(userId) ==> c.userId == userId.value || c.userId == ""
  }

  lemma {:induction false} FilterKeepsDescending<R(!new)>(s: seq<R>, p: R -> bool, key: R -> Key)
    requires Descending(s, key)
    ensures Descending(Filter(s, p), key)
    decreases |s|
  {
    if |s| > 0 {
      FilterKeepsDescending(s[1..], p, key);
      var rest := Filter(s[1..], p);
      if p(s[0]) {
        forall j | 0 <= j < |rest| ensures KeyAtMost(key(rest[j]), key(s[0])) {
          assert rest[j] in s[1..];
          var k :| 0 <= k < |s[1..]| && s[1..][k] == rest[j];
          assert s[k + 1] == rest[j];
        }
      }
    }
  }

  /** `after` is what `.filter(keep)` leaves of the on-screen list `before`: the
      entries that pass, each as often and in the same order as before, so a
      newest-first list stays newest first. */
  predicate KeptNewestFirst<R(==)>(before: seq<R>, keep: R -> bool, key: R -> Key, after: seq<R>) {
    && FilteredFrom(before, keep, after)
    && (Descending(before, key) ==> Descending(after, key))
  }

  /** The same for a list kept in ascending id order. */
  predicate KeptInIdOrder<R(==)>(before: seq<R>, keep: R -> bool, keyOf: R -> string, after: seq<R>) {
    && FilteredFrom(before, keep, after)
    && (InKeyOrder(before, keyOf) ==> InKeyOrder(after, keyOf))
  }

  lemma FilterKeepsNewestFirst<R(!new)>(s: seq<R>, p: R -> bool, key: R -> Key)
    ensures KeptNewestFirst(s, p, key, Filter(s, p))
  {
    FilteredFromIsFilter(s, p, Filter(s, p));
    if Descending(s, key) {
      FilterKeepsDescending(s, p, key);
    }
  }

  lemma FilterKeepsIdOrder<R(!new)>(s: seq<R>, p: R -> bool, keyOf: R -> string)
    ensures KeptInIdOrder(s, p, keyOf, Filter(s, p))
  {
    FilteredFromIsFilter(s, p, Filter(s, p));
    if InKeyOrder(s, keyOf) {
      FilterKeepsKeyOrder(s, p, keyOf);
    }
  }

  /** `db.clusters.orderBy('created_at').reverse().toArray()`. */
  function ClustersNewestFirst(db: LocalDb): (r: seq<Cluster>)
    ensures forall c :: c in r <==> c in db.clusters.Values
    ensures Descending(r, ClusterKey)
    ensures KeysMatch(db) ==> DistinctKeys(r, ClusterKey)
  {
    var r := NewestFirst(Rows(db.clusters), ClusterKey);
    assert forall c :: c in r <==> c in db.clusters.Values by {
      forall c ensures c in r <==> c in db.clusters.Values {
        assert c in r <==> c in multiset(r);
      }
    }
    assert KeysMatch(db) ==> DistinctKeys(r, ClusterKey) by {
      if KeysMatch(db) {
        RowsDistinctKeys(db.clusters, ClusterKey);
        PermutationKeepsDistinctKeys(Rows(db.clusters), r, ClusterKey);
      }
    }
    r
  }

  /** The clusters `loadClusters` keeps: all of them when signed out, else the
      user's and the unowned ones. */
  function ShownClusters(db: LocalDb, userId: Option<string>): (r: seq<Cluster>)
    ensures forall c :: c in r <==> c in db.clusters.Values && Shown(userId, c)
    ensures Descending(r, ClusterKey)
    ensures KeysMatch(db) ==> DistinctKeys(r, ClusterKey)
  {
    var all := ClustersNewestFirst(db);
    var p := (c: Cluster) => Shown(userId, c);
    FilterKeepsDescending(all, p, ClusterKey);
    assert KeysMatch(db) ==> DistinctKeys(Filter(all, p), ClusterKey) by {
      if KeysMatch(db) {
        FilterKeepsDistinctKeys(all, p, ClusterKey);
      }
    }
    if Present(userId) then Filter(all, p) else all
  }

  /** `loadClusters()`: the clusters by `created_at`, newest first, filtered by owner. */
  function LoadClusters(s: Store): (r: Store)
    ensures r.db == s.db
    ensures !r.state.isLoading
    ensures forall c :: c in r.state.clusters <==> c in s.db.clusters.Values && Shown(s.state.userId, c)
    ensures Descending(r.state.clusters, ClusterKey)
    ensures KeysMatch(s.db) ==> StrictlyDescendingBy(r.state.clusters, ClusterKey)
    ensures r.state.(clusters := s.state.clusters, isLoading := s.state.isLoading) == s.state
  {
    Store(s.db, s.state.(clusters := ShownClusters(s.db, s.state.userId), isLoading := false))
  }

  /** `loadOrganizations(clusterId)`: the organizations of one cluster, read through
      the `cluster_id` index and so in ascending id order. */
  function LoadOrganizations(s: Store, clusterId: string): (r: Store)
    ensures r.db == s.db
    ensures forall o :: o in r.state.organizations <==> o in s.db.organizations.Values && o.clusterId == clusterId
    ensures KeysMatch(s.db) ==> InKeyOrder(r.state.organizations, OrganizationId)
    ensures r.state.(organizations := s.state.organizations) == s.state
  {
    var f := (o: Organization) => o.clusterId == clusterId;
    assert KeysMatch(s.db) ==> InKeyOrder(Filter(Rows(s.db.organizations), f), OrganizationId) by {
      if KeysMatch(s.db) {
        FilteredRowsInKeyOrder(s.db.organizations, f, OrganizationId);
      }
    }
    Store(s.db, s.state.(organizations := Filter(Rows(s.db.organizations), f)))
  }

  /** `loadPeople(organizationId)`: the people of one organization, read through the
      `organization_id` index and so in ascending id order. */
  function LoadPeople(s: Store, organizationId: string): (r: Store)
    ensures r.db == s.db
    ensures forall p :: p in r.state.people <==> p in s.db.people.Values && p.organizationId == organizationId
    ensures KeysMatch(s.db) ==> InKeyOrder(r.state.people, PersonId)
    ensures r.state.(people := s.state.people) == s.state
  {
    var f := (p: Person) => p.organizationId == organizationId;
    assert KeysMatch(s.db) ==> InKeyOrder(Filter(Rows(s.db.people), f), PersonId) by {
      if KeysMatch(s.db) {
        FilteredRowsInKeyOrder(s.db.people, f, PersonId);
      }
    }
    Store(s.db, s.state.(people := Filter(Rows(s.db.people), f)))
  }

  /** `loadNotes(clusterId?)`: the notes of one cluster, or all notes when no cluster
      is given, newest first. */
  function LoadNotes(s: Store, clusterId: Option<string>): (r: Store)
    ensures r.db == s.db
    ensures Present(clusterId) ==>
      forall n :: n in r.state.notes <==> n in s.db.notes.Values && n.clusterId == clusterId
    ensures !Present(clusterId) ==> forall n :: n in r.state.notes <==> n in s.db.notes.Values
    ensures Descending(r.state.notes, NoteKey)
    ensures KeysMatch(s.db) ==> StrictlyDescendingBy(r.state.notes, NoteKey)
    ensures r.state.(notes := s.state.notes) == s.state
  {
    var rows := if Present(clusterId) then Filter(Rows(s.db.notes), (n: Note) => n.clusterId == clusterId)
                else Rows(s.db.notes);
    var notes := NewestFirst(rows, NoteKey);
    assert KeysMatch(s.db) ==> StrictlyDescendingBy(notes, NoteKey) by {
      if KeysMatch(s.db) {
        RowsDistinctKeys(s.db.notes, NoteKey);
        FilterKeepsDistinctKeys(Rows(s.db.notes), (n: Note) => n.clusterId == clusterId, NoteKey);
        NewestFirstStrictly(rows, NoteKey);
      }
    }
    assert forall n :: n in notes <==> n in rows by {
      forall n ensures n in notes <==> n in rows {
        assert n in notes <==> n in multiset(notes);
        assert n in rows <==> n in multiset(rows);
      }
    }
    Store(s.db, s.state.(notes := notes))
  }

  // ---------------------------------------------------------------------------
  // Creating
  // ---------------------------------------------------------------------------

  /** `addCluster(name, description?)`. Throws without a user, and when the generated
      id is already taken (Dexie's `add`); either way nothing is written. */
  function AddCluster(s: Store, id: string, now: string, name: string, description: Option<string>)
    : (r: Result<(Store, Cluster)>)
    ensures r.Ok? && DbWf(s.db) ==> DbWf(r.value.0.db)
    ensures !Present(s.state.userId) ==> r == Err(NotAuthenticated)
    ensures r.Ok? <==> Present(s.state.userId) && id !in s.db.clusters
    ensures r.Ok? ==> var (t, c) := r.value;
      && c == Cluster(id, s.state.userId.value, name, OrNull(description), now, now, false)
      && t.db.clusters == s.db.clusters[id := c]
      && t.db.(clusters := s.db.clusters, syncQueue := s.db.syncQueue) == s.db
      && EnqueuedOne(s.db.syncQueue, t.db.syncQueue, Clusters, Create, ClusterPayload(c), s.state.userId.value)
      && t.state == s.state.(clusters := [c] + s.state.clusters)
  {
    if !Present(s.state.userId) then Err(NotAuthenticated)
    else if id in s.db.clusters then Err(KeyExists)
    else
      var userId := s.state.userId.value;
      var c := Cluster(id, userId, name, OrNull(description), now, now, false);
      var db := Enqueue(s.db.(clusters := s.db.clusters[id := c]), Clusters, Create, ClusterPayload(c), userId, now);
      Ok((Store(db, s.state.(clusters := [c] + s.state.clusters)), c))
  }

  /** `addOrganization(clusterId, name)`: the queued record also carries `user_id`. */
  function AddOrganization(s: Store, id: string, now: string, clusterId: string, name: string)
    : (r: Result<(Store, Organization)>)
    ensures r.Ok? && DbWf(s.db) ==> DbWf(r.value.0.db)
    ensures !Present(s.state.userId) ==> r == Err(NotAuthenticated)
    ensures r.Ok? <==> Present(s.state.userId) && id !in s.db.organizations
    ensures r.Ok? ==> var (t, o) := r.value;
      && o == Organization(id, clusterId, name, now, false)
      && t.db.organizations == s.db.organizations[id := o]
      && t.db.(organizations := s.db.organizations, syncQueue := s.db.syncQueue) == s.db
      && EnqueuedOne(s.db.syncQueue, t.db.syncQueue, Organizations, Create,
                     OrganizationPayload(o, s.state.userId.value), s.state.userId.value)
      && t.state == s.state.(organizations := s.state.organizations + [o])
  {
    if !Present(s.state.userId) then Err(NotAuthenticated)
    else if id in s.db.organizations then Err(KeyExists)
    else
      var userId := s.state.userId.value;
      var o := Organization(id, clusterId, name, now, false);
      var db := Enqueue(s.db.(organizations := s.db.organizations[id := o]), Organizations, Create,
                        OrganizationPayload(o, userId), userId, now);
      Ok((Store(db, s.state.(organizations := s.state.organizations + [o])), o))
  }

  /** `addPerson(organizationId, name, role?)`: an empty role is stored as `null`. */
  function AddPerson(s: Store, id: string, now: string, organizationId: string, name: string, role: Option<string>)
    : (r: Result<(Store, Person)>)
    ensures r.Ok? && DbWf(s.db) ==> DbWf(r.value.0.db)
    ensures !Present(s.state.userId) ==> r == Err(NotAuthenticated)
    ensures r.Ok? <==> Present(s.state.userId) && id !in s.db.people
    ensures r.Ok? ==> var (t, p) := r.value;
      && p == Person(id, organizationId, name, OrNull(role), now, false)
      && t.db.people == s.db.people[id := p]
      && t.db.(people := s.db.people, syncQueue := s.db.syncQueue) == s.db
      && EnqueuedOne(s.db.syncQueue, t.db.syncQueue, People, Create, PersonPayload(p, s.state.userId.value),
                     s.state.userId.value)
      && t.state == s.state.(people := s.state.people + [p])
  {
    if !Present(s.state.userId) then Err(NotAuthenticated)
    else if id in s.db.people then Err(KeyExists)
    else
      var userId := s.state.userId.value;
      var p := Person(id, organizationId, name, OrNull(role), now, false);
      var db := Enqueue(s.db.(people := s.db.people[id := p]), People, Create, PersonPayload(p, userId), userId, now);
      Ok((Store(db, s.state.(people := s.state.people + [p])), p))
  }

  /** The caller-supplied fields of a new note. */
  datatype NoteDraft = NoteDraft(
    clusterId: Option<string>,
    organizationId: Option<string>,
    personId: Option<string>,
    content: string,
    audioUrl: Option<string>,
    tags: Option<seq<string>>)

  /** `addNote(data)`: the draft plus a fresh id, equal creation and update times, unsynced. */
  function AddNote(s: Store, id: string, now: string, d: NoteDraft): (r: Result<(Store, Note)>)
    ensures r.Ok? && DbWf(s.db) ==> DbWf(r.value.0.db)
    ensures !Present(s.state.userId) ==> r == Err(NotAuthenticated)
    ensures r.Ok? <==> Present(s.state.userId) && id !in s.db.notes
    ensures r.Ok? ==> var (t, n) := r.value;
      && n == Note(id, d.clusterId, d.organizationId, d.personId, d.content, d.audioUrl, d.tags, now, now, false)
      && t.db.notes == s.db.notes[id := n]
      && t.db.(notes := s.db.notes, syncQueue := s.db.syncQueue) == s.db
      && EnqueuedOne(s.db.syncQueue, t.db.syncQueue, Notes, Create, NotePayload(n, s.state.userId.value),
                     s.state.userId.value)
      && t.state == s.state.(notes := [n] + s.state.notes)
  {
    if !Present(s.state.userId) then Err(NotAuthenticated)
    else if id in s.db.notes then Err(KeyExists)
    else
      var userId := s.state.userId.value;
      var n := Note(id, d.clusterId, d.organizationId, d.personId, d.content, d.audioUrl, d.tags, now, now, false);
      var db := Enqueue(s.db.(notes := s.db.notes[id := n]), Notes, Create, NotePayload(n, userId), userId, now);
      Ok((Store(db, s.state.(notes := [n] + s.state.notes)), n))
  }

  // ---------------------------------------------------------------------------
  // Updating
  // ---------------------------------------------------------------------------

  /** The fields callers change. `None` leaves a field as it is; a nullable field is
      set with `Some(None)` (null) or `Some(Some(v))`. */
  datatype ClusterPatch = ClusterPatch(name: Option<string>, description: Option<Option<string>>)

  datatype OrganizationPatch = OrganizationPatch(name: Option<string>)

  datatype PersonPatch = PersonPatch(name: Option<string>, role: Option<Option<string>>)

  datatype NotePatch = NotePatch(content: Option<string>, tags: Option<Option<seq<string>>>)

  /** `{ ...record, ...data }`. */
  function PatchCluster(c: Cluster, p: ClusterPatch): Cluster {
    c.(name := p.name.GetOr(c.name), description := p.description.GetOr(c.description))
  }

  function PatchOrganization(o: Organization, p: OrganizationPatch): Organization {
    o.(name := p.name.GetOr(o.name))
  }

  function PatchPerson(x: Person, p: PersonPatch): Person {
    x.(name := p.name.GetOr(x.name), role := p.role.GetOr(x.role))
  }

  function PatchNote(n: Note, p: NotePatch): Note {
    n.(content := p.content.GetOr(n.content), tags := p.tags.GetOr(n.tags))
  }

  /** A key set in a record only when the patch sets it. */
  function Put(m: Payload, k: string, v: Option<Value>): Payload {
    if v.Some? then m[k := v.value] else m
  }

  /** `{ id, ...data }`: the queued record of an update. */
  function ClusterPatchPayload(id: string, p: ClusterPatch): Payload {
    Put(Put(IdPayload(id), "name", if p.name.Some? then Some(Str(p.name.value)) else None),
        "description", if p.description.Some? then Some(OptStr(p.description.value)) else None)
  }

  function OrganizationPatchPayload(id: string, p: OrganizationPatch): Payload {
    Put(IdPayload(id), "name", if p.name.Some? then Some(Str(p.name.value)) else None)
  }

  function PersonPatchPayload(id: string, p: PersonPatch): Payload {
    Put(Put(IdPayload(id), "name", if p.name.Some? then Some(Str(p.name.value)) else None),
        "role", if p.role.Some? then Some(OptStr(p.role.value)) else None)
  }

  function NotePatchPayload(id: string, p: NotePatch): Payload {
    Put(Put(IdPayload(id), "content", if p.content.Some? then Some(Str(p.content.value)) else None),
        "tags", if p.tags.Some? then Some(OptTags(p.tags.value)) else None)
  }

  /** The in-memory list with the changes merged into every entry carrying `id`. */
  function PatchedClusters(cs: seq<Cluster>, id: string, p: ClusterPatch): seq<Cluster> {
    seq(|cs|, i requires 0 <= i < |cs| => if cs[i].id == id then PatchCluster(cs[i], p) else cs[i])
  }

  function PatchedOrganizations(os: seq<Organization>, id: string, p: OrganizationPatch): seq<Organization> {
    seq(|os|, i requires 0 <= i < |os| => if os[i].id == id then PatchOrganization(os[i], p) else os[i])
  }

  function PatchedPeople(xs: seq<Person>, id: string, p: PersonPatch): seq<Person> {
    seq(|xs|, i requires 0 <= i < |xs| => if xs[i].id == id then PatchPerson(xs[i], p) else xs[i])
  }

  function PatchedNotes(ns: seq<Note>, id: string, p: NotePatch): seq<Note> {
    seq(|ns|, i requires 0 <= i < |ns| => if ns[i].id == id then PatchNote(ns[i], p) else ns[i])
  }

  /** `updateCluster(id, data)`: the stored row also gets a new `updated_at` and
      `synced = false`; the in-memory copy only gets the patch. Without a user nothing happens. */
  function UpdateCluster(s: Store, now: string, id: string, p: ClusterPatch): (r: Store)
    ensures DbWf(s.db) ==> DbWf(r.db)
    ensures !Present(s.state.userId) ==> r == s
    ensures Present(s.state.userId) ==>
      && r.db.clusters.Keys == s.db.clusters.Keys
      && (id in s.db.clusters ==>
            r.db.clusters[id] == PatchCluster(s.db.clusters[id], p).(updatedAt := now, synced := false))
      && (forall k :: k in s.db.clusters && k != id ==> r.db.clusters[k] == s.db.clusters[k])
      && r.db.(clusters := s.db.clusters, syncQueue := s.db.syncQueue) == s.db
      && EnqueuedOne(s.db.syncQueue, r.db.syncQueue, Clusters, Update, ClusterPatchPayload(id, p), s.state.userId.value)
      && |r.state.clusters| == |s.state.clusters|
      && (forall i :: 0 <= i < |s.state.clusters| ==>
            r.state.clusters[i] == if s.state.clusters[i].id == id then PatchCluster(s.state.clusters[i], p)
                                   else s.state.clusters[i])
      && r.state.(clusters := s.state.clusters) == s.state
  {
    if !Present(s.state.userId) then s
    else
      var userId := s.state.userId.value;
      // Dexie's `update(id, changes)`: changes the row if it exists, else does nothing.
      var rows := if id in s.db.clusters then s.db.clusters[id := PatchCluster(s.db.clusters[id], p).(updatedAt := now, synced := false)] else s.db.clusters;
      assert DbWf(s.db) ==> DbWf(s.db.(clusters := rows)) by {
        if DbWf(s.db) {
          WithClusterRows(s.db, rows);
        }
      }
      var db := Enqueue(s.db.(clusters := rows), Clusters, Update, ClusterPatchPayload(id, p), userId, now);
      Store(db, s.state.(clusters := PatchedClusters(s.state.clusters, id, p)))
  }

  /** `updateOrganization(id, data)`: `updated_at` is not touched (organizations have none). */
  function UpdateOrganization(s: Store, now: string, id: string, p: OrganizationPatch): (r: Store)
    ensures DbWf(s.db) ==> DbWf(r.db)
    ensures !Present(s.state.userId) ==> r == s
    ensures Present(s.state.userId) ==>
      && r.db.organizations.Keys == s.db.organizations.Keys
      && (id in s.db.organizations ==>
            r.db.organizations[id] == PatchOrganization(s.db.organizations[id], p).(synced := false))
      && (forall k :: k in s.db.organizations && k != id ==> r.db.organizations[k] == s.db.organizations[k])
      && r.db.(organizations := s.db.organizations, syncQueue := s.db.syncQueue) == s.db
      && EnqueuedOne(s.db.syncQueue, r.db.syncQueue, Organizations, Update, OrganizationPatchPayload(id, p),
                     s.state.userId.value)
      && |r.state.organizations| == |s.state.organizations|
      && (forall i :: 0 <= i < |s.state.organizations| ==>
            r.state.organizations[i] == if s.state.organizations[i].id == id
                                        then PatchOrganization(s.state.organizations[i], p)
                                        else s.state.organizations[i])
      && r.state.(organizations := s.state.organizations) == s.state
  {
    if !Present(s.state.userId) then s
    else
      var userId := s.state.userId.value;
      // Dexie's `update(id, changes)`: changes the row if it exists, else does nothing.
      var rows := if id in s.db.organizations then s.db.organizations[id := PatchOrganization(s.db.organizations[id], p).(synced := false)] else s.db.organizations;
      assert DbWf(s.db) ==> DbWf(s.db.(organizations := rows)) by {
        if DbWf(s.db) {
          WithOrganizationRows(s.db, rows);
        }
      }
      var db := Enqueue(s.db.(organizations := rows), Organizations, Update, OrganizationPatchPayload(id, p), userId, now);
      Store(db, s.state.(organizations := PatchedOrganizations(s.state.organizations, id, p)))
  }

  function UpdatePerson(s: Store, now: string, id: string, p: PersonPatch): (r: Store)
    ensures DbWf(s.db) ==> DbWf(r.db)
    ensures !Present(s.state.userId) ==> r == s
    ensures Present(s.state.userId) ==>
      && r.db.people.Keys == s.db.people.Keys
      && (id in s.db.people ==> r.db.people[id] == PatchPerson(s.db.people[id], p).(synced := false))
      && (forall k :: k in s.db.people && k != id ==> r.db.people[k] == s.db.people[k])
      && r.db.(people := s.db.people, syncQueue := s.db.syncQueue) == s.db
      && EnqueuedOne(s.db.syncQueue, r.db.syncQueue, People, Update, PersonPatchPayload(id, p), s.state.userId.value)
      && |r.state.people| == |s.state.people|
      && (forall i :: 0 <= i < |s.state.people| ==>
            r.state.people[i] == if s.state.people[i].id == id then PatchPerson(s.state.people[i], p)
                                 else s.state.people[i])
      && r.state.(people := s.state.people) == s.state
  {
    if !Present(s.state.userId) then s
    else
      var userId := s.state.userId.value;
      // Dexie's `update(id, changes)`: changes the row if it exists, else does nothing.
      var rows := if id in s.db.people then s.db.people[id := PatchPerson(s.db.people[id], p).(synced := false)] else s.db.people;
      assert DbWf(s.db) ==> DbWf(s.db.(people := rows)) by {
        if DbWf(s.db) {
          WithPersonRows(s.db, rows);
        }
      }
      var db := Enqueue(s.db.(people := rows), People, Update, PersonPatchPayload(id, p), userId, now);
      Store(db, s.state.(people := PatchedPeople(s.state.people, id, p)))
  }

  function UpdateNote(s: Store, now: string, id: string, p: NotePatch): (r: Store)
    ensures DbWf(s.db) ==> DbWf(r.db)
    ensures !Present(s.state.userId) ==> r == s
    ensures Present(s.state.userId) ==>
      && r.db.notes.Keys == s.db.notes.Keys
      && (id in s.db.notes ==>
            r.db.notes[id] == PatchNote(s.db.notes[id], p).(updatedAt := now, synced := false))
      && (forall k :: k in s.db.notes && k != id ==> r.db.notes[k] == s.db.notes[k])
      && r.db.(notes := s.db.notes, syncQueue := s.db.syncQueue) == s.db
      && EnqueuedOne(s.db.syncQueue, r.db.syncQueue, Notes, Update, NotePatchPayload(id, p), s.state.userId.value)
      && |r.state.notes| == |s.state.notes|
      && (forall i :: 0 <= i < |s.state.notes| ==>
            r.state.notes[i] == if s.state.notes[i].id == id then PatchNote(s.state.notes[i], p)
                                else s.state.notes[i])
      && r.state.(notes := s.state.notes) == s.state
  {
    if !Present(s.state.userId) then s
    else
      var userId := s.state.userId.value;
      // Dexie's `update(id, changes)`: changes the row if it exists, else does nothing.
      var rows := if id in s.db.notes then s.db.notes[id := PatchNote(s.db.notes[id], p).(updatedAt := now, synced := false)] else s.db.notes;
      assert DbWf(s.db) ==> DbWf(s.db.(notes := rows)) by {
        if DbWf(s.db) {
          WithNoteRows(s.db, rows);
        }
      }
      var db := Enqueue(s.db.(notes := rows), Notes, Update, NotePatchPayload(id, p), userId, now);
      Store(db, s.state.(notes := PatchedNotes(s.state.notes, id, p)))
  }

  // ---------------------------------------------------------------------------
  // Deleting
  // ---------------------------------------------------------------------------

  /** `deleteCluster(id)`: removes the cluster, the organizations and the notes filed
      under it, locally and in memory. People are not touched. */
  function DeleteCluster(s: Store, now: string, id: string): (r: Store)
    ensures DbWf(s.db) ==> DbWf(r.db)
    ensures !Present(s.state.userId) ==> r == s
    ensures Present(s.state.userId) ==>
      && r.db.clusters == s.db.clusters - {id}
      && (forall k :: k in r.db.organizations <==> k in s.db.organizations && s.db.organizations[k].clusterId != id)
      && (forall k :: k in r.db.organizations ==> r.db.organizations[k] == s.db.organizations[k])
      && (forall k :: k in r.db.notes <==> k in s.db.notes && s.db.notes[k].clusterId != Some(id))
      && (forall k :: k in r.db.notes ==> r.db.notes[k] == s.db.notes[k])
      && r.db.people == s.db.people && r.db.profiles == s.db.profiles
      && EnqueuedOne(s.db.syncQueue, r.db.syncQueue, Clusters, Delete, IdPayload(id), s.state.userId.value)
      && (forall c :: c in r.state.clusters <==> c in s.state.clusters && c.id != id)
      && (forall o :: o in r.state.organizations <==> o in s.state.organizations && o.clusterId != id)
      && (forall n :: n in r.state.notes <==> n in s.state.notes && n.clusterId != Some(id))
      && KeptNewestFirst(s.state.clusters, ClusterOtherThan(id), ClusterKey, r.state.clusters)
      && KeptInIdOrder(s.state.organizations, OrganizationOutside(id), OrganizationId, r.state.organizations)
      && KeptNewestFirst(s.state.notes, NoteOutside(id), NoteKey, r.state.notes)
      && r.state.people == s.state.people
      && r.state.(clusters := s.state.clusters, organizations := s.state.organizations, notes := s.state.notes) == s.state
  {
    if !Present(s.state.userId) then s
    else
      var userId := s.state.userId.value;
      var db := s.db.(clusters := s.db.clusters - {id},
                      organizations := RemoveWhere(s.db.organizations, (o: Organization) => o.clusterId == id),
                      notes := RemoveWhere(s.db.notes, (n: Note) => n.clusterId == Some(id)));
      var keepC, keepO, keepN := ClusterOtherThan(id), OrganizationOutside(id), NoteOutside(id);
      FilterKeepsNewestFirst(s.state.clusters, keepC, ClusterKey);
      FilterKeepsIdOrder(s.state.organizations, keepO, OrganizationId);
      FilterKeepsNewestFirst(s.state.notes, keepN, NoteKey);
      Store(Enqueue(db, Clusters, Delete, IdPayload(id), userId, now),
            s.state.(clusters := Filter(s.state.clusters, keepC),
                     organizations := Filter(s.state.organizations, keepO),
                     notes := Filter(s.state.notes, keepN)))
  }

  /** `deleteOrganization(id)`: removes the organization and its people. Notes filed
      under it are not touched. */
  function DeleteOrganization(s: Store, now: string, id: string): (r: Store)
    ensures DbWf(s.db) ==> DbWf(r.db)
    ensures !Present(s.state.userId) ==> r == s
    ensures Present(s.state.userId) ==>
      && r.db.organizations == s.db.organizations - {id}
      && (forall k :: k in r.db.people <==> k in s.db.people && s.db.people[k].organizationId != id)
      && (forall k :: k in r.db.people ==> r.db.people[k] == s.db.people[k])
      && r.db.clusters == s.db.clusters && r.db.notes == s.db.notes && r.db.profiles == s.db.profiles
      && EnqueuedOne(s.db.syncQueue, r.db.syncQueue, Organizations, Delete, IdPayload(id), s.state.userId.value)
      && (forall o :: o in r.state.organizations <==> o in s.state.organizations && o.id != id)
      && (forall p :: p in r.state.people <==> p in s.state.people && p.organizationId != id)
      && KeptInIdOrder(s.state.organizations, OrganizationOtherThan(id), OrganizationId, r.state.organizations)
      && KeptInIdOrder(s.state.people, PersonOutside(id), PersonId, r.state.people)
      && r.state.(organizations := s.state.organizations, people := s.state.people) == s.state
  {
    if !Present(s.state.userId) then s
    else
      var userId := s.state.userId.value;
      var db := s.db.(organizations := s.db.organizations - {id},
                      people := RemoveWhere(s.db.people, (p: Person) => p.organizationId == id));
      var keepO, keepP := OrganizationOtherThan(id), PersonOutside(id);
      FilterKeepsIdOrder(s.state.organizations, keepO, OrganizationId);
      FilterKeepsIdOrder(s.state.people, keepP, PersonId);
      Store(Enqueue(db, Organizations, Delete, IdPayload(id), userId, now),
            s.state.(organizations := Filter(s.state.organizations, keepO),
                     people := Filter(s.state.people, keepP)))
  }

  function DeletePerson(s: Store, now: string, id: string): (r: Store)
    ensures DbWf(s.db) ==> DbWf(r.db)
    ensures !Present(s.state.userId) ==> r == s
    ensures Present(s.state.userId) ==>
      && r.db.people == s.db.people - {id}
      && r.db.(people := s.db.people, syncQueue := s.db.syncQueue) == s.db
      && EnqueuedOne(s.db.syncQueue, r.db.syncQueue, People, Delete, IdPayload(id), s.state.userId.value)
      && (forall p :: p in r.state.people <==> p in s.state.people && p.id != id)
      && KeptInIdOrder(s.state.people, PersonOtherThan(id), PersonId, r.state.people)
      && r.state.(people := s.state.people) == s.state
  {
    if !Present(s.state.userId) then s
    else
      var userId := s.state.userId.value;
      var keep := PersonOtherThan(id);
      FilterKeepsIdOrder(s.state.people, keep, PersonId);
      Store(Enqueue(s.db.(people := s.db.people - {id}), People, Delete, IdPayload(id), userId, now),
            s.state.(people := Filter(s.state.people, keep)))
  }

  function DeleteNote(s: Store, now: string, id: string): (r: Store)
    ensures DbWf(s.db) ==> DbWf(r.db)
    ensures !Present(s.state.userId) ==> r == s
    ensures Present(s.state.userId) ==>
      && r.db.notes == s.db.notes - {id}
      && r.db.(notes := s.db.notes, syncQueue := s.db.syncQueue) == s.db
      && EnqueuedOne(s.db.syncQueue, r.db.syncQueue, Notes, Delete, IdPayload(id), s.state.userId.value)
      && (forall n :: n in r.state.notes <==> n in s.state.notes && n.id != id)
      && KeptNewestFirst(s.state.notes, NoteOtherThan(id), NoteKey, r.state.notes)
      && r.state.(notes := s.state.notes) == s.state
  {
    if !Present(s.state.userId) then s
    else
      var userId := s.state.userId.value;
      var keep := NoteOtherThan(id);
      FilterKeepsNewestFirst(s.state.notes, keep, NoteKey);
      Store(Enqueue(s.db.(notes := s.db.notes - {id}), Notes, Delete, IdPayload(id), userId, now),
            s.state.(notes := Filter(s.state.notes, keep)))
  }

  // ---------------------------------------------------------------------------
  // How the mutations combine
  // ---------------------------------------------------------------------------

  /** The two cascades differ: deleting a cluster removes its organizations but not
      their people, so a person of such an organization is left pointing at an
      organization that no longer exists. */
  lemma DeleteClusterOrphansPeople(s: Store, now: string, id: string, personKey: string)
    requires Present(s.state.userId)
    requires personKey in s.db.people
    requires s.db.people[personKey].organizationId in s.db.organizations
    requires s.db.organizations[s.db.people[personKey].organizationId].clusterId == id
    ensures var r := DeleteCluster(s, now, id);
      personKey in r.db.people && r.db.people[personKey].organizationId !in r.db.organizations
  {
  }

  /** Deleting an organization leaves the notes filed under it in place. */
  lemma DeleteOrganizationKeepsNotes(s: Store, now: string, id: string)
    requires Present(s.state.userId)
    ensures var r := DeleteOrganization(s, now, id);
      && r.db.notes == s.db.notes
      && r.state.notes == s.state.notes
  {
  }

  /** Adding a cluster and deleting it again restores the cluster table, and leaves
      two items in the queue: the create, then the delete. */
  lemma AddThenDeleteCluster(s: Store, id: string, now: string, later: string, name: string, description: Option<string>)
    requires Present(s.state.userId) && id !in s.db.clusters
    ensures AddCluster(s, id, now, name, description).Ok?
    ensures var (t, c) := AddCluster(s, id, now, name, description).value;
      var u := DeleteCluster(t, later, id);
      && u.db.clusters == s.db.clusters
      && |u.db.syncQueue.items| == |s.db.syncQueue.items| + 2
      && u.db.syncQueue.items[..|s.db.syncQueue.items|] == s.db.syncQueue.items
      && u.db.syncQueue.items[|s.db.syncQueue.items|].action == "create"
      && u.db.syncQueue.items[|s.db.syncQueue.items| + 1].action == "delete"
      && (forall x :: x in u.state.clusters <==> x in s.state.clusters && x.id != id)
  {
    var (t, c) := AddCluster(s, id, now, name, description).value;
    AddThenDeleteClusterQueue(s, t, id, later);
    var u := DeleteCluster(t, later, id);
    forall x ensures x in u.state.clusters <==> x in s.state.clusters && x.id != id {
      assert x in t.state.clusters <==> x == c || x in s.state.clusters;
    }
  }

  /** The queue half of `AddThenDeleteCluster`: after the add's one item, the
      delete appends its own. */
  lemma AddThenDeleteClusterQueue(s: Store, t: Store, id: string, later: string)
    requires Present(s.state.userId) && t.state.userId == s.state.userId
    requires t.db.clusters - {id} == s.db.clusters
    requires |t.db.syncQueue.items| == |s.db.syncQueue.items| + 1
    requires t.db.syncQueue.items[..|s.db.syncQueue.items|] == s.db.syncQueue.items
    requires t.db.syncQueue.items[|s.db.syncQueue.items|].action == "create"
    ensures var u := DeleteCluster(t, later, id);
      && u.db.clusters == s.db.clusters
      && |u.db.syncQueue.items| == |s.db.syncQueue.items| + 2
      && u.db.syncQueue.items[..|s.db.syncQueue.items|] == s.db.syncQueue.items
      && u.db.syncQueue.items[|s.db.syncQueue.items|].action == "create"
      && u.db.syncQueue.items[|s.db.syncQueue.items| + 1].action == "delete"
  {
    var u := DeleteCluster(t, later, id);
    var n := |s.db.syncQueue.items|;
    assert u.db.syncQueue.items[..n] == t.db.syncQueue.items[..n + 1][..n];
  }

  /** A cluster just added is among the clusters `loadClusters` shows. */
  lemma AddedClusterIsLoaded(s: Store, id: string, now: string, name: string, description: Option<string>)
    requires Present(s.state.userId) && id !in s.db.clusters
    ensures AddCluster(s, id, now, name, description).Ok?
    ensures var (t, c) := AddCluster(s, id, now, name, description).value;
      c in LoadClusters(t).state.clusters
  {
    var (t, c) := AddCluster(s, id, now, name, description).value;
    assert t.db.clusters[id] == c;
  }

  /** Applying the same update twice leaves the stored rows and the in-memory list as
      applying it once does; only the queue records both calls. */
  lemma UpdateClusterTwice(s: Store, now: string, id: string, p: ClusterPatch)
    requires Present(s.state.userId)
    ensures var once := UpdateCluster(s, now, id, p);
      var twice := UpdateCluster(once, now, id, p);
      && twice.db.clusters == once.db.clusters
      && twice.state.clusters == once.state.clusters
      && |twice.db.syncQueue.items| == |s.db.syncQueue.items| + 2
  {
    var once := UpdateCluster(s, now, id, p);
    var twice := UpdateCluster(once, now, id, p);
    forall k | k in once.db.clusters ensures twice.db.clusters[k] == once.db.clusters[k] {
    }
    forall i | 0 <= i < |once.state.clusters| ensures twice.state.clusters[i] == once.state.clusters[i] {
    }
  }
}

=== FILE: basics.dfy ===
/** Small shared vocabulary: optional values, results carrying an error message,
    the dynamic values that travel in untyped records, and an order-keeping filter. */
module Basics {

  /** `null`/`undefined` versus a present value. */
  datatype Option<+T> = None | Some(value: T) {
    function GetOr(default: T): T {
      match this
      case Some(v) => v
      case None => default
    }
  }

  /** A computation that either returns a value or throws an error with a message. */
  datatype Result<+T> = Ok(value: T) | Err(error: string)

  /** A JavaScript value as it appears in an untyped record (`Record<string, unknown>`).
      `Undef` is a key that is present but holds `undefined`. */
  datatype Value = Undef | Null | Bool(b: bool) | Num(n: int) | Str(s: string) | StrList(items: seq<string>)

  /** A string that JavaScript treats as truthy: present and non-empty. */
  predicate Present(o: Option<string>) {
    o.Some? && o.value != ""
  }

  /** `o || null`: an empty string collapses to `null`. */
  function OrNull(o: Option<string>): (r: Option<string>)
    ensures r.Some? <==> Present(o)
    ensures r.Some? ==> r == o
  {
    if Present(o) then o else None
  }

  /** `Array.prototype.filter`: keeps, in order, the elements satisfying `p`. */
  function Filter<T(!new)>(s: seq<T>, p: T -> bool): (r: seq<T>)
    ensures |r| <= |s|
    ensures forall x :: x in r <==> x in s && p(x)
    ensures forall i :: 0 <= i < |r| ==> p(r[i])
  {
    if |s| == 0 then []
    else if p(s[0]) then [s[0]] + Filter(s[1..], p)
    else Filter(s[1..], p)
  }

  lemma {:induction false} FilterAll<T(!new)>(s: seq<T>, p: T -> bool)
    requires forall i :: 0 <= i < |s| ==> p(s[i])
    ensures Filter(s, p) == s
  {
    if |s| > 0 {
      FilterAll(s[1..], p);
    }
  }

  lemma {:induction false} FilterNone<T(!new)>(s: seq<T>, p: T -> bool)
    requires forall i :: 0 <= i < |s| ==> !p(s[i])
    ensures Filter(s, p) == []
  {
    if |s| > 0 {
      FilterNone(s[1..], p);
    }
  }

  lemma {:induction false} FilterConcat<T(!new)>(a: seq<T>, b: seq<T>, p: T -> bool)
    ensures Filter(a + b, p) == Filter(a, p) + Filter(b, p)
  {
    if |a| == 0 {
      assert a + b == b;
    } else {
      assert (a + b)[1..] == a[1..] + b;
      FilterConcat(a[1..], b, p);
    }
  }

  /** `Array.prototype.map`. */
  function MapSeq<A, B>(s: seq<A>, f: A -> B): (r: seq<B>)
    ensures |r| == |s|
    ensures forall i :: 0 <= i < |s| ==> r[i] == f(s[i])
  {
    seq(|s|, i requires 0 <= i < |s| => f(s[i]))
  }

  lemma MapSeqMembers<A, B>(s: seq<A>, f: A -> B)
    ensures forall y :: y in MapSeq(s, f) <==> exists x :: x in s && y == f(x)
  {
    var r := MapSeq(s, f);
    forall y | y in r ensures exists x :: x in s && y == f(x) {
      var i :| 0 <= i < |r| && r[i] == y;
      assert s[i] in s;
    }
  }

  lemma MapSeqCons<A, B>(x: A, s: seq<A>, f: A -> B)
    ensures MapSeq([x] + s, f) == [f(x)] + MapSeq(s, f)
  {
  }

  /** Filtering keeps, between the elements it keeps, every relation that held
      between each element and those after it. */
  lemma {:induction false} FilterKeepsOrder<T(!new)>(s: seq<T>, p: T -> bool, before: (T, T) -> bool)
    requires forall i, j :: 0 <= i < j < |s| ==> before(s[i], s[j])
    ensures forall i, j :: 0 <= i < j < |Filter(s, p)| ==> before(Filter(s, p)[i], Filter(s, p)[j])
  {
    if |s| > 0 {
      var rest := Filter(s[1..], p);
      FilterKeepsOrder(s[1..], p, before);
      if p(s[0]) {
        var r := [s[0]] + rest;
        assert Filter(s, p) == r;
        forall i, j | 0 <= i < j < |r| ensures before(r[i], r[j]) {
          assert r[j] == rest[j - 1] && rest[j - 1] in s[1..];
          if i == 0 {
            var m :| 0 <= m < |s| - 1 && s[1..][m] == r[j];
            assert r[0] == s[0] && s[m + 1] == r[j];
            assert before(s[0], s[m + 1]);
          } else {
            assert r[i] == rest[i - 1];
            assert before(rest[i - 1], rest[j - 1]);
          }
        }
      }
    }
  }

  /** `r` is `s` with some elements left out and the others in their order. */
  predicate SubsequenceOf<T(==)>(r: seq<T>, s: seq<T>)
    decreases |s|
  {
    if |r| == 0 then true
    else if |s| == 0 then false
    else if r[0] == s[0] then SubsequenceOf(r[1..], s[1..])
    else SubsequenceOf(r, s[1..])
  }

  /** How many elements of `s` pass `p`. */
  function CountWhere<T>(s: seq<T>, p: T -> bool): nat {
    if |s| == 0 then 0
    else (if p(s[0]) then 1 else 0) + CountWhere(s[1..], p)
  }

  /** `r` is what `.filter(p)` leaves of `s`: a subsequence of `s` whose elements all
      pass `p` and that is as long as the number of elements of `s` that do. */
  predicate FilteredFrom<T(==)>(s: seq<T>, p: T -> bool, r: seq<T>) {
    && SubsequenceOf(r, s)
    && (forall i :: 0 <= i < |r| ==> p(r[i]))
    && |r| == CountWhere(s, p)
  }

  /** A subsequence of passing elements is no longer than the count of them. */
  lemma {:induction false} SubsequenceBound<T(!new)>(r: seq<T>, s: seq<T>, p: T -> bool)
    requires SubsequenceOf(r, s)
    requires forall i :: 0 <= i < |r| ==> p(r[i])
    ensures |r| <= CountWhere(s, p)
    decreases |s|
  {
    if |r| > 0 {
      if r[0] == s[0] {
        SubsequenceBound(r[1..], s[1..], p);
      } else {
        SubsequenceBound(r, s[1..], p);
      }
    }
  }

  /** `FilteredFrom` describes `Filter` exactly: no other sequence meets it. */
  lemma {:induction false} FilteredFromIsFilter<T(!new)>(s: seq<T>, p: T -> bool, r: seq<T>)
    ensures FilteredFrom(s, p, r) <==> r == Filter(s, p)
    decreases |s|
  {
    if |s| > 0 {
      var rest := s[1..];
      FilteredFromIsFilter(rest, p, Filter(rest, p));
      if p(s[0]) {
        assert Filter(s, p) == [s[0]] + Filter(rest, p);
        assert ([s[0]] + Filter(rest, p))[1..] == Filter(rest, p);
        if FilteredFrom(s, p, r) {
          if r[0] != s[0] {
            SubsequenceBound(r, rest, p);
          }
          assert FilteredFrom(rest, p, r[1..]);
          FilteredFromIsFilter(rest, p, r[1..]);
          assert r == [r[0]] + r[1..];
        }
      } else {
        if FilteredFrom(s, p, r) && |r| > 0 {
          assert r[0] != s[0];
        }
        FilteredFromIsFilter(rest, p, r);
      }
    }
  }
}

=== FILE: checkout.dfy ===
/** The checkout route: it turns the chosen plan into the parameters of a Stripe
    Checkout session. The call that creates the session is an input. */
module Checkout {
  import opened Basics
  import StripeWebhook

  datatype Interval = Month

  datatype LineItem = LineItem(
    currency: string,
    productName: string,
    productDescription: string,
    unitAmount: nat,
    recurring: Option<Interval>,
    quantity: nat)

  /** What `stripe.checkout.sessions.create` is called with. */
  datatype SessionParams = SessionParams(
    paymentMethodTypes: seq<string>,
    lineItems: seq<LineItem>,
    mode: string,
    successUrl: string,
    cancelUrl: string,
    metadataUserId: string,
    metadataPlan: string)

  datatype Response =
    | SessionUrl(url: string)
    | BadRequest(error: string)
    | ServerError(error: string)

  const InvalidPlan: string := "Invalid plan"
  const ProPrice: nat := 500
  const LifetimePrice: nat := 9900

  /** A template literal renders a missing header as `null`. */
  function OriginText(origin: Option<string>): (t: string)
    ensures origin.Some? ==> t == origin.value
    ensures origin.None? ==> t == "null"
  {
    match origin
    case Some(o) => o
    case None => "null"
  }

  /** The `pro` and `lifetime` branches; any other plan is refused. */
  function SessionFor(plan: Option<string>, userId: Option<string>, origin: Option<string>)
    : (r: Result<SessionParams>)
    ensures r.Err? <==> plan != Some("pro") && plan != Some("lifetime")
    ensures r.Err? ==> r.error == InvalidPlan
    ensures r.Ok? ==>
      var p := r.value;
      && p.paymentMethodTypes == ["card"]
      && |p.lineItems| == 1
      && p.lineItems[0].currency == "usd" && p.lineItems[0].quantity == 1
      && p.successUrl == OriginText(origin) + "/dashboard?session_id={CHECKOUT_SESSION_ID}"
      && p.cancelUrl == OriginText(origin) + "/pricing"
      && p.metadataUserId == (if Present(userId) then userId.value else "")
      && p.metadataPlan == plan.value
    ensures plan == Some("pro") && r.Ok? ==>
      && r.value.mode == "subscription"
      && r.value.lineItems[0].unitAmount == ProPrice
      && r.value.lineItems[0].recurring == Some(Month)
    ensures plan == Some("lifetime") && r.Ok? ==>
      && r.value.mode == "payment"
      && r.value.lineItems[0].unitAmount == LifetimePrice
      && r.value.lineItems[0].recurring.None?
  {
    var base := OriginText(origin);
    var metaUser := if Present(userId) then userId.value else "";
    if plan == Some("pro") then
      Ok(SessionParams(
        ["card"],
        [LineItem("usd", "TieLog Pro Plan", "Advanced features for power networkers.",
                  ProPrice, Some(Month), 1)],
        "subscription",
        base + "/dashboard?session_id={CHECKOUT_SESSION_ID}",
        base + "/pricing",
        metaUser,
        "pro"))
    else if plan == Some("lifetime") then
      Ok(SessionParams(
        ["card"],
        [LineItem("usd", "TieLog Lifetime Membership", "One-time payment for eternal access.",
                  LifetimePrice, None, 1)],
        "payment",
        base + "/dashboard?session_id={CHECKOUT_SESSION_ID}",
        base + "/pricing",
        metaUser,
        "lifetime"))
    else
      Err(InvalidPlan)
  }

  /** The two fields read from the request body. */
  datatype CheckoutBody = CheckoutBody(plan: Option<string>, userId: Option<string>)

  /** `POST /api/checkout`. `body` is what parsing the request body gives: its fields,
      or the message parsing throws. `created` is what creating the session gives
      back: its URL, or the message it throws. Also returns the parameters sent to
      Stripe. */
  function CheckoutPost(body: Result<CheckoutBody>, origin: Option<string>, created: Result<string>)
    : (r: (Response, Option<SessionParams>))
    ensures body.Err? ==> r == (ServerError(body.error), None)
    ensures body.Ok? && body.value.plan != Some("pro") && body.value.plan != Some("lifetime") ==>
      r == (BadRequest(InvalidPlan), None)
    ensures r.1.Some? <==> body.Ok? && (body.value.plan == Some("pro") || body.value.plan == Some("lifetime"))
    ensures r.1.Some? ==> r.1 == Some(SessionFor(body.value.plan, body.value.userId, origin).value)
    ensures r.1.Some? && created.Ok? ==> r.0 == SessionUrl(created.value)
    ensures r.1.Some? && created.Err? ==> r.0 == ServerError(created.error)
  {
    match body
    case Err(e) => (ServerError(e), None)
    case Ok(CheckoutBody(plan, userId)) =>
      match SessionFor(plan, userId, origin)
      case Err(e) => (BadRequest(e), None)
      case Ok(p) =>
        match created
        case Ok(url) => (SessionUrl(url), Some(p))
        case Err(e) => (ServerError(e), Some(p))
  }

  /** The event Stripe sends once the session is paid: its metadata is the
      session's, as the session was created. */
  function CompletedEventOf(p: SessionParams, customer: Option<string>, subscription: Option<string>)
    : StripeWebhook.StripeEvent
  {
    StripeWebhook.CheckoutCompleted(Some(p.metadataUserId), Some(p.metadataPlan), customer, subscription)
  }

  /** Paying for a session opened by a signed-in user whose profile exists moves that
      profile to the chosen plan; a session opened without a user id is paid for but
      upgrades no one. */
  lemma {:induction false} PaidCheckoutSetsPlan(
    ps: seq<StripeWebhook.BillingProfile>, plan: string, userId: Option<string>, origin: Option<string>,
    customer: Option<string>, subscription: Option<string>, sig: string, secret: string, now: string,
    orm: StripeWebhook.Orm)
    requires plan == "pro" || plan == "lifetime"
    requires sig != "" && secret != ""
    ensures var p := SessionFor(Some(plan), userId, origin).value;
      var (resp, next) := StripeWebhook.Webhook(ps, Some(sig), Some(secret),
                                                Ok(CompletedEventOf(p, customer, subscription)), now, orm);
      && (!Present(userId) ==> resp == StripeWebhook.Received && next == ps)
      && (Present(userId) && StripeWebhook.HasId(ps, userId.value) && orm.failure.None? ==>
            && resp == StripeWebhook.Received
            && forall k :: 0 <= k < |ps| && ps[k].id == userId.value ==>
                 next[k].plan == plan && next[k].status == Some("active"))
  {
    var p := SessionFor(Some(plan), userId, origin).value;
    if Present(userId) {
      StripeWebhook.CheckoutActivates(ps, userId.value, plan, customer, subscription, sig, secret, now, orm);
    }
  }
}

=== FILE: db.dfy ===
/** The on-device database (`LogbookDB`): five entity tables keyed by id and the
    mutation queue `syncQueue`, whose primary key `++id` is auto-incremented. */
module Db {
  import opened Basics

  /** The five entity kinds; their table names are the strings stored in a queue item. */
  datatype Table = Profiles | Clusters | Organizations | People | Notes

  datatype Action = Create | Update | Delete

  function TableName(t: Table): string {
    match t
    case Profiles => "profiles"
    case Clusters => "clusters"
    case Organizations => "organizations"
    case People => "people"
    case Notes => "notes"
  }

  function ActionName(a: Action): string {
    match a
    case Create => "create"
    case Update => "update"
    case Delete => "delete"
  }

  /** The table a stored name designates, if it is one of the five. */
  function ParseTable(s: string): (r: Option<Table>)
    ensures r.Some? ==> TableName(r.value) == s
    ensures forall t :: TableName(t) == s ==> r == Some(t)
  {
    if s == "profiles" then Some(Profiles)
    else if s == "clusters" then Some(Clusters)
    else if s == "organizations" then Some(Organizations)
    else if s == "people" then Some(People)
    else if s == "notes" then Some(Notes)
    else None
  }

  function ParseAction(s: string): (r: Option<Action>)
    ensures r.Some? ==> ActionName(r.value) == s
    ensures forall a :: ActionName(a) == s ==> r == Some(a)
  {
    if s == "create" then Some(Create)
    else if s == "update" then Some(Update)
    else if s == "delete" then Some(Delete)
    else None
  }

  datatype Profile = Profile(
    id: string,
    email: string,
    fullName: Option<string>,
    avatarUrl: Option<string>,
    plan: string,
    stripeCustomerId: Option<string>,
    stripeSubscriptionId: Option<string>,
    subscriptionStatus: Option<string>,
    createdAt: string,
    synced: bool)

  /** `userId == ""` stands for the rows of older data that carry no `user_id`. */
  datatype Cluster = Cluster(
    id: string,
    userId: string,
    name: string,
    description: Option<string>,
    createdAt: string,
    updatedAt: string,
    synced: bool)

  datatype Organization = Organization(
    id: string,
    clusterId: string,
    name: string,
    createdAt: string,
    synced: bool)

  datatype Person = Person(
    id: string,
    organizationId: string,
    name: string,
    role: Option<string>,
    createdAt: string,
    synced: bool)

  datatype Note = Note(
    id: string,
    clusterId: Option<string>,
    organizationId: Option<string>,
    personId: Option<string>,
    content: string,
    audioUrl: Option<string>,
    tags: Option<seq<string>>,
    createdAt: string,
    updatedAt: string,
    synced: bool)

  /** The untyped record a queue item carries (`Record<string, unknown>`). */
  type Payload = map<string, Value>

  function OptStr(o: Option<string>): Value {
    if o.Some? then Str(o.value) else Null
  }

  function OptTags(o: Option<seq<string>>): Value {
    if o.Some? then StrList(o.value) else Null
  }

  /** A new cluster, enqueued as the whole record. */
  function ClusterPayload(c: Cluster): Payload {
    map["id" := Str(c.id), "user_id" := Str(c.userId), "name" := Str(c.name),
        "description" := OptStr(c.description), "created_at" := Str(c.createdAt),
        "updated_at" := Str(c.updatedAt), "synced" := Bool(c.synced)]
  }

  /** A new organization, enqueued with the creating user's id added. */
  function OrganizationPayload(o: Organization, userId: string): Payload {
    map["id" := Str(o.id), "cluster_id" := Str(o.clusterId), "name" := Str(o.name),
        "created_at" := Str(o.createdAt), "synced" := Bool(o.synced), "user_id" := Str(userId)]
  }

  function PersonPayload(p: Person, userId: string): Payload {
    map["id" := Str(p.id), "organization_id" := Str(p.organizationId), "name" := Str(p.name),
        "role" := OptStr(p.role), "created_at" := Str(p.createdAt), "synced" := Bool(p.synced),
        "user_id" := Str(userId)]
  }

  function NotePayload(n: Note, userId: string): Payload {
    map["id" := Str(n.id), "cluster_id" := OptStr(n.clusterId),
        "organization_id" := OptStr(n.organizationId), "person_id" := OptStr(n.personId),
        "content" := Str(n.content), "audio_url" := OptStr(n.audioUrl), "tags" := OptTags(n.tags),
        "created_at" := Str(n.createdAt), "updated_at" := Str(n.updatedAt),
        "synced" := Bool(n.synced), "user_id" := Str(userId)]
  }

  /** A delete is enqueued as `{ id }` alone. */
  function IdPayload(id: string): Payload {
    map["id" := Str(id)]
  }

  /** A queue entry. `id` is absent until the store assigns it; `table` and `action`
      are the stored strings. */
  datatype SyncItem = SyncItem(
    id: Option<nat>,
    table: string,
    action: string,
    data: Payload,
    userId: string,
    timestamp: string)

  function ItemId(it: SyncItem): nat {
    it.id.GetOr(0)
  }

  /** The queue's rows in primary-key order and the key generator's next value.
      IndexedDB's generator starts at 1 and is never reset, not even by `clear()`. */
  datatype Queue = Queue(items: seq<SyncItem>, nextId: nat)

  const EmptyQueue: Queue := Queue([], 1)

  predicate IdsIncreasing(items: seq<SyncItem>) {
    forall i, j :: 0 <= i < j < |items| ==> ItemId(items[i]) < ItemId(items[j])
  }

  /** What every queue built by `AddToSyncQueue` satisfies: each item has an id below
      the generator, ids ascend, and each table/action is one of the known names. */
  predicate QueueWf(q: Queue) {
    && IdsIncreasing(q.items)
    && forall i :: 0 <= i < |q.items| ==>
         && q.items[i].id.Some?
         && q.items[i].id.value < q.nextId
         && ParseTable(q.items[i].table).Some?
         && ParseAction(q.items[i].action).Some?
  }

  lemma EmptyQueueWf()
    ensures QueueWf(EmptyQueue)
  {
  }

  /** `addToSyncQueue`: appends one item with the next generated id. */
  function AddToSyncQueue(q: Queue, table: Table, action: Action, data: Payload, userId: string, now: string): (r: Queue)
    ensures |r.items| == |q.items| + 1
    ensures r.items[..|q.items|] == q.items
    ensures r.items[|q.items|].table == TableName(table)
    ensures r.items[|q.items|].action == ActionName(action)
    ensures r.items[|q.items|].data == data
    ensures r.items[|q.items|].userId == userId
    ensures r.items[|q.items|].id == Some(q.nextId)
    ensures r.nextId > q.nextId
    ensures QueueWf(q) ==> QueueWf(r)
    ensures QueueWf(q) ==> forall i :: 0 <= i < |q.items| ==> ItemId(q.items[i]) < ItemId(r.items[|q.items|])
  {
    Queue(q.items + [SyncItem(Some(q.nextId), TableName(table), ActionName(action), data, userId, now)], q.nextId + 1)
  }

  /** `getPendingSyncItems`: every queued item, in id order, nothing removed. */
  function GetPendingSyncItems(q: Queue): (r: seq<SyncItem>)
    ensures multiset(r) == multiset(q.items)
    ensures QueueWf(q) ==> IdsIncreasing(r)
  {
    q.items
  }

  /** `clearSyncQueue`. */
  function ClearSyncQueue(q: Queue): (r: Queue)
    ensures r.items == []
    ensures r.nextId == q.nextId
    ensures QueueWf(r)
  {
    Queue([], q.nextId)
  }

  predicate Named(it: SyncItem, ids: set<nat>) {
    it.id.Some? && it.id.value in ids
  }

  /** The items whose id is not named, in their original order. */
  function Without(items: seq<SyncItem>, ids: set<nat>): (r: seq<SyncItem>)
    ensures forall it :: it in r <==> it in items && !Named(it, ids)
  {
    if |items| == 0 then []
    else if Named(items[0], ids) then Without(items[1..], ids)
    else [items[0]] + Without(items[1..], ids)
  }

  lemma {:induction false} WithoutKeepsOrder(items: seq<SyncItem>, ids: set<nat>)
    requires IdsIncreasing(items)
    ensures IdsIncreasing(Without(items, ids))
  {
    if |items| > 0 {
      var rest := Without(items[1..], ids);
      WithoutKeepsOrder(items[1..], ids);
      forall x | x in rest ensures ItemId(items[0]) < ItemId(x) {
        var j :| 0 <= j < |items[1..]| && items[1..][j] == x;
        assert items[j + 1] == x;
      }
    }
  }

  lemma {:induction false} WithoutNothingNamed(items: seq<SyncItem>, ids: set<nat>)
    requires forall i :: 0 <= i < |items| ==> !Named(items[i], ids)
    ensures Without(items, ids) == items
  {
    if |items| > 0 {
      WithoutNothingNamed(items[1..], ids);
      assert [items[0]] + items[1..] == items;
    }
  }

  /** `db.syncQueue.bulkDelete(ids)`: removes exactly the named rows; unknown ids are ignored. */
  function BulkDelete(q: Queue, ids: set<nat>): (r: Queue)
    ensures forall it :: it in r.items <==> it in q.items && !Named(it, ids)
    ensures r.nextId == q.nextId
    ensures QueueWf(q) ==> QueueWf(r)
  {
    var r := Queue(Without(q.items, ids), q.nextId);
    assert QueueWf(q) ==> QueueWf(r) by {
      if QueueWf(q) {
        WithoutKeepsOrder(q.items, ids);
        forall i | 0 <= i < |r.items|
          ensures r.items[i].id.Some? && r.items[i].id.value < r.nextId
          ensures ParseTable(r.items[i].table).Some? && ParseAction(r.items[i].action).Some?
        {
          assert r.items[i] in q.items;
        }
      }
    }
    r
  }

  /** The whole on-device database. */
  datatype LocalDb = LocalDb(
    profiles: map<string, Profile>,
    clusters: map<string, Cluster>,
    organizations: map<string, Organization>,
    people: map<string, Person>,
    notes: map<string, Note>,
    syncQueue: Queue)

  /** Every row is stored under its own id (Dexie's inbound primary key). */
  predicate KeysMatch(db: LocalDb) {
    && (forall k :: k in db.profiles ==> db.profiles[k].id == k)
    && (forall k :: k in db.clusters ==> db.clusters[k].id == k)
    && (forall k :: k in db.organizations ==> db.organizations[k].id == k)
    && (forall k :: k in db.people ==> db.people[k].id == k)
    && (forall k :: k in db.notes ==> db.notes[k].id == k)
  }
}

=== FILE: flows.dfy ===
/** How a mutation of the store reaches the remote: the queue item it leaves is the
    one the push turns into the matching remote call. */
module Flows {
  import opened Basics
  import opened Db
  import opened AppStore
  import opened Sync

  /** The item a new cluster leaves in the queue is pushed as an upsert of the
      cluster's columns under its id, owned by the signed-in user. */
  lemma {:induction false} AddedClusterIsPushed(s: Store, id: string, now: string, name: string,
                                                description: Option<string>)
    requires Present(s.state.userId) && id !in s.db.clusters
    ensures AddCluster(s, id, now, name, description).Ok?
    ensures var (t, c) := AddCluster(s, id, now, name, description).value;
      var it := t.db.syncQueue.items[|s.db.syncQueue.items|];
      var op := ItemOp(it, s.state.userId.value);
      && op.Some? && op.value.Upsert? && op.value.table == Clusters
      && op.value.row.Keys == Columns(Clusters)
      && op.value.row["id"] == Str(id)
      && op.value.row["user_id"] == Str(s.state.userId.value)
      && op.value.row["name"] == Str(name)
      && op.value.row["description"] == OptStr(OrNull(description))
  {
    var (t, c) := AddCluster(s, id, now, name, description).value;
    var it := t.db.syncQueue.items[|s.db.syncQueue.items|];
    ClusterCreateIsUpsert(it, c);
  }

  /** A queued cluster create is pushed as an upsert of the cluster's own columns. */
  lemma ClusterCreateIsUpsert(it: SyncItem, c: Cluster)
    requires it.table == TableName(Clusters) && it.action == ActionName(Create)
    requires it.data == ClusterPayload(c)
    ensures var op := ItemOp(it, c.userId);
      && op.Some? && op.value.Upsert? && op.value.table == Clusters
      && op.value.row.Keys == Columns(Clusters)
      && op.value.row["id"] == Str(c.id)
      && op.value.row["user_id"] == Str(c.userId)
      && op.value.row["name"] == Str(c.name)
      && op.value.row["description"] == OptStr(c.description)
  {
    var data := ClusterPayload(c);
    assert ParseTable(it.table) == Some(Clusters) && ParseAction(it.action) == Some(Create);
    var rebuilt := Rebuild(Clusters, data, c.userId);
    assert ItemOp(it, c.userId) == Some(Upsert(Clusters, Project(rebuilt, Columns(Clusters))));
    assert Field(rebuilt, "id") == Str(c.id);
    assert Field(rebuilt, "user_id") == Str(c.userId);
    assert Field(rebuilt, "name") == Field(data, "name") == Str(c.name);
    assert Field(rebuilt, "description") == Field(data, "description") == OptStr(c.description);
  }

  /** The item a cluster delete leaves in the queue is pushed as a delete of that id. */
  lemma {:induction false} DeletedClusterIsPushed(s: Store, now: string, id: string)
    requires Present(s.state.userId)
    ensures var t := DeleteCluster(s, now, id);
      var it := t.db.syncQueue.items[|s.db.syncQueue.items|];
      ItemOp(it, s.state.userId.value) == Some(RemoteDelete(Clusters, Str(id)))
  {
    var t := DeleteCluster(s, now, id);
    var it := t.db.syncQueue.items[|s.db.syncQueue.items|];
    assert it.table == "clusters" && it.action == "delete";
    assert it.data == IdPayload(id);
    ActionMapping(it, s.state.userId.value);
  }

  /** The item a cluster update leaves in the queue is pushed as an upsert that
      carries the id, the syncing user and only the patched fields: the columns the
      patch does not set, `updated_at` among them, are sent as `undefined`. */
  lemma {:induction false} UpdatedClusterIsPushed(s: Store, now: string, id: string, p: ClusterPatch)
    requires Present(s.state.userId)
    ensures var t := UpdateCluster(s, now, id, p);
      var it := t.db.syncQueue.items[|s.db.syncQueue.items|];
      var op := ItemOp(it, s.state.userId.value);
      && op.Some? && op.value.Upsert? && op.value.table == Clusters
      && op.value.row["id"] == Str(id)
      && op.value.row["user_id"] == Str(s.state.userId.value)
      && op.value.row["name"] == (if p.name.Some? then Str(p.name.value) else Undef)
      && op.value.row["description"] == (if p.description.Some? then OptStr(p.description.value) else Undef)
      && op.value.row["created_at"] == Undef && op.value.row["updated_at"] == Undef
  {
    var t := UpdateCluster(s, now, id, p);
    var it := t.db.syncQueue.items[|s.db.syncQueue.items|];
    ClusterUpdateIsUpsert(it, id, p, s.state.userId.value);
  }

  lemma ClusterUpdateIsUpsert(it: SyncItem, id: string, p: ClusterPatch, userId: string)
    requires it.table == TableName(Clusters) && it.action == ActionName(Update)
    requires it.data == ClusterPatchPayload(id, p)
    ensures var op := ItemOp(it, userId);
      && op.Some? && op.value.Upsert? && op.value.table == Clusters
      && op.value.row["id"] == Str(id)
      && op.value.row["user_id"] == Str(userId)
      && op.value.row["name"] == (if p.name.Some? then Str(p.name.value) else Undef)
      && op.value.row["description"] == (if p.description.Some? then OptStr(p.description.value) else Undef)
      && op.value.row["created_at"] == Undef && op.value.row["updated_at"] == Undef
  {
    var data := ClusterPatchPayload(id, p);
    assert ParseTable(it.table) == Some(Clusters) && ParseAction(it.action) == Some(Update);
    var rebuilt := Rebuild(Clusters, data, userId);
    assert ItemOp(it, userId) == Some(Upsert(Clusters, Project(rebuilt, Columns(Clusters))));
    assert data.Keys <= {"id", "name", "description"};
    assert "user_id" !in data;
    assert Field(rebuilt, "id") == Str(id);
    assert Field(rebuilt, "user_id") == Str(userId);
    assert Field(rebuilt, "created_at") == Field(data, "created_at") == Undef;
    assert Field(rebuilt, "updated_at") == Field(data, "updated_at") == Undef;
  }

  /** Pushing such an upsert onto a remote row leaves the row's other columns as they
      were: the remote `updated_at` of an edited cluster is not advanced. */
  lemma UpsertKeepsUnsentColumns(store: RemoteStore, t: Table, row: Row, col: string)
    requires Field(row, "id").Str?
    requires Field(row, col) == Undef
    ensures var key := Field(row, "id");
      var before := TableOf(store, t);
      var after := TableOf(Apply(store, Upsert(t, row)), t);
      key in after && (key in before && col in before[key] ==> col in after[key] && after[key][col] == before[key][col])
  {
  }
}

=== FILE: logger.dfy ===
/** The structured logger: every call builds one record from the level, the message,
    a timestamp and the caller's extra fields, serialises it as JSON and writes it on
    the console channel of its level. The clock is an input. */
module Logger {
  import opened Basics

  datatype Level = Debug | Info | Warn | Error

  function LevelName(l: Level): (name: string)
    ensures name in {"debug", "info", "warn", "error"}
  {
    match l
    case Debug => "debug"
    case Info => "info"
    case Warn => "warn"
    case Error => "error"
  }

  lemma LevelNamesDiffer(a: Level, b: Level)
    ensures LevelName(a) == LevelName(b) <==> a == b
  {
  }

  // ---------------------------------------------------------------------------
  // Records: a JavaScript object as its entries in insertion order
  // ---------------------------------------------------------------------------

  type Record = seq<(string, Value)>

  predicate DistinctKeys(r: Record) {
    forall i, j :: 0 <= i < j < |r| ==> r[i].0 != r[j].0
  }

  predicate HasKey(r: Record, k: string) {
    exists i :: 0 <= i < |r| && r[i].0 == k
  }

  /** The position of the first entry with key `k`. */
  function IndexOf(r: Record, k: string): (i: Option<nat>)
    ensures i.Some? ==> i.value < |r| && r[i.value].0 == k
    ensures i.Some? ==> forall j :: 0 <= j < i.value ==> r[j].0 != k
    ensures i.None? <==> !HasKey(r, k)
  {
    if |r| == 0 then None
    else if r[0].0 == k then Some(0)
    else
      match IndexOf(r[1..], k)
      case Some(j) => Some(j + 1)
      case None =>
        assert forall j :: 1 <= j < |r| ==> r[j] == r[1..][j - 1];
        None
  }

  /** `obj[k]`, with `None` for a key the object does not have. */
  function Get(r: Record, k: string): (v: Option<Value>)
    ensures v.None? <==> !HasKey(r, k)
    ensures DistinctKeys(r) ==> forall i :: 0 <= i < |r| && r[i].0 == k ==> v == Some(r[i].1)
  {
    match IndexOf(r, k)
    case Some(i) => Some(r[i].1)
    case None => None
  }

  /** `obj[k] = v`: an existing key keeps its place and takes the new value; a new
      key goes at the end. */
  function SetKey(r: Record, k: string, v: Value): (s: Record)
    ensures |s| == if HasKey(r, k) then |r| else |r| + 1
    ensures forall i :: 0 <= i < |r| ==> s[i].0 == r[i].0
    ensures forall j :: HasKey(s, j) <==> HasKey(r, j) || j == k
    ensures DistinctKeys(r) ==> DistinctKeys(s)
    ensures DistinctKeys(r) ==> Get(s, k) == Some(v)
    ensures DistinctKeys(r) ==> forall j :: j != k ==> Get(s, j) == Get(r, j)
  {
    if HasKey(r, k) then
      var s := seq(|r|, i requires 0 <= i < |r| => if r[i].0 == k then (k, v) else r[i]);
      assert forall j :: HasKey(s, j) ==> HasKey(r, j) by {
        forall j | HasKey(s, j) ensures HasKey(r, j) {
          var i :| 0 <= i < |s| && s[i].0 == j;
          assert r[i].0 == j;
        }
      }
      assert forall j :: HasKey(r, j) ==> HasKey(s, j) by {
        forall j | HasKey(r, j) ensures HasKey(s, j) {
          var i :| 0 <= i < |r| && r[i].0 == j;
          assert s[i].0 == j;
        }
      }
      s
    else
      var s := r + [(k, v)];
      assert forall j :: HasKey(s, j) ==> HasKey(r, j) || j == k by {
        forall j | HasKey(s, j) ensures HasKey(r, j) || j == k {
          var i :| 0 <= i < |s| && s[i].0 == j;
          if i < |r| {
            assert r[i].0 == j;
          }
        }
      }
      assert s[|r|].0 == k;
      assert forall j :: HasKey(r, j) ==> HasKey(s, j) by {
        forall j | HasKey(r, j) ensures HasKey(s, j) {
          var i :| 0 <= i < |r| && r[i].0 == j;
          assert s[i].0 == j;
        }
      }
      s
  }

  /** How a record relates to its entries after the first. */
  lemma TailFacts(r: Record)
    requires |r| > 0
    ensures forall k :: HasKey(r, k) <==> k == r[0].0 || HasKey(r[1..], k)
    ensures forall k :: k != r[0].0 ==> Get(r, k) == Get(r[1..], k)
    ensures Get(r, r[0].0) == Some(r[0].1)
    ensures DistinctKeys(r) <==> DistinctKeys(r[1..]) && !HasKey(r[1..], r[0].0)
  {
    var t := r[1..];
    forall k ensures HasKey(r, k) <==> k == r[0].0 || HasKey(t, k) {
      if HasKey(t, k) {
        var i :| 0 <= i < |t| && t[i].0 == k;
        assert r[i + 1].0 == k;
      }
      if HasKey(r, k) && k != r[0].0 {
        var i :| 0 <= i < |r| && r[i].0 == k;
        assert t[i - 1].0 == k;
      }
    }
    if DistinctKeys(r) {
      forall i, j | 0 <= i < j < |t| ensures t[i].0 != t[j].0 {
        assert t[i] == r[i + 1] && t[j] == r[j + 1];
      }
      forall i | 0 <= i < |t| ensures t[i].0 != r[0].0 {
        assert t[i] == r[i + 1];
      }
    }
    if DistinctKeys(t) && !HasKey(t, r[0].0) {
      forall i, j | 0 <= i < j < |r| ensures r[i].0 != r[j].0 {
        assert t[j - 1] == r[j];
        if i > 0 {
          assert t[i - 1] == r[i];
        }
      }
    }
  }

  /** Object spread of `meta` over `base`: `meta`'s entries assigned in order, so a
      key in both takes `meta`'s value and keeps `base`'s position. */
  function Spread(base: Record, meta: Record): (r: Record)
    requires DistinctKeys(base) && DistinctKeys(meta)
    ensures DistinctKeys(r)
    ensures |r| >= |base| && forall i :: 0 <= i < |base| ==> r[i].0 == base[i].0
    ensures forall k :: HasKey(r, k) <==> HasKey(base, k) || HasKey(meta, k)
    ensures forall k :: Get(r, k) == if HasKey(meta, k) then Get(meta, k) else Get(base, k)
    decreases |meta|
  {
    if |meta| == 0 then base
    else
      TailFacts(meta);
      Spread(SetKey(base, meta[0].0, meta[0].1), meta[1..])
  }

  // ---------------------------------------------------------------------------
  // The payload and what reaches the console
  // ---------------------------------------------------------------------------

  /** The three fields every payload starts with. */
  function Builtins(level: Level, message: string, timestamp: string): (r: Record)
    ensures DistinctKeys(r)
  {
    [("level", Str(LevelName(level))), ("message", Str(message)), ("timestamp", Str(timestamp))]
  }

  /** The three built-in fields, then the caller's fields spread over them; a
      missing `meta` spreads nothing. */
  function Payload(level: Level, message: string, timestamp: string, meta: Option<Record>): (r: Record)
    requires meta.Some? ==> DistinctKeys(meta.value)
    ensures DistinctKeys(r)
    ensures |r| >= 3 && r[0].0 == "level" && r[1].0 == "message" && r[2].0 == "timestamp"
    ensures meta.None? ==> r == Builtins(level, message, timestamp)
  {
    match meta
    case None => Builtins(level, message, timestamp)
    case Some(m) => Spread(Builtins(level, message, timestamp), m)
  }

  /** What `JSON.stringify` keeps of a record, read back by `JSON.parse`: the
      entries in order, less those holding `undefined`. */
  function Visible(p: Record): (r: Record)
    requires DistinctKeys(p)
    ensures DistinctKeys(r)
    ensures forall k :: HasKey(r, k) ==> HasKey(p, k)
    ensures forall k :: Get(r, k) == if Get(p, k) == Some(Undef) then None else Get(p, k)
    decreases |p|
  {
    if |p| == 0 then []
    else
      TailFacts(p);
      var rest := Visible(p[1..]);
      if p[0].1 == Undef then rest
      else
        var r := [p[0]] + rest;
        assert r[1..] == rest;
        TailFacts(r);
        r
  }

  /** One call of `console.debug`, `console.info`, `console.warn` or `console.error`,
      with the record its JSON argument parses back to. */
  datatype ConsoleCall = ConsoleCall(channel: Level, fields: Record)

  function CallsOn(console: seq<ConsoleCall>, level: Level): (n: nat)
    ensures n <= |console|
  {
    if |console| == 0 then 0
    else CallsOn(console[..|console| - 1], level) + (if console[|console| - 1].channel == level then 1 else 0)
  }

  /** `emit(level, message, meta)` at time `now`. */
  function Emit(console: seq<ConsoleCall>, level: Level, message: string, meta: Option<Record>, now: string)
    : (r: seq<ConsoleCall>)
    requires meta.Some? ==> DistinctKeys(meta.value)
    ensures |r| == |console| + 1 && r[..|console|] == console
    ensures CallsOn(r, level) == CallsOn(console, level) + 1
    ensures forall other :: other != level ==> CallsOn(r, other) == CallsOn(console, other)
    ensures r[|console|].channel == level
  {
    var r := console + [ConsoleCall(level, Visible(Payload(level, message, now, meta)))];
    assert r[..|r| - 1] == console;
    r
  }

  /** The `logger` object: one entry point per level, each passing its own level. */
  function LogDebug(console: seq<ConsoleCall>, message: string, meta: Option<Record>, now: string): (r: seq<ConsoleCall>)
    requires meta.Some? ==> DistinctKeys(meta.value)
    ensures |r| == |console| + 1 && r[..|console|] == console
    ensures r[|console|].channel == Debug
    ensures meta.None? || !HasKey(meta.value, "level") ==>
      Get(r[|console|].fields, "level") == Some(Str("debug"))
  {
    EmittedFields(console, Debug, message, meta, now, "level");
    Emit(console, Debug, message, meta, now)
  }

  function LogInfo(console: seq<ConsoleCall>, message: string, meta: Option<Record>, now: string): (r: seq<ConsoleCall>)
    requires meta.Some? ==> DistinctKeys(meta.value)
    ensures |r| == |console| + 1 && r[..|console|] == console
    ensures r[|console|].channel == Info
    ensures meta.None? || !HasKey(meta.value, "level") ==>
      Get(r[|console|].fields, "level") == Some(Str("info"))
  {
    EmittedFields(console, Info, message, meta, now, "level");
    Emit(console, Info, message, meta, now)
  }

  function LogWarn(console: seq<ConsoleCall>, message: string, meta: Option<Record>, now: string): (r: seq<ConsoleCall>)
    requires meta.Some? ==> DistinctKeys(meta.value)
    ensures |r| == |console| + 1 && r[..|console|] == console
    ensures r[|console|].channel == Warn
    ensures meta.None? || !HasKey(meta.value, "level") ==>
      Get(r[|console|].fields, "level") == Some(Str("warn"))
  {
    EmittedFields(console, Warn, message, meta, now, "level");
    Emit(console, Warn, message, meta, now)
  }

  function LogError(console: seq<ConsoleCall>, message: string, meta: Option<Record>, now: string): (r: seq<ConsoleCall>)
    requires meta.Some? ==> DistinctKeys(meta.value)
    ensures |r| == |console| + 1 && r[..|console|] == console
    ensures r[|console|].channel == Error
    ensures meta.None? || !HasKey(meta.value, "level") ==>
      Get(r[|console|].fields, "level") == Some(Str("error"))
  {
    EmittedFields(console, Error, message, meta, now, "level");
    Emit(console, Error, message, meta, now)
  }

  // ---------------------------------------------------------------------------
  // What a reader of the console line sees
  // ---------------------------------------------------------------------------

  /** The built-in fields by name. */
  lemma BuiltinsGet(level: Level, message: string, now: string, k: string)
    ensures var b := Builtins(level, message, now);
      && (k == "level" ==> Get(b, k) == Some(Str(LevelName(level))))
      && (k == "message" ==> Get(b, k) == Some(Str(message)))
      && (k == "timestamp" ==> Get(b, k) == Some(Str(now)))
      && (k != "level" && k != "message" && k != "timestamp" ==> !HasKey(b, k))
  {
    var b := Builtins(level, message, now);
    assert b[0].0 == "level" && b[1].0 == "message" && b[2].0 == "timestamp";
  }

  /** The emitted record carries every extra field the caller passed (except those
      holding `undefined`), and a caller's field named like a built-in one replaces
      it; the other built-in fields are the level, message and timestamp. */
  lemma {:induction false} EmittedFields(console: seq<ConsoleCall>, level: Level, message: string,
                                         meta: Option<Record>, now: string, k: string)
    requires meta.Some? ==> DistinctKeys(meta.value)
    ensures var fields := Emit(console, level, message, meta, now)[|console|].fields;
      && (meta.Some? && HasKey(meta.value, k) && Get(meta.value, k) != Some(Undef) ==>
            Get(fields, k) == Get(meta.value, k))
      && (meta.Some? && Get(meta.value, k) == Some(Undef) ==> !HasKey(fields, k))
      && (meta.None? || !HasKey(meta.value, k) ==>
            && (k == "level" ==> Get(fields, k) == Some(Str(LevelName(level))))
            && (k == "message" ==> Get(fields, k) == Some(Str(message)))
            && (k == "timestamp" ==> Get(fields, k) == Some(Str(now)))
            && (k != "level" && k != "message" && k != "timestamp" ==> !HasKey(fields, k)))
  {
    var p := Payload(level, message, now, meta);
    var fields := Emit(console, level, message, meta, now)[|console|].fields;
    assert fields == Visible(p);
    BuiltinsGet(level, message, now, k);
    var b := Builtins(level, message, now);
    assert Get(p, k) == if meta.Some? && HasKey(meta.value, k) then Get(meta.value, k) else Get(b, k);
    assert Get(fields, k) == if Get(p, k) == Some(Undef) then None else Get(p, k);
  }

  /** Without extra fields the console line holds exactly the level, the message and
      the timestamp, in that order. */
  lemma NoMetaFields(console: seq<ConsoleCall>, level: Level, message: string, now: string)
    ensures Emit(console, level, message, None, now)[|console|].fields ==
      [("level", Str(LevelName(level))), ("message", Str(message)), ("timestamp", Str(now))]
  {
    var b := Builtins(level, message, now);
    assert Visible(b[2..]) == [b[2]] by {
      assert b[2..][1..] == [];
    }
    assert Visible(b[1..]) == [b[1]] + Visible(b[2..]) by {
      assert b[1..][1..] == b[2..];
    }
    assert Visible(b) == [b[0]] + Visible(b[1..]);
  }

  /** A record of one entry has that entry's key and no other. */
  lemma OneEntry(k: string, v: Value)
    ensures DistinctKeys([(k, v)])
    ensures forall j :: HasKey([(k, v)], j) <==> j == k
  {
    var r: Record := [(k, v)];
    assert r[0].0 == k;
  }

  /** An info call with one extra field whose key is not a built-in one
      writes a line that reads back with level `info`, the message, the timestamp
      and the extra field. */
  lemma InfoWithMeta(console: seq<ConsoleCall>, message: string, key: string, value: string, now: string)
    requires key != "level" && key != "message" && key != "timestamp"
    ensures var r := LogInfo(console, message, Some([(key, Str(value))]), now);
      && Get(r[|console|].fields, "level") == Some(Str("info"))
      && Get(r[|console|].fields, "message") == Some(Str(message))
      && Get(r[|console|].fields, key) == Some(Str(value))
      && Get(r[|console|].fields, "timestamp") == Some(Str(now))
  {
    var meta: Record := [(key, Str(value))];
    OneEntry(key, Str(value));
    EmittedFields(console, Info, message, Some(meta), now, key);
    EmittedFields(console, Info, message, Some(meta), now, "level");
    assert LevelName(Info) == "info";
    EmittedFields(console, Info, message, Some(meta), now, "message");
    EmittedFields(console, Info, message, Some(meta), now, "timestamp");
  }
}

=== FILE: notecard.dfy ===
/** The note card: the tags text field of its edit dialog, which starts as the
    note's tags joined with ", " and is parsed back into a list on save, and the
    flags that decide how the card is drawn. */
module NoteCard {
  import opened Basics
  import opened Text
  import opened Db

  /** The tags joined with ", ", or the empty text when the note has none. */
  function InitEditTags(tags: Option<seq<string>>): (text: string)
    ensures tags.None? ==> text == ""
    ensures tags.Some? && tags.value == [] ==> text == ""
    ensures tags.Some? && |tags.value| == 1 ==> text == tags.value[0]
    ensures tags.Some? && |tags.value| >= 2 ==>
      text == tags.value[0] + ", " + InitEditTags(Some(tags.value[1..]))
    decreases if tags.Some? then |tags.value| else 0
  {
    if tags.Some? then Join(tags.value, ", ") else ""
  }

  predicate NonEmpty(t: string) {
    t != ""
  }

  /** Each comma-separated piece trimmed, the empty ones dropped. */
  function CleanPieces(pieces: seq<string>): (tags: seq<string>)
    ensures forall k :: 0 <= k < |tags| ==> tags[k] != "" && Trimmed(tags[k])
  {
    Filter(MapSeq(pieces, Trim), NonEmpty)
  }

  /** The saved tags: `null` for an empty field, else its cleaned comma-separated pieces. */
  function ParseEditTags(text: string): (r: Option<seq<string>>)
    ensures text == "" <==> r.None?
    ensures r.Some? ==> forall k :: 0 <= k < |r.value| ==>
      && r.value[k] != ""
      && ',' !in r.value[k]
      && Trimmed(r.value[k])
  {
    if text == "" then None
    else
      var pieces := Split(text, ',');
      var tags := CleanPieces(pieces);
      assert forall k :: 0 <= k < |tags| ==> ',' !in tags[k] by {
        forall k | 0 <= k < |tags| ensures ',' !in tags[k] {
          assert tags[k] in MapSeq(pieces, Trim);
          var i :| 0 <= i < |pieces| && MapSeq(pieces, Trim)[i] == tags[k];
          TrimKeepsOut(pieces[i], ',');
        }
      }
      Some(tags)
  }

  /** A tag the edit field can carry through a save unchanged. */
  predicate Clean(t: string) {
    t != "" && ',' !in t && Trimmed(t)
  }

  /** Splitting a joined list at the commas gives the tags back, each after the
      first carrying the space of the separator. */
  lemma {:induction false} SplitJoined(pre: string, tags: seq<string>)
    requires |tags| >= 1
    requires ',' !in pre
    requires forall k :: 0 <= k < |tags| ==> ',' !in tags[k]
    ensures Split(pre + Join(tags, ", "), ',') ==
      [pre + tags[0]] + seq(|tags| - 1, k requires 0 <= k < |tags| - 1 => " " + tags[k + 1])
    decreases |tags|
  {
    if |tags| == 1 {
      assert ',' !in pre + tags[0];
      SplitWithoutSeparator(pre + tags[0], ',');
    } else {
      var rest := tags[1..];
      assert pre + Join(tags, ", ") == (pre + tags[0]) + [','] + (" " + Join(rest, ", "));
      assert ',' !in pre + tags[0];
      SplitAtSeparator(pre + tags[0], ',', " " + Join(rest, ", "));
      SplitJoined(" ", rest);
      assert " " + Join(rest, ", ") == " " + "" + Join(rest, ", ");
    }
  }

  /** Opening the editor and saving without touching the field gives back the
      note's tags when every tag is non-empty, comma-free and trimmed; an empty
      list comes back as `null`. */
  lemma JoinThenParse(tags: seq<string>)
    requires forall k :: 0 <= k < |tags| ==> Clean(tags[k])
    ensures ParseEditTags(InitEditTags(Some(tags))) == if tags == [] then None else Some(tags)
  {
    if tags != [] {
      var text := Join(tags, ", ");
      assert text != "" by {
        JoinedNonEmpty(tags);
      }
      TrimmedPiecesAreTheTags(tags);
      FilterAll(tags, NonEmpty);
    }
  }

  lemma {:induction false} JoinedNonEmpty(tags: seq<string>)
    requires |tags| >= 1 && tags[0] != ""
    ensures Join(tags, ", ") != ""
  {
    if |tags| > 1 {
      assert Join(tags, ", ")[0] == tags[0][0];
    }
  }

  lemma TrimmedPiecesAreTheTags(tags: seq<string>)
    requires tags != []
    requires forall k :: 0 <= k < |tags| ==> Clean(tags[k])
    ensures MapSeq(Split(Join(tags, ", "), ','), Trim) == tags
  {
    var pieces := Split(Join(tags, ", "), ',');
    JoinedPieces(tags);
    var trimmed := MapSeq(pieces, Trim);
    forall k | 0 <= k < |tags| ensures trimmed[k] == tags[k] {
      CleanPieceTrims(pieces[k], tags[k]);
    }
  }

  /** The pieces of a joined list: the first tag, then each later tag after a space. */
  lemma JoinedPieces(tags: seq<string>)
    requires tags != []
    requires forall k :: 0 <= k < |tags| ==> Clean(tags[k])
    ensures var pieces := Split(Join(tags, ", "), ',');
      && |pieces| == |tags|
      && forall k :: 0 <= k < |tags| ==> pieces[k] == tags[k] || pieces[k] == " " + tags[k]
  {
    SplitJoined("", tags);
    assert "" + Join(tags, ", ") == Join(tags, ", ");
  }

  lemma CleanPieceTrims(piece: string, tag: string)
    requires Clean(tag)
    requires piece == tag || piece == " " + tag
    ensures Trim(piece) == tag
  {
    TrimmedFixed(tag);
    if piece != tag {
      TrimSkipsLeadingSpace(tag);
    }
  }

  /** Pieces separated by a comma are parsed independently and kept in input order. */
  lemma ParseConcat(a: string, b: string)
    requires a != "" && b != ""
    ensures ParseEditTags(a + "," + b) == Some(ParseEditTags(a).value + ParseEditTags(b).value)
  {
    SplitConcat(a, ',', b);
    assert a + "," + b == a + [','] + b;
    var pa := Split(a, ',');
    var pb := Split(b, ',');
    assert MapSeq(pa + pb, Trim) == MapSeq(pa, Trim) + MapSeq(pb, Trim);
    FilterConcat(MapSeq(pa, Trim), MapSeq(pb, Trim), NonEmpty);
  }

  /** A field that is not empty but holds only commas and whitespace saves `[]`. */
  lemma SeparatorsOnlySaveEmptyList(text: string)
    requires text != ""
    requires forall k :: 0 <= k < |text| ==> text[k] == ',' || IsSpace(text[k])
    ensures ParseEditTags(text) == Some([])
  {
    var pieces := Split(text, ',');
    SplitPiecesBlank(text);
    var trimmed := MapSeq(pieces, Trim);
    forall k | 0 <= k < |trimmed| ensures !NonEmpty(trimmed[k]) {
      TrimBlank(pieces[k]);
    }
    FilterNone(trimmed, NonEmpty);
  }

  lemma {:induction false} SplitPiecesBlank(text: string)
    requires forall k :: 0 <= k < |text| ==> text[k] == ',' || IsSpace(text[k])
    ensures forall i :: 0 <= i < |Split(text, ',')| ==> Blank(Split(text, ',')[i])
    decreases |text|
  {
    if |text| > 0 {
      SplitPiecesBlank(text[1..]);
    }
  }

  /** How the card is drawn. */
  datatype CardView = CardView(hasAudio: bool, isLongContent: bool, editContent: string, editTags: string)

  /** A card's initial state for a note. */
  function OpenCard(n: Note): (v: CardView)
    ensures v.hasAudio <==> Present(n.audioUrl)
    ensures v.isLongContent <==> |n.content| > 300
    ensures v.editContent == n.content
    ensures v.editTags == InitEditTags(n.tags)
  {
    CardView(Present(n.audioUrl), |n.content| > 300, n.content, InitEditTags(n.tags))
  }

  /** What the edit dialog passes to `onEdit`. */
  datatype Edit = Edit(id: string, content: string, tags: Option<seq<string>>)

  function SaveEdit(n: Note, v: CardView): (e: Edit)
    ensures e.id == n.id && e.content == v.editContent
    ensures e.tags.None? <==> v.editTags == ""
  {
    Edit(n.id, v.editContent, ParseEditTags(v.editTags))
  }

  /** Opening a card and saving at once leaves a clean tag list as it was. */
  lemma SaveUneditedCard(n: Note)
    requires n.tags.Some? && n.tags.value != []
    requires forall k :: 0 <= k < |n.tags.value| ==> Clean(n.tags.value[k])
    ensures SaveEdit(n, OpenCard(n)) == Edit(n.id, n.content, n.tags)
  {
    JoinThenParse(n.tags.value);
  }
}

=== FILE: noteeditor.dfy ===
/** The note editor's form logic: validation, the `#tag` / `@mention` scanner, the
    normalisation applied on submit, and the people offered for the chosen
    organization. */
module NoteEditor {
  import opened Basics
  import opened Text
  import opened Db

  // ---------------------------------------------------------------------------
  // Tag scanning: `content.match(/#\w+/g)` and `content.match(/@\w+/g)`
  // ---------------------------------------------------------------------------

  /** The length of the run of word characters starting at `i`. */
  function WordRun(s: string, i: nat): (n: nat)
    requires i <= |s|
    ensures i + n <= |s|
    ensures forall k :: i <= k < i + n ==> IsWordChar(s[k])
    ensures i + n == |s| || !IsWordChar(s[i + n])
    decreases |s| - i
  {
    if i < |s| && IsWordChar(s[i]) then 1 + WordRun(s, i + 1) else 0
  }

  /** Where a match can begin: the sigil followed by at least one word character. */
  predicate TagStart(s: string, sigil: char, j: int) {
    0 <= j && j + 1 < |s| && s[j] == sigil && IsWordChar(s[j + 1])
  }

  /** The match beginning at `p`: the sigil and the whole word-character run after it. */
  function TagAt(s: string, p: nat): (tag: string)
    requires p < |s|
  {
    s[p..p + 1 + WordRun(s, p + 1)]
  }

  /** A global regular-expression scan from position `i`: try a match at each
      position; after a match, continue at its end. The sigil is not a word
      character, so no match can begin inside another, and the scan finds
      exactly the positions where a match can begin. */
  function Scan(s: string, sigil: char, i: nat): (starts: seq<nat>)
    requires !IsWordChar(sigil)
    requires i <= |s|
    ensures forall k :: 0 <= k < |starts| ==> i <= starts[k] && TagStart(s, sigil, starts[k])
    ensures forall k, l :: 0 <= k < l < |starts| ==> starts[k] < starts[l]
    ensures forall j :: i <= j < |s| && TagStart(s, sigil, j) ==> j in starts
    decreases |s| - i
  {
    if i == |s| then []
    else if TagStart(s, sigil, i) then
      var n := WordRun(s, i + 1);
      var rest := Scan(s, sigil, i + 1 + n);
      assert forall j :: i < j < i + 1 + n ==> !TagStart(s, sigil, j) by {
        forall j | i < j < i + 1 + n ensures !TagStart(s, sigil, j) {
          assert IsWordChar(s[j]);
        }
      }
      [i] + rest
    else
      Scan(s, sigil, i + 1)
  }

  /** The match at a position where one can begin: the sigil, then a maximal
      non-empty run of word characters, found in the text at that position. */
  lemma TagAtShape(s: string, sigil: char, p: nat)
    requires TagStart(s, sigil, p)
    ensures var t := TagAt(s, p);
      && |t| >= 2 && t[0] == sigil
      && (forall m :: 1 <= m < |t| ==> IsWordChar(t[m]))
      && Includes(s, t)
      && t == s[p..p + |t|]
      && (p + |t| == |s| || !IsWordChar(s[p + |t|]))
  {
    var n := WordRun(s, p + 1);
    var t := TagAt(s, p);
    assert t == s[p..p + 1 + n];
    assert forall m :: 1 <= m < |t| ==> t[m] == s[p + m];
    IncludesAt(s, t, p);
  }

  /** The matches of one pattern, in order of position: one per position the scan
      finds, each the match at that position. */
  function Matches(s: string, sigil: char): (tags: seq<string>)
    requires !IsWordChar(sigil)
    ensures |tags| == |Scan(s, sigil, 0)|
    ensures forall k :: 0 <= k < |tags| ==> tags[k] == TagAt(s, Scan(s, sigil, 0)[k])
    ensures forall k :: 0 <= k < |tags| ==> |tags[k]| >= 2 && tags[k][0] == sigil
    ensures forall k :: 0 <= k < |tags| ==> forall m :: 1 <= m < |tags[k]| ==> IsWordChar(tags[k][m])
    ensures forall k :: 0 <= k < |tags| ==> Includes(s, tags[k])
  {
    var starts := Scan(s, sigil, 0);
    var tags := seq(|starts|, k requires 0 <= k < |starts| => TagAt(s, starts[k]));
    forall k | 0 <= k < |tags|
      ensures |tags[k]| >= 2 && tags[k][0] == sigil
      ensures forall m :: 1 <= m < |tags[k]| ==> IsWordChar(tags[k][m])
      ensures Includes(s, tags[k])
    {
      TagAtShape(s, sigil, starts[k]);
    }
    tags
  }

  /** The scan from the start finds a position exactly when a match can begin there. */
  lemma ScanFindsExactlyTheTagStarts(s: string, sigil: char)
    requires !IsWordChar(sigil)
    ensures forall j :: j in Scan(s, sigil, 0) <==> TagStart(s, sigil, j)
  {
    var starts := Scan(s, sigil, 0);
    forall j | j in starts ensures TagStart(s, sigil, j) {
      var k :| 0 <= k < |starts| && starts[k] == j;
    }
  }

  /** The tags scanned from `s`, paired with the positions they were found at:
      exactly the positions where a tag can begin, each tag the maximal run there. */
  lemma MatchesAreExactlyTheTagStarts(s: string, sigil: char)
    requires !IsWordChar(sigil)
    ensures var starts := Scan(s, sigil, 0);
      && |Matches(s, sigil)| == |starts|
      && (forall j :: j in starts <==> TagStart(s, sigil, j))
      && (forall k :: 0 <= k < |starts| ==>
            var p := starts[k]; var t := Matches(s, sigil)[k];
            && t == s[p..p + |t|]
            && (p + |t| == |s| || !IsWordChar(s[p + |t|])))
  {
    ScanFindsExactlyTheTagStarts(s, sigil);
    forall k | 0 <= k < |Scan(s, sigil, 0)|
      ensures var p := Scan(s, sigil, 0)[k]; var t := Matches(s, sigil)[k];
        && t == s[p..p + |t|]
        && (p + |t| == |s| || !IsWordChar(s[p + |t|]))
    {
      MatchAt(s, sigil, k);
    }
  }

  /** The `k`-th match is the maximal run at the `k`-th position the scan found. */
  lemma MatchAt(s: string, sigil: char, k: nat)
    requires !IsWordChar(sigil)
    requires k < |Scan(s, sigil, 0)|
    ensures var p := Scan(s, sigil, 0)[k]; var t := Matches(s, sigil)[k];
      && t == s[p..p + |t|]
      && (p + |t| == |s| || !IsWordChar(s[p + |t|]))
  {
    var p := Scan(s, sigil, 0)[k];
    assert Matches(s, sigil)[k] == TagAt(s, p);
    TagAtShape(s, sigil, p);
  }

  /** `extractTags(content)`: every `#` match in scan order, then every `@` match in
      scan order; each entry is its sigil and a maximal run of word characters
      found in the content. */
  function ExtractTags(content: string): (tags: seq<string>)
    ensures |tags| == |Matches(content, '#')| + |Matches(content, '@')|
    ensures tags[..|Matches(content, '#')|] == Matches(content, '#')
    ensures tags[|Matches(content, '#')|..] == Matches(content, '@')
    ensures forall k :: 0 <= k < |tags| ==> |tags[k]| >= 2 && (tags[k][0] == '#' || tags[k][0] == '@')
    ensures forall k :: 0 <= k < |tags| ==> forall m :: 1 <= m < |tags[k]| ==> IsWordChar(tags[k][m])
    ensures forall k :: 0 <= k < |tags| ==> Includes(content, tags[k])
    ensures forall k, l :: 0 <= k < l < |tags| && tags[k][0] == '@' ==> tags[l][0] == '@'
  {
    Matches(content, '#') + Matches(content, '@')
  }

  // ---------------------------------------------------------------------------
  // The form
  // ---------------------------------------------------------------------------

  /** The form's fields; the selects hold `''` when nothing is chosen. */
  datatype NoteForm = NoteForm(content: string, personId: string, organizationId: string)

  /** What `onSave` receives. */
  datatype SavedNote = SavedNote(
    content: string,
    clusterId: string,
    personId: Option<string>,
    organizationId: Option<string>,
    tags: Option<seq<string>>,
    audioUrl: Option<string>)

  const ContentRequired: string := "Note content is required"

  /** `noteSchema`: the content must have at least one character. */
  function Validate(form: NoteForm): (r: Result<NoteForm>)
    ensures r.Ok? <==> |form.content| >= 1
    ensures r.Ok? ==> r.value == form
    ensures r.Err? ==> r.error == ContentRequired
  {
    if |form.content| < 1 then Err(ContentRequired) else Ok(form)
  }

  /** `handleSubmit(onSubmit)`: validation, then the record passed to `onSave`. */
  function SubmitNote(form: NoteForm, clusterId: string, audioUrl: Option<string>): (r: Result<SavedNote>)
    ensures form.content == "" <==> r.Err?
    ensures r.Err? ==> r.error == ContentRequired
    ensures r.Ok? ==> && r.value.content == form.content && r.value.clusterId == clusterId
                      && r.value.audioUrl == audioUrl
    ensures r.Ok? ==> (r.value.personId.None? <==> form.personId == "")
    ensures r.Ok? && form.personId != "" ==> r.value.personId == Some(form.personId)
    ensures r.Ok? ==> (r.value.organizationId.None? <==> form.organizationId == "")
    ensures r.Ok? && form.organizationId != "" ==> r.value.organizationId == Some(form.organizationId)
    ensures r.Ok? ==> (r.value.tags.None? <==> ExtractTags(form.content) == [])
    ensures r.Ok? && r.value.tags.Some? ==> r.value.tags.value == ExtractTags(form.content)
  {
    match Validate(form)
    case Err(e) => Err(e)
    case Ok(f) =>
      var tags := ExtractTags(f.content);
      Ok(SavedNote(f.content, clusterId, OrNull(Some(f.personId)), OrNull(Some(f.organizationId)),
                   if |tags| > 0 then Some(tags) else None, audioUrl))
  }

  /** `filteredPeople`: none until an organization is chosen, then exactly its people. */
  function FilteredPeople(people: seq<Person>, selectedOrganization: string): (r: seq<Person>)
    ensures selectedOrganization == "" ==> r == []
    ensures selectedOrganization != "" ==>
      forall p :: p in r <==> p in people && p.organizationId == selectedOrganization
  {
    if selectedOrganization == "" then []
    else Filter(people, (p: Person) => p.organizationId == selectedOrganization)
  }
}

=== FILE: ordering.dfy ===
/** Key order as IndexedDB applies it: strings compare character by character and a
    proper prefix sorts first. Characters here are Unicode code points; IndexedDB
    compares UTF-16 code units, and the two orders agree on text without characters
    outside the Basic Multilingual Plane. A table is enumerated in primary-key
    order, and an index query returns rows ordered by (index value, primary key). */
module Ordering {
  import opened Basics

  /** Strict lexicographic order on strings. */
  predicate Below(a: string, b: string)
    decreases |a|
  {
    if |a| == 0 then |b| > 0
    else if |b| == 0 then false
    else if a[0] == b[0] then Below(a[1..], b[1..])
    else a[0] < b[0]
  }

  lemma {:induction false} BelowIrreflexive(a: string)
    ensures !Below(a, a)
  {
    if |a| > 0 {
      BelowIrreflexive(a[1..]);
    }
  }

  lemma {:induction false} BelowTransitive(a: string, b: string, c: string)
    requires Below(a, b) && Below(b, c)
    ensures Below(a, c)
  {
    if |a| > 0 && |b| > 0 && |c| > 0 && a[0] == b[0] && b[0] == c[0] {
      BelowTransitive(a[1..], b[1..], c[1..]);
    }
  }

  lemma {:induction false} BelowTotal(a: string, b: string)
    ensures Below(a, b) || a == b || Below(b, a)
  {
    if |a| > 0 && |b| > 0 && a[0] == b[0] {
      BelowTotal(a[1..], b[1..]);
      assert a == [a[0]] + a[1..] && b == [b[0]] + b[1..];
    }
  }

  /** Every non-empty finite set of strings has a least element. */
  lemma {:induction false} LeastExists(s: set<string>)
    requires s != {}
    ensures exists m :: m in s && forall k :: k in s ==> !Below(k, m)
    decreases |s|
  {
    var x :| x in s;
    var rest := s - {x};
    if rest == {} {
      BelowIrreflexive(x);
      assert s == {x};
    } else {
      LeastExists(rest);
      var m :| m in rest && forall k :: k in rest ==> !Below(k, m);
      if Below(x, m) {
        LeastBelowOthers(s, x, m);
      } else {
        assert forall k :: k in s ==> k == x || k in rest;
        assert m in s;
      }
    }
  }

  /** A key below the least of the others is the least of all. */
  lemma LeastBelowOthers(s: set<string>, x: string, m: string)
    requires x in s && m in s - {x}
    requires forall k :: k in s - {x} ==> !Below(k, m)
    requires Below(x, m)
    ensures forall k :: k in s ==> !Below(k, x)
  {
    BelowIrreflexive(x);
    forall k | k in s ensures !Below(k, x) {
      if k != x && Below(k, x) {
        BelowTransitive(k, x, m);
      }
    }
  }

  predicate StrictlyAscending(ks: seq<string>) {
    forall i, j :: 0 <= i < j < |ks| ==> Below(ks[i], ks[j])
  }

  lemma ConsStrictlyAscending(m: string, rest: seq<string>)
    requires StrictlyAscending(rest)
    requires forall k :: k in rest ==> Below(m, k)
    ensures StrictlyAscending([m] + rest)
  {
    var r := [m] + rest;
    forall i, j | 0 <= i < j < |r| ensures Below(r[i], r[j]) {
      assert r[j] == rest[j - 1];
      if i > 0 {
        assert r[i] == rest[i - 1];
      }
    }
  }

  /** The keys of a set in ascending order, each exactly once. */
  function SortedKeys(s: set<string>): (ks: seq<string>)
    ensures forall k :: k in ks <==> k in s
    ensures |ks| == |s|
    ensures StrictlyAscending(ks)
    decreases |s|
  {
    if s == {} then []
    else
      LeastExists(s);
      var m :| m in s && forall k :: k in s ==> !Below(k, m);
      var rest := SortedKeys(s - {m});
      assert forall k :: k in rest ==> Below(m, k) by {
        forall k | k in rest ensures Below(m, k) {
          BelowTotal(m, k);
        }
      }
      ConsStrictlyAscending(m, rest);
      [m] + rest
  }

  /** The values stored under the given keys, in the keys' order. */
  function ValuesAt<R>(m: map<string, R>, ks: seq<string>): (r: seq<R>)
    requires forall k :: k in ks ==> k in m
    ensures |r| == |ks| && forall i :: 0 <= i < |ks| ==> r[i] == m[ks[i]]
  {
    seq(|ks|, i requires 0 <= i < |ks| => m[ks[i]])
  }

  /** Listing every key of a map lists every value, and nothing else. */
  lemma ValuesAtCover<R>(m: map<string, R>, ks: seq<string>)
    requires forall k :: k in ks <==> k in m
    ensures forall x :: x in ValuesAt(m, ks) <==> x in m.Values
  {
    var r := ValuesAt(m, ks);
    forall x | x in m.Values ensures x in r {
      var k :| k in m && m[k] == x;
      var i :| 0 <= i < |ks| && ks[i] == k;
      assert r[i] == x;
    }
    forall x | x in r ensures x in m.Values {
      var i :| 0 <= i < |r| && r[i] == x;
      assert ks[i] in m;
    }
  }

  /** The values of a map, in ascending key order: a Dexie table's `toArray()`. */
  function Rows<R(==,!new)>(m: map<string, R>): (r: seq<R>)
    ensures |r| == |m|
    ensures forall x :: x in r <==> x in m.Values
    ensures |r| == |SortedKeys(m.Keys)| && forall i :: 0 <= i < |r| ==> r[i] == m[SortedKeys(m.Keys)[i]]
  {
    var ks := SortedKeys(m.Keys);
    ValuesAtCover(m, ks);
    assert |m.Keys| == |m|;
    ValuesAt(m, ks)
  }

  /** When every row is stored under a key it carries, the rows come in strictly
      ascending order of that key. */
  lemma RowsInKeyOrder<R(!new)>(m: map<string, R>, keyOf: R -> string)
    requires forall k :: k in m ==> keyOf(m[k]) == k
    ensures var r := Rows(m); forall i, j :: 0 <= i < j < |r| ==> Below(keyOf(r[i]), keyOf(r[j]))
  {
  }

  /** The elements come in strictly ascending order of `keyOf`. */
  predicate InKeyOrder<R>(s: seq<R>, keyOf: R -> string) {
    forall i, j :: 0 <= i < j < |s| ==> Below(keyOf(s[i]), keyOf(s[j]))
  }

  /** Filtering keeps strictly ascending order. */
  lemma FilterKeepsKeyOrder<R(!new)>(s: seq<R>, p: R -> bool, keyOf: R -> string)
    requires InKeyOrder(s, keyOf)
    ensures InKeyOrder(Filter(s, p), keyOf)
  {
    FilterKeepsOrder(s, p, (a: R, b: R) => Below(keyOf(a), keyOf(b)));
  }

  /** The rows of a map that pass a filter, when every row is stored under a key it
      carries, still come in strictly ascending order of that key. */
  lemma FilteredRowsInKeyOrder<R(!new)>(m: map<string, R>, p: R -> bool, keyOf: R -> string)
    requires forall k :: k in m ==> keyOf(m[k]) == k
    ensures forall i, j :: 0 <= i < j < |Filter(Rows(m), p)| ==>
      Below(keyOf(Filter(Rows(m), p)[i]), keyOf(Filter(Rows(m), p)[j]))
  {
    RowsInKeyOrder(m, keyOf);
    FilterKeepsOrder(Rows(m), p, (a: R, b: R) => Below(keyOf(a), keyOf(b)));
  }

  /** A sort key of an index query: (index value, primary key). */
  type Key = (string, string)

  predicate KeyBelow(x: Key, y: Key) {
    Below(x.0, y.0) || (x.0 == y.0 && Below(x.1, y.1))
  }

  predicate KeyAtMost(x: Key, y: Key) {
    KeyBelow(x, y) || x == y
  }

  lemma KeyAtMostTransitive(x: Key, y: Key, z: Key)
    requires KeyAtMost(x, y) && KeyAtMost(y, z)
    ensures KeyAtMost(x, z)
  {
    if x != y && y != z {
      if Below(x.0, y.0) && Below(y.0, z.0) {
        BelowTransitive(x.0, y.0, z.0);
      } else if x.0 == y.0 && y.0 == z.0 {
        BelowTransitive(x.1, y.1, z.1);
      }
    }
  }

  lemma KeyTotal(x: Key, y: Key)
    ensures KeyAtMost(x, y) || KeyAtMost(y, x)
  {
    BelowTotal(x.0, y.0);
    BelowTotal(x.1, y.1);
  }

  predicate Ascending<R>(s: seq<R>, key: R -> Key) {
    forall i, j :: 0 <= i < j < |s| ==> KeyAtMost(key(s[i]), key(s[j]))
  }

  /** In an ascending sequence the first key is the least. */
  lemma AscendingHeadLeast<R>(s: seq<R>, key: R -> Key)
    requires |s| > 0 && Ascending(s, key)
    ensures forall y :: y in s ==> KeyAtMost(key(s[0]), key(y))
  {
    forall y | y in s ensures KeyAtMost(key(s[0]), key(y)) {
      var j :| 0 <= j < |s| && s[j] == y;
    }
  }

  lemma ConsAscending<R>(x: R, s: seq<R>, key: R -> Key)
    requires Ascending(s, key)
    requires forall y :: y in s ==> KeyAtMost(key(x), key(y))
    ensures Ascending([x] + s, key)
  {
    var r := [x] + s;
    forall i, j | 0 <= i < j < |r| ensures KeyAtMost(key(r[i]), key(r[j])) {
      assert r[j] == s[j - 1];
      if i > 0 {
        assert r[i] == s[i - 1];
      }
    }
  }

  /** An element no greater than the first of an ascending sequence goes in front. */
  lemma InsertFront<R>(x: R, s: seq<R>, key: R -> Key)
    requires |s| > 0 && Ascending(s, key)
    requires KeyAtMost(key(x), key(s[0]))
    ensures Ascending([x] + s, key)
  {
    AscendingHeadLeast(s, key);
    forall y | y in s ensures KeyAtMost(key(x), key(y)) {
      KeyAtMostTransitive(key(x), key(s[0]), key(y));
    }
    ConsAscending(x, s, key);
  }

  /** An element greater than the first goes into the rest. */
  lemma InsertBehind<R>(x: R, s: seq<R>, tail: seq<R>, key: R -> Key)
    requires |s| > 0 && Ascending(s, key)
    requires !KeyAtMost(key(x), key(s[0]))
    requires multiset(tail) == multiset(s[1..]) + multiset{x}
    requires Ascending(tail, key)
    ensures Ascending([s[0]] + tail, key)
    ensures multiset([s[0]] + tail) == multiset(s) + multiset{x}
  {
    KeyTotal(key(x), key(s[0]));
    AscendingHeadLeast(s, key);
    forall y | y in tail ensures KeyAtMost(key(s[0]), key(y)) {
      assert y in multiset(tail);
      if y != x {
        assert y in multiset(s[1..]);
        assert y in s;
      }
    }
    ConsAscending(s[0], tail, key);
    assert s == [s[0]] + s[1..];
  }

  function Insert<R>(x: R, s: seq<R>, key: R -> Key): (r: seq<R>)
    requires Ascending(s, key)
    ensures multiset(r) == multiset(s) + multiset{x}
    ensures Ascending(r, key)
  {
    if |s| == 0 then [x]
    else if KeyAtMost(key(x), key(s[0])) then
      InsertFront(x, s, key);
      [x] + s
    else
      var tail := Insert(x, s[1..], key);
      InsertBehind(x, s, tail, key);
      [s[0]] + tail
  }

  /** Insertion sort by key; distinct keys determine the result. */
  function SortBy<R>(s: seq<R>, key: R -> Key): (r: seq<R>)
    ensures multiset(r) == multiset(s)
    ensures Ascending(r, key)
  {
    if |s| == 0 then []
    else
      assert s == [s[0]] + s[1..];
      Insert(s[0], SortBy(s[1..], key), key)
  }

  /** No two elements share a key. */
  predicate DistinctKeys<R>(s: seq<R>, key: R -> Key) {
    forall i, j :: 0 <= i < j < |s| ==> key(s[i]) != key(s[j])
  }

  predicate StrictlyAscendingBy<R>(s: seq<R>, key: R -> Key) {
    forall i, j :: 0 <= i < j < |s| ==> KeyBelow(key(s[i]), key(s[j]))
  }

  predicate StrictlyDescendingBy<R>(s: seq<R>, key: R -> Key) {
    forall i, j :: 0 <= i < j < |s| ==> KeyBelow(key(s[j]), key(s[i]))
  }

  /** A sequence without repeated elements holds each value at most once. */
  lemma {:induction false} CountAtMostOnce<R>(s: seq<R>)
    requires forall i, j :: 0 <= i < j < |s| ==> s[i] != s[j]
    ensures forall x :: multiset(s)[x] <= 1
  {
    if |s| > 0 {
      CountAtMostOnce(s[1..]);
      assert s == [s[0]] + s[1..];
      forall m | 0 <= m < |s[1..]| ensures s[1..][m] != s[0] {
        assert s[1..][m] == s[m + 1];
      }
      assert multiset(s[1..])[s[0]] == 0;
    }
  }

  /** A value at two positions is counted at least twice. */
  lemma RepeatCountsTwice<R>(t: seq<R>, i: int, j: int)
    requires 0 <= i < j < |t|
    ensures t[i] == t[j] ==> multiset(t)[t[i]] >= 2
  {
    if t[i] == t[j] {
      assert t == t[..j] + [t[j]] + t[j + 1..];
      assert t[..j][i] == t[i];
      assert multiset(t[..j])[t[i]] >= 1;
    }
  }

  /** Reordering keeps keys distinct. */
  lemma PermutationKeepsDistinctKeys<R>(s: seq<R>, t: seq<R>, key: R -> Key)
    requires multiset(t) == multiset(s) && DistinctKeys(s, key)
    ensures DistinctKeys(t, key)
  {
    CountAtMostOnce(s);
    forall i, j | 0 <= i < j < |t| ensures key(t[i]) != key(t[j]) {
      RepeatCountsTwice(t, i, j);
      assert t[i] in multiset(s) && t[j] in multiset(s);
      var a :| 0 <= a < |s| && s[a] == t[i];
      var b :| 0 <= b < |s| && s[b] == t[j];
      assert a != b;
    }
  }

  /** Filtering keeps keys distinct. */
  lemma FilterKeepsDistinctKeys<R(!new)>(s: seq<R>, p: R -> bool, key: R -> Key)
    requires DistinctKeys(s, key)
    ensures DistinctKeys(Filter(s, p), key)
  {
    FilterKeepsOrder(s, p, (a: R, b: R) => key(a) != key(b));
  }

  /** The rows of a map stored under the primary key their sort key ends in have
      distinct sort keys. */
  lemma RowsDistinctKeys<R(!new)>(m: map<string, R>, key: R -> Key)
    requires forall k :: k in m ==> key(m[k]).1 == k
    ensures DistinctKeys(Rows(m), key)
  {
    var r := Rows(m);
    RowsInKeyOrder(m, (x: R) => key(x).1);
    forall i, j | 0 <= i < j < |r| ensures key(r[i]) != key(r[j]) {
      BelowIrreflexive(key(r[i]).1);
    }
  }

  /** Sorting rows whose keys are distinct orders them strictly. */
  lemma SortByStrictly<R>(s: seq<R>, key: R -> Key)
    requires DistinctKeys(s, key)
    ensures StrictlyAscendingBy(SortBy(s, key), key)
  {
    PermutationKeepsDistinctKeys(s, SortBy(s, key), key);
  }

  function Reverse<R>(s: seq<R>): (r: seq<R>)
    ensures |r| == |s|
    ensures forall i :: 0 <= i < |s| ==> r[i] == s[|s| - 1 - i]
  {
    seq(|s|, i requires 0 <= i < |s| => s[|s| - 1 - i])
  }

  predicate Descending<R>(s: seq<R>, key: R -> Key) {
    forall i, j :: 0 <= i < j < |s| ==> KeyAtMost(key(s[j]), key(s[i]))
  }

  /** `orderBy(index).reverse()`: the rows, greatest (index value, primary key) first. */
  function NewestFirst<R>(rows: seq<R>, key: R -> Key): (r: seq<R>)
    ensures multiset(r) == multiset(rows)
    ensures Descending(r, key)
  {
    var sorted := SortBy(rows, key);
    var r := Reverse(sorted);
    assert multiset(r) == multiset(sorted) by {
      ReverseSameElements(sorted);
    }
    r
  }

  /** Newest first, rows whose keys are distinct come strictly descending. */
  lemma NewestFirstStrictly<R>(s: seq<R>, key: R -> Key)
    requires DistinctKeys(s, key)
    ensures StrictlyDescendingBy(NewestFirst(s, key), key)
  {
    PermutationKeepsDistinctKeys(s, NewestFirst(s, key), key);
  }

  lemma {:induction false} ReverseSameElements<R>(s: seq<R>)
    ensures multiset(Reverse(s)) == multiset(s)
    decreases |s|
  {
    if |s| > 0 {
      var t := s[..|s| - 1];
      ReverseSameElements(t);
      assert Reverse(s) == [s[|s| - 1]] + Reverse(t);
      assert s == t + [s[|s| - 1]];
    }
  }
}

=== FILE: search.dfy ===
/** The search screen: a case-insensitive substring search over the signed-in
    user's clusters, the organizations in them, the people of those organizations
    and the notes filed under those clusters, read from the on-device database. */
module Search {
  import opened Basics
  import opened Text
  import opened Ordering
  import opened Db

  datatype Kind = ClusterHit | OrganizationHit | PersonHit | NoteHit

  /** Where a kind's results stand in the list: clusters, organizations, people, notes. */
  function Rank(k: Kind): nat {
    match k
    case ClusterHit => 0
    case OrganizationHit => 1
    case PersonHit => 2
    case NoteHit => 3
  }

  datatype SearchResult = SearchResult(id: string, kind: Kind, title: string, subtitle: Option<string>, link: string)

  // ---------------------------------------------------------------------------
  // What is searched
  // ---------------------------------------------------------------------------

  predicate OwnedCluster(db: LocalDb, userId: string, c: Cluster) {
    c in db.clusters.Values && c.userId == userId
  }

  ghost predicate ScopedOrganization(db: LocalDb, userId: string, o: Organization) {
    o in db.organizations.Values && exists c :: OwnedCluster(db, userId, c) && c.id == o.clusterId
  }

  ghost predicate ScopedPerson(db: LocalDb, userId: string, p: Person) {
    p in db.people.Values && exists o :: ScopedOrganization(db, userId, o) && o.id == p.organizationId
  }

  ghost predicate ScopedNote(db: LocalDb, userId: string, n: Note) {
    n in db.notes.Values && exists c :: OwnedCluster(db, userId, c) && n.clusterId == Some(c.id)
  }

  // ---------------------------------------------------------------------------
  // Matching
  // ---------------------------------------------------------------------------

  /** Whether the lower-cased text contains the term. */
  predicate Hits(s: string, term: string) {
    Includes(ToLower(s), term)
  }

  predicate ClusterMatches(c: Cluster, term: string) {
    Hits(c.name, term) || (c.description.Some? && Hits(c.description.value, term))
  }

  predicate OrganizationMatches(o: Organization, term: string) {
    Hits(o.name, term)
  }

  predicate PersonMatches(p: Person, term: string) {
    Hits(p.name, term) || (p.role.Some? && Hits(p.role.value, term))
  }

  /** Content, or any tag (`tags?.some(...)`). */
  predicate NoteMatches(n: Note, term: string) {
    Hits(n.content, term) || (n.tags.Some? && exists i :: 0 <= i < |n.tags.value| && Hits(n.tags.value[i], term))
  }

  // ---------------------------------------------------------------------------
  // Result construction
  // ---------------------------------------------------------------------------

  function ClusterResult(c: Cluster): SearchResult {
    SearchResult(c.id, ClusterHit, c.name, OrNull(c.description), "/cluster/" + c.id)
  }

  function OrganizationResult(o: Organization): SearchResult {
    SearchResult(o.id, OrganizationHit, o.name, None, "/cluster/" + o.clusterId)
  }

  /** A person's subtitle: with a role, the role, " @ " and the organization's name
      (nothing after the " @ " when the organization is missing); without a role,
      the organization's name. */
  function PersonSubtitle(p: Person, org: Option<Organization>): (r: Option<string>)
    ensures Present(p.role) && org.Some? ==> r == Some(p.role.value + " @ " + org.value.name)
    ensures Present(p.role) && org.None? ==> r == Some(p.role.value + " @ ")
    ensures !Present(p.role) ==> r == (if org.Some? then Some(org.value.name) else None)
  {
    if Present(p.role) then
      var prefix := p.role.value + " @ ";
      if org.Some? then Some(prefix + org.value.name) else Some(prefix)
    else if org.Some? then Some(org.value.name)
    else None
  }

  /** A missing organization renders as the text `undefined` in the link. */
  function PersonResult(p: Person, org: Option<Organization>): SearchResult {
    SearchResult(p.id, PersonHit, p.name, PersonSubtitle(p, org),
                 "/cluster/" + (if org.Some? then org.value.clusterId else "undefined"))
  }

  /** The first 100 characters of the content, with an ellipsis when it was longer. */
  function NoteTitle(content: string): (t: string)
    ensures |content| <= 100 ==> t == content
    ensures |content| > 100 ==> |t| == 103 && t[..100] == content[..100] && t[100..] == "..."
  {
    if |content| > 100 then content[..100] + "..." else content
  }

  function NoteResult(n: Note): SearchResult {
    SearchResult(n.id, NoteHit, NoteTitle(n.content),
                 if n.tags.Some? then Some(Join(n.tags.value, ", ")) else None,
                 "/cluster/" + (if n.clusterId.Some? then n.clusterId.value else "null"))
  }

  /** `x` is the result of an in-scope cluster that matches. */
  ghost predicate ClusterFound(db: LocalDb, userId: string, term: string, x: SearchResult) {
    exists c :: OwnedCluster(db, userId, c) && ClusterMatches(c, term) && x == ClusterResult(c)
  }

  ghost predicate OrganizationFound(db: LocalDb, userId: string, term: string, x: SearchResult) {
    exists o :: ScopedOrganization(db, userId, o) && OrganizationMatches(o, term) && x == OrganizationResult(o)
  }

  /** `x` is the result of an in-scope person that matches, shown with its organization. */
  ghost predicate PersonFound(db: LocalDb, userId: string, term: string, x: SearchResult) {
    exists p, o :: && ScopedPerson(db, userId, p) && PersonMatches(p, term)
                   && ScopedOrganization(db, userId, o) && o.id == p.organizationId
                   && x == PersonResult(p, Some(o))
  }

  ghost predicate NoteFound(db: LocalDb, userId: string, term: string, x: SearchResult) {
    exists n :: ScopedNote(db, userId, n) && NoteMatches(n, term) && x == NoteResult(n)
  }

  // ---------------------------------------------------------------------------
  // The queries
  // ---------------------------------------------------------------------------

  /** A filtered, sorted index query holds exactly the rows that pass the filter. */
  lemma SortedRowsMembers<R(!new)>(rows: seq<R>, key: R -> Key, p: R -> bool)
    ensures forall x :: x in SortBy(Filter(rows, p), key) <==> x in rows && p(x)
  {
    var s := SortBy(Filter(rows, p), key);
    forall x ensures x in s <==> x in rows && p(x) {
      assert x in s <==> x in multiset(s);
      assert x in Filter(rows, p) <==> x in multiset(Filter(rows, p));
    }
  }

  /** The clusters found through the `user_id` index: all share the index value, so
      they come in primary-key order. */
  function UserClusters(db: LocalDb, userId: string): (r: seq<Cluster>)
    ensures forall c :: c in r <==> OwnedCluster(db, userId, c)
    ensures KeysMatch(db) ==> forall i, j :: 0 <= i < j < |r| ==> Below(r[i].id, r[j].id)
  {
    var owned := (c: Cluster) => c.userId == userId;
    assert KeysMatch(db) ==> forall i, j :: 0 <= i < j < |Filter(Rows(db.clusters), owned)| ==>
      Below(Filter(Rows(db.clusters), owned)[i].id, Filter(Rows(db.clusters), owned)[j].id)
    by {
      if KeysMatch(db) {
        FilteredRowsInKeyOrder(db.clusters, owned, (c: Cluster) => c.id);
      }
    }
    Filter(Rows(db.clusters), owned)
  }

  function IdsOfClusters(cs: seq<Cluster>): (ids: set<string>)
    ensures forall id :: id in ids <==> exists c :: c in cs && c.id == id
  {
    set c | c in cs :: c.id
  }

  function IdsOfOrganizations(os: seq<Organization>): (ids: set<string>)
    ensures forall id :: id in ids <==> exists o :: o in os && o.id == id
  {
    set o | o in os :: o.id
  }

  /** The sort keys of the `cluster_id` and `organization_id` index queries. */
  function OrganizationIndexKey(o: Organization): Key {
    (o.clusterId, o.id)
  }

  function PersonIndexKey(p: Person): Key {
    (p.organizationId, p.id)
  }

  function NoteIndexKey(n: Note): Key {
    (n.clusterId.GetOr(""), n.id)
  }

  /** The organizations found through the `cluster_id` index for any of the ids,
      ordered by (cluster id, id); rows stored under their ids come once each. */
  function ScopeOrganizations(db: LocalDb, clusterIds: set<string>): (r: seq<Organization>)
    ensures forall o :: o in r <==> o in db.organizations.Values && o.clusterId in clusterIds
    ensures Ascending(r, OrganizationIndexKey)
    ensures KeysMatch(db) ==> StrictlyAscendingBy(r, OrganizationIndexKey)
  {
    var p := (o: Organization) => o.clusterId in clusterIds;
    SortedRowsMembers(Rows(db.organizations), OrganizationIndexKey, p);
    assert KeysMatch(db) ==> StrictlyAscendingBy(SortBy(Filter(Rows(db.organizations), p), OrganizationIndexKey), OrganizationIndexKey) by {
      if KeysMatch(db) {
        RowsDistinctKeys(db.organizations, OrganizationIndexKey);
        FilterKeepsDistinctKeys(Rows(db.organizations), p, OrganizationIndexKey);
        SortByStrictly(Filter(Rows(db.organizations), p), OrganizationIndexKey);
      }
    }
    SortBy(Filter(Rows(db.organizations), p), OrganizationIndexKey)
  }

  /** The people found through the `organization_id` index for any of the ids,
      ordered by (organization id, id); rows stored under their ids come once each. */
  function ScopePeople(db: LocalDb, orgIds: set<string>): (r: seq<Person>)
    ensures forall p :: p in r <==> p in db.people.Values && p.organizationId in orgIds
    ensures Ascending(r, PersonIndexKey)
    ensures KeysMatch(db) ==> StrictlyAscendingBy(r, PersonIndexKey)
  {
    var f := (p: Person) => p.organizationId in orgIds;
    SortedRowsMembers(Rows(db.people), PersonIndexKey, f);
    assert KeysMatch(db) ==> StrictlyAscendingBy(SortBy(Filter(Rows(db.people), f), PersonIndexKey), PersonIndexKey) by {
      if KeysMatch(db) {
        RowsDistinctKeys(db.people, PersonIndexKey);
        FilterKeepsDistinctKeys(Rows(db.people), f, PersonIndexKey);
        SortByStrictly(Filter(Rows(db.people), f), PersonIndexKey);
      }
    }
    SortBy(Filter(Rows(db.people), f), PersonIndexKey)
  }

  /** The notes found through the `cluster_id` index for any of the ids, ordered by
      (cluster id, id), once each when rows are stored under their ids. A note
      without a cluster is not in the index and is never found. */
  function ScopeNotes(db: LocalDb, clusterIds: set<string>): (r: seq<Note>)
    ensures forall n :: n in r <==> n in db.notes.Values && n.clusterId.Some? && n.clusterId.value in clusterIds
    ensures Ascending(r, NoteIndexKey)
    ensures KeysMatch(db) ==> StrictlyAscendingBy(r, NoteIndexKey)
  {
    var f := (n: Note) => n.clusterId.Some? && n.clusterId.value in clusterIds;
    SortedRowsMembers(Rows(db.notes), NoteIndexKey, f);
    assert KeysMatch(db) ==> StrictlyAscendingBy(SortBy(Filter(Rows(db.notes), f), NoteIndexKey), NoteIndexKey) by {
      if KeysMatch(db) {
        RowsDistinctKeys(db.notes, NoteIndexKey);
        FilterKeepsDistinctKeys(Rows(db.notes), f, NoteIndexKey);
        SortByStrictly(Filter(Rows(db.notes), f), NoteIndexKey);
      }
    }
    SortBy(Filter(Rows(db.notes), f), NoteIndexKey)
  }

  /** The organization with this id, looked up in a map built from the list, so a
      later entry with the same id wins. */
  function Lookup(orgs: seq<Organization>, id: string): (r: Option<Organization>)
    ensures r.Some? ==> r.value in orgs && r.value.id == id
    ensures r.None? ==> forall o :: o in orgs ==> o.id != id
  {
    if |orgs| == 0 then None
    else
      var later := Lookup(orgs[1..], id);
      if later.Some? then later
      else if orgs[0].id == id then Some(orgs[0])
      else None
  }

  /** The organizations searched: those of the user's clusters. */
  function UserOrganizations(db: LocalDb, userId: string): (r: seq<Organization>)
    ensures forall o :: o in r <==> ScopedOrganization(db, userId, o)
  {
    ScopeOrganizations(db, IdsOfClusters(UserClusters(db, userId)))
  }

  /** Every entry of `r` is of kind `k`. */
  predicate OfKind(r: seq<SearchResult>, k: Kind) {
    forall i :: 0 <= i < |r| ==> r[i].kind == k
  }

  /** The results of the clusters of `cs` that match, in order. */
  function ClusterHitList(cs: seq<Cluster>, term: string): (r: seq<SearchResult>)
    ensures OfKind(r, ClusterHit)
    ensures forall x :: x in r <==> exists c :: c in cs && ClusterMatches(c, term) && x == ClusterResult(c)
    ensures r == MapSeq(Filter(cs, (c: Cluster) => ClusterMatches(c, term)), ClusterResult)
  {
    if |cs| == 0 then []
    else
      var rest := ClusterHitList(cs[1..], term);
      MapSeqCons(cs[0], Filter(cs[1..], (c: Cluster) => ClusterMatches(c, term)), ClusterResult);
      assert forall c :: c in cs <==> c == cs[0] || c in cs[1..];
      if ClusterMatches(cs[0], term) then [ClusterResult(cs[0])] + rest else rest
  }

  function ClusterHits(db: LocalDb, userId: string, term: string): (r: seq<SearchResult>)
    ensures OfKind(r, ClusterHit)
    ensures forall x :: x in r ==> ClusterFound(db, userId, term, x)
  {
    ClusterHitList(UserClusters(db, userId), term)
  }

  /** The cluster hits come in the order of the user's clusters. */
  lemma ClusterHitsInOrder(db: LocalDb, userId: string, term: string)
    ensures ClusterHits(db, userId, term) ==
      MapSeq(Filter(UserClusters(db, userId), (c: Cluster) => ClusterMatches(c, term)), ClusterResult)
  {
  }

  lemma ClusterHitsComplete(db: LocalDb, userId: string, term: string)
    ensures forall c :: OwnedCluster(db, userId, c) && ClusterMatches(c, term) ==> ClusterResult(c) in ClusterHits(db, userId, term)
  {
  }

  /** The results of the organizations of `os` that match, in order. */
  function OrganizationHitList(os: seq<Organization>, term: string): (r: seq<SearchResult>)
    ensures OfKind(r, OrganizationHit)
    ensures forall x :: x in r <==> exists o :: o in os && OrganizationMatches(o, term) && x == OrganizationResult(o)
    ensures r == MapSeq(Filter(os, (o: Organization) => OrganizationMatches(o, term)), OrganizationResult)
  {
    if |os| == 0 then []
    else
      var rest := OrganizationHitList(os[1..], term);
      MapSeqCons(os[0], Filter(os[1..], (o: Organization) => OrganizationMatches(o, term)), OrganizationResult);
      assert forall o :: o in os <==> o == os[0] || o in os[1..];
      if OrganizationMatches(os[0], term) then [OrganizationResult(os[0])] + rest else rest
  }

  function OrganizationHits(db: LocalDb, userId: string, term: string): (r: seq<SearchResult>)
    ensures OfKind(r, OrganizationHit)
    ensures forall x :: x in r ==> OrganizationFound(db, userId, term, x)
  {
    OrganizationHitList(UserOrganizations(db, userId), term)
  }

  /** The organization hits come in the order of the searched organizations. */
  lemma OrganizationHitsInOrder(db: LocalDb, userId: string, term: string)
    ensures OrganizationHits(db, userId, term) ==
      MapSeq(Filter(UserOrganizations(db, userId), (o: Organization) => OrganizationMatches(o, term)), OrganizationResult)
  {
  }

  lemma OrganizationHitsComplete(db: LocalDb, userId: string, term: string)
    ensures forall o :: ScopedOrganization(db, userId, o) && OrganizationMatches(o, term) ==>
      OrganizationResult(o) in OrganizationHits(db, userId, term)
  {
  }

  /** The people searched: those of the searched organizations. */
  lemma ScopedPeopleAreSearched(db: LocalDb, userId: string, p: Person)
    ensures ScopedPerson(db, userId, p) <==>
      p in ScopePeople(db, IdsOfOrganizations(UserOrganizations(db, userId)))
  {
    var orgs := UserOrganizations(db, userId);
    if ScopedPerson(db, userId, p) {
      var o :| ScopedOrganization(db, userId, o) && o.id == p.organizationId;
      assert o in orgs;
    }
  }

  /** A searched person's organization is always among the searched organizations. */
  lemma SearchedPersonHasOrganization(db: LocalDb, userId: string, p: Person)
    requires p in ScopePeople(db, IdsOfOrganizations(UserOrganizations(db, userId)))
    ensures var found := Lookup(UserOrganizations(db, userId), p.organizationId);
      && found.Some? && found.value.id == p.organizationId
      && ScopedOrganization(db, userId, found.value)
  {
    var orgs := UserOrganizations(db, userId);
    assert p.organizationId in IdsOfOrganizations(orgs);
  }

  /** The people of `people` that match, each shown with its organization as looked
      up in `orgs`. */
  function PersonHitList(orgs: seq<Organization>, people: seq<Person>, term: string): (r: seq<SearchResult>)
    ensures OfKind(r, PersonHit)
    ensures forall x :: x in r <==>
      exists p :: p in people && PersonMatches(p, term) && x == PersonResult(p, Lookup(orgs, p.organizationId))
    ensures r == MapSeq(Filter(people, (p: Person) => PersonMatches(p, term)),
                        (p: Person) => PersonResult(p, Lookup(orgs, p.organizationId)))
  {
    if |people| == 0 then []
    else
      var p := people[0];
      var rest := PersonHitList(orgs, people[1..], term);
      MapSeqCons(p, Filter(people[1..], (p: Person) => PersonMatches(p, term)),
                 (p: Person) => PersonResult(p, Lookup(orgs, p.organizationId)));
      assert forall q :: q in people <==> q == p || q in people[1..];
      if PersonMatches(p, term) then [PersonResult(p, Lookup(orgs, p.organizationId))] + rest else rest
  }

  /** Each person's organization is looked up among the searched organizations, and
      is always found there: the people were selected by those organizations' ids. */
  function PersonHits(db: LocalDb, userId: string, term: string): (r: seq<SearchResult>)
    ensures OfKind(r, PersonHit)
    ensures forall x :: x in r ==> PersonFound(db, userId, term, x)
  {
    PersonHitsSound(db, userId, term);
    PersonHitList(UserOrganizations(db, userId), ScopePeople(db, IdsOfOrganizations(UserOrganizations(db, userId))), term)
  }

  /** The person hits come in the order of the searched people. */
  lemma PersonHitsInOrder(db: LocalDb, userId: string, term: string)
    ensures var orgs := UserOrganizations(db, userId);
      PersonHits(db, userId, term) ==
        MapSeq(Filter(ScopePeople(db, IdsOfOrganizations(orgs)), (p: Person) => PersonMatches(p, term)),
               (p: Person) => PersonResult(p, Lookup(orgs, p.organizationId)))
  {
  }

  lemma PersonHitsComplete(db: LocalDb, userId: string, term: string)
    ensures var orgs := UserOrganizations(db, userId);
      var r := PersonHitList(orgs, ScopePeople(db, IdsOfOrganizations(orgs)), term);
      forall p :: ScopedPerson(db, userId, p) && PersonMatches(p, term) ==>
        exists o :: ScopedOrganization(db, userId, o) && o.id == p.organizationId && PersonResult(p, Some(o)) in r
  {
    var orgs := UserOrganizations(db, userId);
    var people := ScopePeople(db, IdsOfOrganizations(orgs));
    var r := PersonHitList(orgs, people, term);
    forall p | ScopedPerson(db, userId, p) && PersonMatches(p, term)
      ensures exists o :: ScopedOrganization(db, userId, o) && o.id == p.organizationId && PersonResult(p, Some(o)) in r
    {
      ScopedPeopleAreSearched(db, userId, p);
      SearchedPersonHasOrganization(db, userId, p);
      var o := Lookup(orgs, p.organizationId).value;
      assert PersonResult(p, Some(o)) in r;
    }
  }

  lemma PersonHitsSound(db: LocalDb, userId: string, term: string)
    ensures var orgs := UserOrganizations(db, userId);
      var r := PersonHitList(orgs, ScopePeople(db, IdsOfOrganizations(orgs)), term);
      forall x :: x in r ==> PersonFound(db, userId, term, x)
  {
    var orgs := UserOrganizations(db, userId);
    var people := ScopePeople(db, IdsOfOrganizations(orgs));
    var r := PersonHitList(orgs, people, term);
    forall x | x in r
      ensures PersonFound(db, userId, term, x)
    {
      var p :| p in people && PersonMatches(p, term) && x == PersonResult(p, Lookup(orgs, p.organizationId));
      ScopedPeopleAreSearched(db, userId, p);
      SearchedPersonHasOrganization(db, userId, p);
      var o := Lookup(orgs, p.organizationId).value;
      assert ScopedPerson(db, userId, p) && ScopedOrganization(db, userId, o) && x == PersonResult(p, Some(o));
    }
  }

  /** The results of the notes of `ns` that match, in order. */
  function NoteHitList(ns: seq<Note>, term: string): (r: seq<SearchResult>)
    ensures OfKind(r, NoteHit)
    ensures forall x :: x in r <==> exists n :: n in ns && NoteMatches(n, term) && x == NoteResult(n)
    ensures r == MapSeq(Filter(ns, (n: Note) => NoteMatches(n, term)), NoteResult)
  {
    if |ns| == 0 then []
    else
      var rest := NoteHitList(ns[1..], term);
      MapSeqCons(ns[0], Filter(ns[1..], (n: Note) => NoteMatches(n, term)), NoteResult);
      assert forall n :: n in ns <==> n == ns[0] || n in ns[1..];
      if NoteMatches(ns[0], term) then [NoteResult(ns[0])] + rest else rest
  }

  function NoteHits(db: LocalDb, userId: string, term: string): (r: seq<SearchResult>)
    ensures OfKind(r, NoteHit)
    ensures forall x :: x in r ==> NoteFound(db, userId, term, x)
  {
    NoteHitList(ScopeNotes(db, IdsOfClusters(UserClusters(db, userId))), term)
  }

  /** The note hits come in the order of the searched notes. */
  lemma NoteHitsInOrder(db: LocalDb, userId: string, term: string)
    ensures NoteHits(db, userId, term) ==
      MapSeq(Filter(ScopeNotes(db, IdsOfClusters(UserClusters(db, userId))), (n: Note) => NoteMatches(n, term)), NoteResult)
  {
  }

  lemma NoteHitsComplete(db: LocalDb, userId: string, term: string)
    ensures forall n :: ScopedNote(db, userId, n) && NoteMatches(n, term) ==> NoteResult(n) in NoteHits(db, userId, term)
  {
  }

  predicate KindsInOrder(rs: seq<SearchResult>) {
    forall i, j :: 0 <= i < j < |rs| ==> Rank(rs[i].kind) <= Rank(rs[j].kind)
  }

  /** The four parts concatenated in kind order: the list is ordered by kind, holds
      exactly the parts' members, and each member of a kind comes from that kind's part. */
  function Assemble(a: seq<SearchResult>, b: seq<SearchResult>, c: seq<SearchResult>, d: seq<SearchResult>)
    : (r: seq<SearchResult>)
    requires OfKind(a, ClusterHit)
    requires OfKind(b, OrganizationHit)
    requires OfKind(c, PersonHit)
    requires OfKind(d, NoteHit)
    ensures KindsInOrder(r)
    ensures forall x :: x in r <==> x in a || x in b || x in c || x in d
    ensures forall x :: x in r && x.kind == ClusterHit ==> x in a
    ensures forall x :: x in r && x.kind == OrganizationHit ==> x in b
    ensures forall x :: x in r && x.kind == PersonHit ==> x in c
    ensures forall x :: x in r && x.kind == NoteHit ==> x in d
  {
    PartsInKindOrder(a, b, c, d);
    forall x
      ensures x in a + b + c + d <==> x in a || x in b || x in c || x in d
      ensures x in a + b + c + d ==>
        && (x.kind == ClusterHit ==> x in a) && (x.kind == OrganizationHit ==> x in b)
        && (x.kind == PersonHit ==> x in c) && (x.kind == NoteHit ==> x in d)
    {
      InFourParts(a, b, c, d, x);
      if x in a + b + c + d {
        PartOfItsKind(a, b, c, d, x);
      }
    }
    a + b + c + d
  }

  /** The result list for a signed-in user and a lower-cased term: cluster hits, then
      organization hits, then people, then notes, each part in the order its query
      returned the rows. */
  function Results(db: LocalDb, userId: string, term: string): (r: seq<SearchResult>)
    ensures r == ClusterHits(db, userId, term) + OrganizationHits(db, userId, term)
                 + PersonHits(db, userId, term) + NoteHits(db, userId, term)
    ensures KindsInOrder(r)
    ensures forall x :: x in r <==>
      || x in ClusterHits(db, userId, term) || x in OrganizationHits(db, userId, term)
      || x in PersonHits(db, userId, term) || x in NoteHits(db, userId, term)
    ensures forall x :: x in r && x.kind == ClusterHit ==> x in ClusterHits(db, userId, term)
    ensures forall x :: x in r && x.kind == OrganizationHit ==> x in OrganizationHits(db, userId, term)
    ensures forall x :: x in r && x.kind == PersonHit ==> x in PersonHits(db, userId, term)
    ensures forall x :: x in r && x.kind == NoteHit ==> x in NoteHits(db, userId, term)
  {
    Assemble(ClusterHits(db, userId, term), OrganizationHits(db, userId, term),
             PersonHits(db, userId, term), NoteHits(db, userId, term))
  }

  lemma PartsInKindOrder(a: seq<SearchResult>, b: seq<SearchResult>, c: seq<SearchResult>, d: seq<SearchResult>)
    requires OfKind(a, ClusterHit)
    requires OfKind(b, OrganizationHit)
    requires OfKind(c, PersonHit)
    requires OfKind(d, NoteHit)
    ensures KindsInOrder(a + b + c + d)
  {
    var rs := a + b + c + d;
    forall i | 0 <= i < |rs|
      ensures Rank(rs[i].kind) == if i < |a| then 0 else if i < |a| + |b| then 1 else if i < |a| + |b| + |c| then 2 else 3
    {
    }
  }

  /** Every in-scope entity that matches is in the list. */
  lemma ResultsComplete(db: LocalDb, userId: string, term: string)
    ensures var r := Results(db, userId, term);
      && (forall c :: OwnedCluster(db, userId, c) && ClusterMatches(c, term) ==> ClusterResult(c) in r)
      && (forall o :: ScopedOrganization(db, userId, o) && OrganizationMatches(o, term) ==> OrganizationResult(o) in r)
      && (forall p :: ScopedPerson(db, userId, p) && PersonMatches(p, term) ==>
            exists o :: ScopedOrganization(db, userId, o) && o.id == p.organizationId && PersonResult(p, Some(o)) in r)
      && (forall n :: ScopedNote(db, userId, n) && NoteMatches(n, term) ==> NoteResult(n) in r)
  {
    ClusterHitsComplete(db, userId, term);
    OrganizationHitsComplete(db, userId, term);
    PersonHitsComplete(db, userId, term);
    NoteHitsComplete(db, userId, term);
  }

  /** Every hit of the list is an in-scope entity that matches. */
  lemma ResultsSound(db: LocalDb, userId: string, term: string, x: SearchResult)
    requires x in Results(db, userId, term)
    ensures x.kind == ClusterHit ==> ClusterFound(db, userId, term, x)
    ensures x.kind == OrganizationHit ==> OrganizationFound(db, userId, term, x)
    ensures x.kind == PersonHit ==> PersonFound(db, userId, term, x)
    ensures x.kind == NoteHit ==> NoteFound(db, userId, term, x)
  {
    var a, b, c, d := ClusterHits(db, userId, term), OrganizationHits(db, userId, term),
                      PersonHits(db, userId, term), NoteHits(db, userId, term);
    InFourParts(a, b, c, d, x);
    PartOfItsKind(a, b, c, d, x);
  }

  /** A member of four lists, each of one kind, is in the list of its kind. */
  lemma PartOfItsKind(a: seq<SearchResult>, b: seq<SearchResult>, c: seq<SearchResult>, d: seq<SearchResult>,
                      x: SearchResult)
    requires OfKind(a, ClusterHit)
    requires OfKind(b, OrganizationHit)
    requires OfKind(c, PersonHit)
    requires OfKind(d, NoteHit)
    requires x in a || x in b || x in c || x in d
    ensures x.kind == ClusterHit ==> x in a
    ensures x.kind == OrganizationHit ==> x in b
    ensures x.kind == PersonHit ==> x in c
    ensures x.kind == NoteHit ==> x in d
  {
    if x in a {
      HitKind(a, ClusterHit, x);
    } else if x in b {
      HitKind(b, OrganizationHit, x);
    } else if x in c {
      HitKind(c, PersonHit, x);
    } else {
      HitKind(d, NoteHit, x);
    }
  }

  /** A member of a list of one kind is of that kind. */
  lemma HitKind(r: seq<SearchResult>, k: Kind, x: SearchResult)
    requires OfKind(r, k)
    requires x in r
    ensures x.kind == k
  {
  }

  lemma InFourParts<T>(a: seq<T>, b: seq<T>, c: seq<T>, d: seq<T>, x: T)
    ensures x in a + b + c + d <==> x in a || x in b || x in c || x in d
  {
  }

  /** The search screen's state. */
  datatype SearchView = SearchView(results: seq<SearchResult>, isSearching: bool)

  /** One debounced run of `search`. `query` is the query when the run starts and
      `queryAtEnd` the query once the reads are done: the results are committed only
      if the two agree; otherwise the view is left searching. A blank query or no
      user clears the results at once. */
  function RunSearch(ui: SearchView, db: LocalDb, userId: Option<string>, query: string, queryAtEnd: string)
    : (r: SearchView)
    ensures Blank(query) || !Present(userId) ==> r == ui.(results := [])
    ensures !Blank(query) && Present(userId) && queryAtEnd != query ==> r == ui.(isSearching := true)
    ensures !Blank(query) && Present(userId) && queryAtEnd == query ==>
      !r.isSearching && r.results == Results(db, userId.value, ToLower(query))
  {
    TrimBlank(query);
    if Trim(query) == "" || !Present(userId) then ui.(results := [])
    else if queryAtEnd == query then SearchView(Results(db, userId.value, ToLower(query)), false)
    else ui.(isSearching := true)
  }

  /** Queries that differ only in letter case find the same results. */
  lemma SearchIgnoresCase(ui: SearchView, db: LocalDb, userId: Option<string>, q1: string, q2: string)
    requires ToLower(q1) == ToLower(q2)
    ensures RunSearch(ui, db, userId, q1, q1) == RunSearch(ui, db, userId, q2, q2)
  {
    assert Blank(q1) <==> Blank(q2) by {
      forall i | 0 <= i < |q1| ensures IsSpace(q1[i]) <==> IsSpace(q2[i]) {
        assert LowerChar(q1[i]) == ToLower(q1)[i] == ToLower(q2)[i] == LowerChar(q2[i]);
      }
    }
  }
}

=== FILE: stripewebhook.dfy ===
/** The Stripe webhook route: it checks the request's signature, then maps each
    billing event to an update of the subscriber's server-side profile. The
    signature check (`constructEvent`) and the clock are inputs. */
module StripeWebhook {
  import opened Basics

  /** The billing fields of a server-side profile row. `endDate` is in milliseconds. */
  datatype BillingProfile = BillingProfile(
    id: string,
    plan: string,
    customerId: Option<string>,
    subscriptionId: Option<string>,
    status: Option<string>,
    startDate: Option<string>,
    endDate: Option<int>)

  /** The events the route reads, with the fields it reads from them. An invoice's
      customer may be null; a subscription always has one. */
  datatype StripeEvent =
    | CheckoutCompleted(userId: Option<string>, plan: Option<string>, sessionCustomer: Option<string>, sessionSubscription: Option<string>)
    | SubscriptionUpdated(customer: string, status: string, periodEnd: Option<int>, itemPeriodEnd: Option<int>)
    | SubscriptionDeleted(customer: string)
    | PaymentFailed(invoiceCustomer: Option<string>)
    | Other(eventType: string)

  datatype Response =
    | Received
    | BadRequest(error: string)
    | ServerError(error: string)

  const MissingSignature: string := "Missing signature or webhook secret"

  /** How the ORM behaves for one request. `failure` is the message of an error that
      its calls throw, whatever the data (a lost connection, say); `notFound` is the
      message its `update` throws when no row has the id. */
  datatype Orm = Orm(failure: Option<string>, notFound: string)

  // ---------------------------------------------------------------------------
  // The profile table
  // ---------------------------------------------------------------------------

  /** `findFirst({ where: { stripeCustomerId } })`: the first row, in table order,
      with that customer id. A null customer id selects the rows that have none. */
  function FindByCustomer(ps: seq<BillingProfile>, customer: Option<string>): (r: Option<nat>)
    ensures r.Some? ==> r.value < |ps| && ps[r.value].customerId == customer
    ensures r.Some? ==> forall k :: 0 <= k < r.value ==> ps[k].customerId != customer
    ensures r.None? ==> forall k :: 0 <= k < |ps| ==> ps[k].customerId != customer
  {
    if |ps| == 0 then None
    else if ps[0].customerId == customer then Some(0)
    else
      var r := FindByCustomer(ps[1..], customer);
      if r.Some? then Some(r.value + 1) else None
  }

  predicate HasId(ps: seq<BillingProfile>, id: string) {
    exists k :: 0 <= k < |ps| && ps[k].id == id
  }

  /** `update({ where: { id }, data })`: the row with that id is changed; with no such
      row the call throws and nothing is written. */
  function UpdateById(ps: seq<BillingProfile>, id: string, f: BillingProfile -> BillingProfile)
    : (r: Option<seq<BillingProfile>>)
    ensures r.None? <==> !HasId(ps, id)
    ensures r.Some? ==> |r.value| == |ps|
    ensures r.Some? ==> forall k :: 0 <= k < |ps| ==> r.value[k] == if ps[k].id == id then f(ps[k]) else ps[k]
  {
    if !HasId(ps, id) then None
    else Some(seq(|ps|, k requires 0 <= k < |ps| => if ps[k].id == id then f(ps[k]) else ps[k]))
  }

  // ---------------------------------------------------------------------------
  // The event handlers
  // ---------------------------------------------------------------------------

  /** The status mapping of `customer.subscription.updated`: four named cases and a
      fall-through, each giving back the incoming status. */
  function MapStatus(status: string): string {
    if status == "active" then "active"
    else if status == "past_due" then "past_due"
    else if status == "canceled" then "canceled"
    else if status == "trialing" then "trialing"
    else status
  }

  lemma MapStatusIsIdentity(status: string)
    ensures MapStatus(status) == status
  {
  }

  /** The subscription's period end, or else its first item's, in seconds, turned
      into milliseconds when it is truthy: a period end of 0 is falsy and
      gives no end date, and a present 0 does not fall through to the item's value. */
  function EndDate(periodEnd: Option<int>, itemPeriodEnd: Option<int>): (r: Option<int>)
    ensures periodEnd.Some? && periodEnd.value != 0 ==> r == Some(periodEnd.value * 1000)
    ensures periodEnd.Some? && periodEnd.value == 0 ==> r.None?
    ensures periodEnd.None? ==> r == (if itemPeriodEnd.Some? && itemPeriodEnd.value != 0
                                      then Some(itemPeriodEnd.value * 1000) else None)
  {
    var pe := if periodEnd.Some? then periodEnd else itemPeriodEnd;
    if pe.Some? && pe.value != 0 then Some(pe.value * 1000) else None
  }

  /** Apply `f` to the profile found by customer id, if there is one. */
  function UpdateByCustomer(ps: seq<BillingProfile>, customer: Option<string>, f: BillingProfile -> BillingProfile)
    : (r: seq<BillingProfile>)
    ensures FindByCustomer(ps, customer).None? ==> r == ps
    ensures FindByCustomer(ps, customer).Some? ==>
      var i := FindByCustomer(ps, customer).value;
      && |r| == |ps|
      && forall k :: 0 <= k < |ps| ==> r[k] == if ps[k].id == ps[i].id then f(ps[k]) else ps[k]
  {
    match FindByCustomer(ps, customer)
    case None => ps
    case Some(i) =>
      assert HasId(ps, ps[i].id);
      UpdateById(ps, ps[i].id, f).value
  }

  /** The data written for `checkout.session.completed`. */
  function Activate(plan: string, customer: Option<string>, subscription: Option<string>, now: string)
    : BillingProfile -> BillingProfile
  {
    (p: BillingProfile) => p.(plan := plan, customerId := OrNull(customer), subscriptionId := OrNull(subscription),
            status := Some("active"), startDate := Some(now))
  }

  /** The data written for `customer.subscription.updated`. */
  function Refresh(status: string, endDate: Option<int>): BillingProfile -> BillingProfile {
    (p: BillingProfile) => p.(status := Some(status), endDate := endDate)
  }

  /** The data written for `customer.subscription.deleted`. */
  function Cancel(p: BillingProfile): BillingProfile {
    p.(plan := "free", status := Some("canceled"), subscriptionId := None)
  }

  /** The data written for `invoice.payment_failed`. */
  function MarkPastDue(p: BillingProfile): BillingProfile {
    p.(status := Some("past_due"))
  }

  /** Whether handling the event calls the ORM: a checkout only when its metadata
      names a user and a plan, an unhandled event type never. */
  predicate CallsOrm(e: StripeEvent) {
    match e
    case CheckoutCompleted(userId, plan, _, _) => Present(userId) && Present(plan)
    case Other(_) => false
    case _ => true
  }

  /** The `switch (event.type)` block: the new table, or the error it throws. */
  function Handle(ps: seq<BillingProfile>, e: StripeEvent, now: string, orm: Orm): (r: Result<seq<BillingProfile>>)
    ensures !CallsOrm(e) ==> r == Ok(ps)
    ensures CallsOrm(e) && orm.failure.Some? ==> r == Err(orm.failure.value)
    ensures e.CheckoutCompleted? && CallsOrm(e) && orm.failure.None? ==>
      && (r.Err? <==> !HasId(ps, e.userId.value))
      && (r.Err? ==> r.error == orm.notFound)
      && (r.Ok? ==> |r.value| == |ps| && forall k :: 0 <= k < |ps| ==>
            r.value[k] == if ps[k].id == e.userId.value
                          then Activate(e.plan.value, e.sessionCustomer, e.sessionSubscription, now)(ps[k])
                          else ps[k])
    ensures e.SubscriptionUpdated? && orm.failure.None? ==>
      r == Ok(UpdateByCustomer(ps, Some(e.customer), Refresh(e.status, EndDate(e.periodEnd, e.itemPeriodEnd))))
    ensures e.SubscriptionDeleted? && orm.failure.None? ==> r == Ok(UpdateByCustomer(ps, Some(e.customer), Cancel))
    ensures e.PaymentFailed? && orm.failure.None? ==> r == Ok(UpdateByCustomer(ps, e.invoiceCustomer, MarkPastDue))
  {
    if !CallsOrm(e) then Ok(ps)
    else if orm.failure.Some? then Err(orm.failure.value)
    else
      match e
      case CheckoutCompleted(userId, plan, customer, subscription) =>
        var updated := UpdateById(ps, userId.value, Activate(plan.value, customer, subscription, now));
        if updated.None? then Err(orm.notFound) else Ok(updated.value)
      case SubscriptionUpdated(customer, status, periodEnd, itemPeriodEnd) =>
        MapStatusIsIdentity(status);
        Ok(UpdateByCustomer(ps, Some(customer), Refresh(MapStatus(status), EndDate(periodEnd, itemPeriodEnd))))
      case SubscriptionDeleted(customer) => Ok(UpdateByCustomer(ps, Some(customer), Cancel))
      case PaymentFailed(customer) => Ok(UpdateByCustomer(ps, customer, MarkPastDue))
  }

  /** `POST /api/webhook/stripe`. `verification` is what `constructEvent` returns for
      the body, signature and secret: the event, or the message it throws. */
  function Webhook(ps: seq<BillingProfile>, signature: Option<string>, secret: Option<string>,
                   verification: Result<StripeEvent>, now: string, orm: Orm)
    : (r: (Response, seq<BillingProfile>))
    ensures !Present(signature) || !Present(secret) ==> r == (BadRequest(MissingSignature), ps)
    ensures Present(signature) && Present(secret) && verification.Err? ==>
      r == (BadRequest("Webhook Error: " + verification.error), ps)
    ensures Present(signature) && Present(secret) && verification.Ok? && !CallsOrm(verification.value) ==>
      r == (Received, ps)
    ensures Present(signature) && Present(secret) && verification.Ok? && orm.failure.Some? ==>
      r == (if CallsOrm(verification.value) then ServerError(orm.failure.value) else Received, ps)
    ensures r.0.Received? ==> Present(signature) && Present(secret) && verification.Ok?
    ensures !r.0.Received? ==> r.1 == ps
    ensures r.0.ServerError? ==> Some(r.0.error) == orm.failure || r.0.error == orm.notFound
    ensures |r.1| == |ps| && forall k :: 0 <= k < |ps| ==> r.1[k].id == ps[k].id
    ensures verification.Ok? && !verification.value.CheckoutCompleted? ==>
      forall k :: 0 <= k < |ps| ==> r.1[k].customerId == ps[k].customerId
  {
    if !Present(signature) || !Present(secret) then (BadRequest(MissingSignature), ps)
    else if verification.Err? then (BadRequest("Webhook Error: " + verification.error), ps)
    else
      match Handle(ps, verification.value, now, orm)
      case Ok(next) => (Received, next)
      case Err(msg) => (ServerError(msg), ps)
  }

  /** A signed request carrying a verified event answers with what handling the
      event gives. */
  lemma Accepted(ps: seq<BillingProfile>, sig: string, secret: string, e: StripeEvent, now: string, orm: Orm)
    requires sig != "" && secret != ""
    ensures Webhook(ps, Some(sig), Some(secret), Ok(e), now, orm) ==
      match Handle(ps, e, now, orm)
      case Ok(next) => (Received, next)
      case Err(msg) => (ServerError(msg), ps)
  {
  }

  // ---------------------------------------------------------------------------
  // What each event does to the profile it reaches
  // ---------------------------------------------------------------------------

  /** A cancelled subscription downgrades the subscriber to the free plan, keeps the
      customer id, and touches no other profile. */
  lemma DeletedDowngrades(ps: seq<BillingProfile>, customer: string, sig: string, secret: string, now: string, orm: Orm)
    requires sig != "" && secret != "" && orm.failure.None?
    requires FindByCustomer(ps, Some(customer)).Some?
    ensures var (resp, next) := Webhook(ps, Some(sig), Some(secret), Ok(SubscriptionDeleted(customer)), now, orm);
      var i := FindByCustomer(ps, Some(customer)).value;
      && resp == Received
      && next[i] == ps[i].(plan := "free", status := Some("canceled"), subscriptionId := None)
      && next[i].customerId == Some(customer)
      && forall k :: 0 <= k < |ps| && ps[k].id != ps[i].id ==> next[k] == ps[k]
  {
    Accepted(ps, sig, secret, SubscriptionDeleted(customer), now, orm);
    var next := UpdateByCustomer(ps, Some(customer), Cancel);
    assert Handle(ps, SubscriptionDeleted(customer), now, orm) == Ok(next);
  }

  /** A failed payment changes only the subscriber's status. */
  lemma PaymentFailedOnlyStatus(ps: seq<BillingProfile>, customer: string, sig: string, secret: string, now: string, orm: Orm)
    requires sig != "" && secret != "" && orm.failure.None?
    requires FindByCustomer(ps, Some(customer)).Some?
    ensures var (resp, next) := Webhook(ps, Some(sig), Some(secret), Ok(PaymentFailed(Some(customer))), now, orm);
      var i := FindByCustomer(ps, Some(customer)).value;
      && resp == Received
      && next[i] == ps[i].(status := Some("past_due"))
  {
  }

  /** An invoice without a customer selects the first profile that has no customer id
      either, and marks it past due. */
  lemma NullInvoiceCustomerMarksFirstUnbilled(ps: seq<BillingProfile>, sig: string, secret: string, now: string, orm: Orm)
    requires sig != "" && secret != "" && orm.failure.None?
    ensures var (resp, next) := Webhook(ps, Some(sig), Some(secret), Ok(PaymentFailed(None)), now, orm);
      && resp == Received
      && forall k :: 0 <= k < |ps| && ps[k].customerId.None? && (forall j :: 0 <= j < k ==> ps[j].customerId.Some?) ==>
           next[k].status == Some("past_due")
  {
  }

  /** An event whose customer no profile carries changes nothing. */
  lemma UnknownCustomerChangesNothing(ps: seq<BillingProfile>, e: StripeEvent, sig: string, secret: string, now: string, orm: Orm)
    requires sig != "" && secret != "" && orm.failure.None?
    requires e.SubscriptionUpdated? || e.SubscriptionDeleted? || e.PaymentFailed?
    requires var c := if e.PaymentFailed? then e.invoiceCustomer else Some(e.customer);
      forall k :: 0 <= k < |ps| ==> ps[k].customerId != c
    ensures Webhook(ps, Some(sig), Some(secret), Ok(e), now, orm) == (Received, ps)
  {
  }

  /** A completed checkout for an existing profile puts that profile on the paid plan
      with an active subscription and leaves every other profile alone; for a profile
      that does not exist, or when the ORM fails, the route answers 500 and writes
      nothing. */
  lemma CheckoutActivates(ps: seq<BillingProfile>, userId: string, plan: string, customer: Option<string>,
                          subscription: Option<string>, sig: string, secret: string, now: string, orm: Orm)
    requires sig != "" && secret != "" && userId != "" && plan != ""
    ensures var (resp, next) := Webhook(ps, Some(sig), Some(secret),
                                        Ok(CheckoutCompleted(Some(userId), Some(plan), customer, subscription)), now, orm);
      && (orm.failure.Some? ==> resp == ServerError(orm.failure.value) && next == ps)
      && (orm.failure.None? ==>
            && (resp == Received <==> HasId(ps, userId))
            && (resp != Received ==> resp == ServerError(orm.notFound) && next == ps)
            && forall k :: 0 <= k < |ps| ==>
                 && (ps[k].id == userId ==> next[k].plan == plan && next[k].status == Some("active")
                                            && next[k].customerId == OrNull(customer)
                                            && next[k].subscriptionId == OrNull(subscription)
                                            && next[k].endDate == ps[k].endDate)
                 && (ps[k].id != userId ==> next[k] == ps[k]))
  {
  }
}

=== FILE: sync.dfy ===
/** The synchronisation layer: pushing the mutation queue to the remote store
    (`syncToSupabase`), pulling remote rows into the device (`fetchFromSupabase`),
    and registering the connectivity listeners (`setupOnlineListener`). */
module Sync {
  import opened Basics
  import opened Db

  // ---------------------------------------------------------------------------
  // The remote store as the push path sees it: per table, rows of column values
  // keyed by their `id` column.
  // ---------------------------------------------------------------------------

  type Row = map<string, Value>

  type RemoteStore = map<Table, map<Value, Row>>

  /** One remote call: `upsert(row)` or `delete().eq('id', id)`. */
  datatype RemoteOp = Upsert(table: Table, row: Row) | RemoteDelete(table: Table, id: Value)

  /** A property read on a JavaScript object: a missing key reads as `undefined`. */
  function Field(p: map<string, Value>, k: string): Value {
    if k in p then p[k] else Undef
  }

  function TableOf(store: RemoteStore, t: Table): map<Value, Row> {
    if t in store then store[t] else map[]
  }

  /** The columns each `sync*` helper copies into its upsert. */
  function Columns(t: Table): set<string> {
    match t
    case Profiles => {"id", "email", "full_name", "avatar_url", "created_at"}
    case Clusters => {"id", "user_id", "name", "description", "created_at", "updated_at"}
    case Organizations => {"id", "cluster_id", "name", "created_at"}
    case People => {"id", "organization_id", "name", "role", "created_at"}
    case Notes => {"id", "cluster_id", "organization_id", "person_id", "content", "audio_url", "tags", "created_at", "updated_at"}
  }

  /** `const { id, ...rest } = data` followed by `{ id, ...rest }`, where clusters get
      `user_id: userId` placed before the spread, so a `user_id` key of the payload wins. */
  function Rebuild(t: Table, data: Payload, userId: string): (r: Payload)
    ensures Field(r, "id") == Field(data, "id")
    ensures t == Clusters ==> Field(r, "user_id") == (if "user_id" in data then data["user_id"] else Str(userId))
    ensures t != Clusters ==> forall k :: Field(r, k) == Field(data, k)
    ensures forall k :: k != "user_id" ==> Field(r, k) == Field(data, k)
  {
    var rest := data - {"id"};
    var base := if t == Clusters then map["id" := Field(data, "id"), "user_id" := Str(userId)]
                else map["id" := Field(data, "id")];
    base + rest
  }

  /** The upsert body: exactly the table's columns, each read from the record. */
  function Project(record: Payload, cols: set<string>): (row: Row)
    ensures row.Keys == cols
    ensures forall c :: c in cols ==> row[c] == Field(record, c)
  {
    map c | c in cols :: Field(record, c)
  }

  /** `syncItem` with the per-table `sync*` helpers: the one remote call an item
      leads to, or none for an unknown table or action. */
  function ItemOp(item: SyncItem, userId: string): Option<RemoteOp> {
    match ParseTable(item.table)
    case None => None
    case Some(t) =>
      match ParseAction(item.action)
      case None => None
      case Some(a) =>
        if a == Delete then Some(RemoteDelete(t, Field(Rebuild(t, item.data, userId), "id")))
        else Some(Upsert(t, Project(Rebuild(t, item.data, userId), Columns(t))))
  }

  /** The action mapping: `create` and `update` upsert the table's columns read from
      the payload, `delete` deletes by the payload's id, anything unknown does nothing.
      For clusters the `user_id` column is the payload's own if it has the key, else
      the syncing user. */
  lemma ActionMapping(item: SyncItem, userId: string)
    ensures var r := ItemOp(item, userId);
      && (r.Some? <==> ParseTable(item.table).Some? && ParseAction(item.action).Some?)
      && (r.Some? ==> r.value.table == ParseTable(item.table).value)
      && (r.Some? ==> (r.value.RemoteDelete? <==> ParseAction(item.action) == Some(Delete)))
      && (r.Some? && r.value.RemoteDelete? ==> r.value.id == Field(item.data, "id"))
      && (r.Some? && r.value.Upsert? ==>
           && r.value.row.Keys == Columns(r.value.table)
           && (forall c :: c in Columns(r.value.table) && c != "user_id" ==> r.value.row[c] == Field(item.data, c))
           && (r.value.table == Clusters ==>
                r.value.row["user_id"] == if "user_id" in item.data then item.data["user_id"] else Str(userId))
           && (r.value.table != Clusters && "user_id" in r.value.row ==> r.value.row["user_id"] == Field(item.data, "user_id")))
  {
  }

  /** The columns JSON serialisation keeps: `undefined` values are dropped. */
  function Defined(row: Row): Row {
    map c | c in row && row[c] != Undef :: row[c]
  }

  /** The remote store rejects an upsert whose primary key is not a string. */
  predicate Accepts(op: RemoteOp) {
    op.Upsert? ==> Field(op.row, "id").Str?
  }

  /** The remote effect of an accepted call: an upsert overwrites the defined columns
      of the row with that id (creating it if absent); a delete removes the row. */
  function Apply(store: RemoteStore, op: RemoteOp): RemoteStore {
    match op
    case Upsert(t, row) =>
      var key := Field(row, "id");
      var tbl := TableOf(store, t);
      var prior := if key in tbl then tbl[key] else map[];
      store[t := tbl[key := prior + Defined(row)]]
    case RemoteDelete(t, id) =>
      store[t := TableOf(store, t) - {id}]
  }

  function ApplyAll(store: RemoteStore, ops: seq<RemoteOp>): RemoteStore
    decreases |ops|
  {
    if |ops| == 0 then store else ApplyAll(Apply(store, ops[0]), ops[1..])
  }

  // ---------------------------------------------------------------------------
  // Push
  // ---------------------------------------------------------------------------

  /** A remote call that was made, and whether the remote applied it. */
  datatype Attempt = Attempt(op: RemoteOp, applied: bool)

  /** The calls a batch of items leads to, in order: the reference for replay. */
  function PlannedOps(items: seq<SyncItem>, userId: string): seq<RemoteOp>
    decreases |items|
  {
    if |items| == 0 then []
    else
      var head := ItemOp(items[0], userId);
      (if head.Some? then [head.value] else []) + PlannedOps(items[1..], userId)
  }

  function OpsOf(attempts: seq<Attempt>): (ops: seq<RemoteOp>)
    ensures |ops| == |attempts|
    ensures forall i :: 0 <= i < |attempts| ==> ops[i] == attempts[i].op
  {
    seq(|attempts|, i requires 0 <= i < |attempts| => attempts[i].op)
  }

  function AppliedOps(attempts: seq<Attempt>): seq<RemoteOp>
    decreases |attempts|
  {
    if |attempts| == 0 then []
    else (if attempts[0].applied then [attempts[0].op] else []) + AppliedOps(attempts[1..])
  }

  /** The `for ... of` loop with its `try/catch`, over the calls the items lead to:
      each call is made once, in order. `fails` holds the indices (counted over the
      calls of the batch) of the calls that throw; a thrown call is swallowed and the
      loop goes on with the next item. */
  function Replay(ops: seq<RemoteOp>, fails: set<nat>, calls: nat, store: RemoteStore)
    : (r: (seq<Attempt>, RemoteStore))
    decreases |ops|
  {
    if |ops| == 0 then ([], store)
    else
      var ok := calls !in fails && Accepts(ops[0]);
      var rest := Replay(ops[1..], fails, calls + 1, if ok then Apply(store, ops[0]) else store);
      ([Attempt(ops[0], ok)] + rest.0, rest.1)
  }

  /** Which calls of a batch are applied: each is made once, in order, and is
      applied exactly when it does not throw and the remote accepts it. */
  function Outcomes(ops: seq<RemoteOp>, fails: set<nat>, calls: nat): (attempts: seq<Attempt>)
    ensures |attempts| == |ops|
    ensures forall i :: 0 <= i < |ops| ==> attempts[i].op == ops[i]
    ensures forall i :: 0 <= i < |ops| ==> (attempts[i].applied <==> calls + i !in fails && Accepts(ops[i]))
    decreases |ops|
  {
    if |ops| == 0 then []
    else
      var rest := Outcomes(ops[1..], fails, calls + 1);
      var r := [Attempt(ops[0], calls !in fails && Accepts(ops[0]))] + rest;
      assert forall i :: 0 < i < |ops| ==> r[i] == rest[i - 1] && ops[i] == ops[1..][i - 1];
      r
  }

  /** The calls replay makes do not depend on the state of the remote. */
  lemma {:induction false} ReplayAttempts(ops: seq<RemoteOp>, fails: set<nat>, calls: nat, store: RemoteStore)
    ensures Replay(ops, fails, calls, store).0 == Outcomes(ops, fails, calls)
    decreases |ops|
  {
    if |ops| > 0 {
      var ok := calls !in fails && Accepts(ops[0]);
      ReplayAttempts(ops[1..], fails, calls + 1, if ok then Apply(store, ops[0]) else store);
    }
  }

  /** The remote ends as the applied calls, replayed in order, leave it. */
  lemma {:induction false} ReplayRemote(ops: seq<RemoteOp>, fails: set<nat>, calls: nat, store: RemoteStore)
    ensures var r := Replay(ops, fails, calls, store);
      r.1 == ApplyAll(store, AppliedOps(r.0))
    decreases |ops|
  {
    if |ops| > 0 {
      var op := ops[0];
      var ok := calls !in fails && Accepts(op);
      var next := if ok then Apply(store, op) else store;
      ReplayRemote(ops[1..], fails, calls + 1, next);
      var rest := Replay(ops[1..], fails, calls + 1, next);
      var attempts := [Attempt(op, ok)] + rest.0;
      assert attempts[1..] == rest.0;
      var applied := AppliedOps(attempts);
      if ok {
        assert applied[0] == op && applied[1..] == AppliedOps(rest.0);
      } else {
        assert applied == AppliedOps(rest.0);
      }
    }
  }

  /** The items of one user, in queue order. */
  function UserItems(q: Queue, userId: string): (r: seq<SyncItem>)
    ensures forall it :: it in r <==> it in q.items && it.userId == userId
  {
    Filter(q.items, (it: SyncItem) => it.userId == userId)
  }

  /** The defined ids among `items` (`.map(i => i.id).filter(id => id !== undefined)`). */
  function DefinedIds(items: seq<SyncItem>): (ids: set<nat>)
    ensures forall it :: it in items && it.id.Some? ==> it.id.value in ids
    ensures forall n :: n in ids ==> exists it :: it in items && it.id == Some(n)
  {
    set it | it in items && it.id.Some? :: it.id.value
  }

  /** The queue after a batch: `bulkDelete` of the batch's defined ids, skipped when
      there are none. */
  function Dequeue(q: Queue, userId: string): (r: Queue)
    ensures forall it :: it in q.items && it.userId == userId && it.id.Some? ==> it !in r.items
    ensures forall it :: it in r.items ==> it in q.items
    ensures r.nextId == q.nextId
    ensures QueueWf(q) ==> QueueWf(r)
    ensures QueueWf(q) ==> forall it :: it in r.items <==> it in q.items && it.userId != userId
  {
    var ids := DefinedIds(UserItems(q, userId));
    var r := if |ids| > 0 then BulkDelete(q, ids) else q;
    assert QueueWf(q) ==> forall it :: it in r.items <==> it in q.items && it.userId != userId by {
      if QueueWf(q) {
        DeletesExactlyUserItems(q, userId, ids);
      }
    }
    r
  }

  datatype PushResult = PushResult(queue: Queue, remote: RemoteStore, attempts: seq<Attempt>)

  /** `syncToSupabase(userId)`. It never throws: the result is always a value. */
  function SyncToSupabase(q: Queue, remote: RemoteStore, userId: string, fails: set<nat>): (r: PushResult)
    ensures (forall it :: it in q.items ==> it.userId != userId) ==> r == PushResult(q, remote, [])
    ensures OpsOf(r.attempts) == PlannedOps(UserItems(q, userId), userId)
    ensures forall i :: 0 <= i < |r.attempts| ==> (r.attempts[i].applied <==> i !in fails && Accepts(r.attempts[i].op))
    ensures r.remote == ApplyAll(remote, AppliedOps(r.attempts))
    ensures r.queue == Dequeue(q, userId)
  {
    var userItems := UserItems(q, userId);
    if |userItems| == 0 then
      assert forall it :: it in q.items ==> it.userId != userId;
      PushResult(q, remote, [])
    else
      var ops := PlannedOps(userItems, userId);
      var replayed := Replay(ops, fails, 0, remote);
      ReplayAttempts(ops, fails, 0, remote);
      ReplayRemote(ops, fails, 0, remote);
      PushResult(Dequeue(q, userId), replayed.1, replayed.0)
  }

  /** An item named by the user's ids is the user's: ids are unique in the queue. */
  lemma NamedIsUsers(q: Queue, userId: string, ids: set<nat>, it: SyncItem)
    requires IdsIncreasing(q.items)
    requires ids == DefinedIds(UserItems(q, userId))
    requires it in q.items && Named(it, ids)
    ensures it.userId == userId
  {
    var other :| other in UserItems(q, userId) && other.id == Some(it.id.value);
    assert other in q.items;
    var a :| 0 <= a < |q.items| && q.items[a] == it;
    var b :| 0 <= b < |q.items| && q.items[b] == other;
    assert ItemId(q.items[a]) == ItemId(q.items[b]);
    assert a == b by {
      assert !(a < b) && !(b < a);
    }
  }

  lemma DeletesExactlyUserItems(q: Queue, userId: string, ids: set<nat>)
    requires QueueWf(q)
    requires ids == DefinedIds(UserItems(q, userId))
    ensures forall it :: it in q.items ==> (Named(it, ids) <==> it.userId == userId)
  {
    forall it | it in q.items && Named(it, ids) ensures it.userId == userId {
      NamedIsUsers(q, userId, ids, it);
    }
    forall it | it in q.items && it.userId == userId ensures Named(it, ids) {
      var a :| 0 <= a < |q.items| && q.items[a] == it;
      assert it.id.Some?;
    }
  }

  // ---------------------------------------------------------------------------
  // Pull
  // ---------------------------------------------------------------------------

  /** What `select('*')` returns per table, keyed by primary key. */
  datatype RemoteTables = RemoteTables(
    clusters: map<string, Cluster>,
    organizations: map<string, Organization>,
    people: map<string, Person>,
    notes: map<string, Note>)

  /** `for (const row of rows) await table.put({ ...row, synced: true })`: fetched rows
      replace local rows with the same id; a failed fetch (`data == null`) writes nothing. */
  function Overlay<R>(local: map<string, R>, fetched: Option<map<string, R>>, mark: R -> R): (r: map<string, R>)
    ensures fetched.None? ==> r == local
    ensures fetched.Some? ==> r.Keys == local.Keys + fetched.value.Keys
    ensures fetched.Some? ==> forall k :: k in fetched.value ==> r[k] == mark(fetched.value[k])
    ensures forall k :: k in local && (fetched.None? || k !in fetched.value) ==> r[k] == local[k]
  {
    if fetched.None? then local
    else local + map k | k in fetched.value :: mark(fetched.value[k])
  }

  /** `r` is `local` with the rows of `fetched` put over it: its ids are those of
      both, and a local row whose id was not fetched is kept as it was. */
  predicate PutOver<R(==)>(local: map<string, R>, fetched: map<string, R>, r: map<string, R>) {
    && r.Keys == local.Keys + fetched.Keys
    && forall k :: k in local && k !in fetched ==> r[k] == local[k]
  }

  /** Putting the same fetched rows a second time changes nothing. */
  lemma OverlayTwice<R>(local: map<string, R>, fetched: Option<map<string, R>>, mark: R -> R)
    ensures Overlay(Overlay(local, fetched, mark), fetched, mark) == Overlay(local, fetched, mark)
  {
  }

  /** `{ ...row, synced: true }` per table. */
  function SyncedCluster(c: Cluster): Cluster { c.(synced := true) }
  function SyncedOrganization(o: Organization): Organization { o.(synced := true) }
  function SyncedPerson(p: Person): Person { p.(synced := true) }
  function SyncedNote(n: Note): Note { n.(synced := true) }

  function Fetch<R>(t: Table, failed: set<Table>, rows: map<string, R>): (r: Option<map<string, R>>)
    ensures t in failed <==> r.None?
    ensures r.Some? ==> r.value == rows
  {
    if t in failed then None else Some(rows)
  }

  /** `.from('clusters').select('*').eq('user_id', userId)`. */
  function OwnedClusters(remote: RemoteTables, userId: string): (r: map<string, Cluster>)
    ensures forall k :: k in r <==> k in remote.clusters && remote.clusters[k].userId == userId
    ensures forall k :: k in r ==> r[k] == remote.clusters[k]
  {
    map k | k in remote.clusters && remote.clusters[k].userId == userId :: remote.clusters[k]
  }

  /** `fetchFromSupabase(userId)`. `failed` lists the tables whose fetch returned no data. */
  function FetchFromSupabase(db: LocalDb, remote: RemoteTables, hasSession: bool, userId: string, failed: set<Table>)
    : (r: LocalDb)
    ensures !hasSession || userId == "" ==> r == db
    ensures r.profiles == db.profiles && r.syncQueue == db.syncQueue
    ensures Clusters in failed ==> r.clusters == db.clusters
    ensures Organizations in failed ==> r.organizations == db.organizations
    ensures People in failed ==> r.people == db.people
    ensures Notes in failed ==> r.notes == db.notes
    ensures hasSession && userId != "" && Clusters !in failed ==>
      PutOver(db.clusters, OwnedClusters(remote, userId), r.clusters)
    ensures hasSession && userId != "" && Organizations !in failed ==>
      PutOver(db.organizations, remote.organizations, r.organizations)
    ensures hasSession && userId != "" && People !in failed ==> PutOver(db.people, remote.people, r.people)
    ensures hasSession && userId != "" && Notes !in failed ==> PutOver(db.notes, remote.notes, r.notes)
    ensures forall k :: k in r.clusters && k !in db.clusters ==> r.clusters[k].userId == userId && r.clusters[k].synced
    ensures hasSession && userId != "" && Clusters !in failed ==>
      forall k :: k in remote.clusters && remote.clusters[k].userId == userId ==>
        k in r.clusters && r.clusters[k] == remote.clusters[k].(synced := true)
    ensures hasSession && userId != "" && Organizations !in failed ==>
      forall k :: k in remote.organizations ==> k in r.organizations && r.organizations[k] == remote.organizations[k].(synced := true)
    ensures hasSession && userId != "" && People !in failed ==>
      forall k :: k in remote.people ==> k in r.people && r.people[k] == remote.people[k].(synced := true)
    ensures hasSession && userId != "" && Notes !in failed ==>
      forall k :: k in remote.notes ==> k in r.notes && r.notes[k] == remote.notes[k].(synced := true)
  {
    if !hasSession || userId == "" then db
    else
      var owned := OwnedClusters(remote, userId);
      db.(clusters := Overlay(db.clusters, Fetch(Clusters, failed, owned), SyncedCluster),
          organizations := Overlay(db.organizations, Fetch(Organizations, failed, remote.organizations), SyncedOrganization),
          people := Overlay(db.people, Fetch(People, failed, remote.people), SyncedPerson),
          notes := Overlay(db.notes, Fetch(Notes, failed, remote.notes), SyncedNote))
  }

  /** Pulling the same remote rows a second time changes nothing: every row put
      is put again unchanged, and every kept row is kept again. */
  lemma PullTwiceIsPullOnce(db: LocalDb, remote: RemoteTables, hasSession: bool, userId: string, failed: set<Table>)
    ensures var once := FetchFromSupabase(db, remote, hasSession, userId, failed);
      FetchFromSupabase(once, remote, hasSession, userId, failed) == once
  {
    if hasSession && userId != "" {
      OverlayTwice(db.clusters, Fetch(Clusters, failed, OwnedClusters(remote, userId)), SyncedCluster);
      OverlayTwice(db.organizations, Fetch(Organizations, failed, remote.organizations), SyncedOrganization);
      OverlayTwice(db.people, Fetch(People, failed, remote.people), SyncedPerson);
      OverlayTwice(db.notes, Fetch(Notes, failed, remote.notes), SyncedNote);
    }
  }

  // ---------------------------------------------------------------------------
  // Connectivity listeners
  // ---------------------------------------------------------------------------

  datatype Signal = Online | Offline

  /** The window's registered listeners: (event, handler). Registering the same
      handler for the same event twice keeps one registration, as the DOM does. */
  type Registry = set<(Signal, nat)>

  datatype Listening = Listening(registry: Registry, teardown: Option<(nat, nat)>)

  /** `setupOnlineListener(onOnline, onOffline)`: without a window nothing is registered
      and no teardown is returned. */
  function SetupOnlineListener(hasWindow: bool, registry: Registry, onOnline: nat, onOffline: nat): (r: Listening)
    ensures !hasWindow ==> r.registry == registry && r.teardown.None?
    ensures hasWindow ==> r.teardown == Some((onOnline, onOffline))
    ensures hasWindow ==> r.registry == registry + {(Online, onOnline), (Offline, onOffline)}
  {
    if !hasWindow then Listening(registry, None)
    else Listening(registry + {(Online, onOnline), (Offline, onOffline)}, Some((onOnline, onOffline)))
  }

  /** The returned teardown: removes both listeners. */
  function Teardown(registry: Registry, handle: (nat, nat)): (r: Registry)
    ensures r <= registry
    ensures (Online, handle.0) !in r && (Offline, handle.1) !in r
    ensures forall e :: e in registry && e != (Online, handle.0) && e != (Offline, handle.1) ==> e in r
  {
    registry - {(Online, handle.0), (Offline, handle.1)}
  }

  /** Tearing down a fresh registration gives the registry back as it was. */
  lemma SetupThenTeardown(registry: Registry, onOnline: nat, onOffline: nat)
    requires (Online, onOnline) !in registry && (Offline, onOffline) !in registry
    ensures var l := SetupOnlineListener(true, registry, onOnline, onOffline);
      Teardown(l.registry, l.teardown.value) == registry
  {
  }
}

=== FILE: text.dfy ===
/** The string primitives the application relies on, restricted to ASCII:
    `toLowerCase`, `trim`, `includes`, `split(',')`, `join` and the regex class `\w`. */
module Text {

  /** The characters `String.prototype.trim` removes, restricted to ASCII:
      space, tab, line feed, vertical tab, form feed, carriage return. */
  predicate IsSpace(c: char) {
    c == ' ' || 9 <= c as int <= 13
  }

  /** The regular-expression class `\w`: `[A-Za-z0-9_]`. */
  predicate IsWordChar(c: char) {
    ('a' <= c <= 'z') || ('A' <= c <= 'Z') || ('0' <= c <= '9') || c == '_'
  }

  function LowerChar(c: char): char {
    if 'A' <= c <= 'Z' then (c as int + 32) as char else c
  }

  function ToLower(s: string): (r: string)
    ensures |r| == |s|
  {
    seq(|s|, i requires 0 <= i < |s| => LowerChar(s[i]))
  }

  predicate StartsWith(s: string, prefix: string) {
    |prefix| <= |s| && s[..|prefix|] == prefix
  }

  /** `hay.includes(needle)`: `needle` occurs at some offset of `hay`. */
  predicate Includes(hay: string, needle: string)
    decreases |hay|
  {
    StartsWith(hay, needle) || (|hay| > 0 && Includes(hay[1..], needle))
  }

  /** A needle found at offset `p` is included. */
  lemma {:induction false} IncludesAt(hay: string, needle: string, p: nat)
    requires p + |needle| <= |hay| && hay[p..p + |needle|] == needle
    ensures Includes(hay, needle)
    decreases p
  {
    if p > 0 {
      assert hay[1..][p - 1..p - 1 + |needle|] == hay[p..p + |needle|];
      IncludesAt(hay[1..], needle, p - 1);
    }
  }

  predicate Blank(s: string) {
    forall i :: 0 <= i < |s| ==> IsSpace(s[i])
  }

  /** No whitespace at either end. */
  predicate Trimmed(s: string) {
    s == [] || (!IsSpace(s[0]) && !IsSpace(s[|s| - 1]))
  }

  function TrimStart(s: string): (r: string)
    ensures |r| <= |s|
    ensures r == s[|s| - |r|..]
    ensures r == [] || !IsSpace(r[0])
    ensures Blank(s[..|s| - |r|])
  {
    if |s| > 0 && IsSpace(s[0]) then TrimStart(s[1..]) else s
  }

  function TrimEnd(s: string): (r: string)
    ensures |r| <= |s|
    ensures r == s[..|r|]
    ensures r == [] || !IsSpace(r[|r| - 1])
    ensures Blank(s[|r|..])
  {
    if |s| > 0 && IsSpace(s[|s| - 1]) then TrimEnd(s[..|s| - 1]) else s
  }

  /** `s.trim()`. */
  function Trim(s: string): (r: string)
    ensures Trimmed(r)
  {
    var t := TrimStart(s);
    var r := TrimEnd(t);
    assert r != [] ==> r[0] == t[0];
    r
  }

  lemma TrimBlank(s: string)
    ensures Trim(s) == [] <==> Blank(s)
  {
    assert s[..|s|] == s;
  }

  lemma TrimmedFixed(s: string)
    requires Trimmed(s)
    ensures Trim(s) == s
  {
  }

  lemma TrimSkipsLeadingSpace(s: string)
    ensures Trim(" " + s) == Trim(s)
  {
    assert (" " + s)[1..] == s;
  }

  /** `s.split(d)` for a one-character separator: the pieces between separators,
      always at least one (the empty string splits into `[""]`). */
  function Split(s: string, d: char): (r: seq<string>)
    ensures |r| >= 1
    ensures forall i :: 0 <= i < |r| ==> d !in r[i]
  {
    if |s| == 0 then [""]
    else
      var rest := Split(s[1..], d);
      if s[0] == d then [""] + rest
      else [[s[0]] + rest[0]] + rest[1..]
  }

  /** `parts.join(sep)`. */
  function Join(parts: seq<string>, sep: string): string {
    if |parts| == 0 then ""
    else if |parts| == 1 then parts[0]
    else parts[0] + sep + Join(parts[1..], sep)
  }

  lemma {:induction false} SplitWithoutSeparator(s: string, d: char)
    requires d !in s
    ensures Split(s, d) == [s]
  {
    if |s| > 0 {
      SplitWithoutSeparator(s[1..], d);
      assert [s[0]] + s[1..] == s;
    }
  }

  lemma {:induction false} SplitAtSeparator(a: string, d: char, b: string)
    requires d !in a
    ensures Split(a + [d] + b, d) == [a] + Split(b, d)
  {
    if |a| == 0 {
      assert (a + [d] + b)[1..] == b;
    } else {
      assert (a + [d] + b)[1..] == a[1..] + [d] + b;
      SplitAtSeparator(a[1..], d, b);
      assert [a[0]] + a[1..] == a;
    }
  }

  /** Splitting at a separator splits the two sides independently. */
  lemma {:induction false} SplitConcat(a: string, d: char, b: string)
    ensures Split(a + [d] + b, d) == Split(a, d) + Split(b, d)
    decreases |a|
  {
    if |a| == 0 {
      assert a + [d] + b == [d] + b;
      assert ([d] + b)[1..] == b;
    } else {
      assert (a + [d] + b)[1..] == a[1..] + [d] + b;
      SplitConcat(a[1..], d, b);
    }
  }

  /** What `trim` returns is a piece of its input. */
  lemma TrimWithin(s: string)
    ensures exists i, j :: 0 <= i <= j <= |s| && Trim(s) == s[i..j]
  {
    var t := TrimStart(s);
    var r := TrimEnd(t);
    assert t == s[|s| - |t|..];
    assert r == t[..|r|];
    assert r == s[|s| - |t|..|s| - |t| + |r|];
  }

  lemma TrimKeepsOut(s: string, c: char)
    requires c !in s
    ensures c !in Trim(s)
  {
    TrimWithin(s);
  }
}
